=== FILE: README.md ===
# MariaDB replication GTID state, InnoDB redo-log buffer and wsrep conflict handling in Dafny

This project models three pieces of the MariaDB server and proves properties of the models.

- **Global transaction identifiers and filters** (`sql/rpl_gtid.h`).
  - A GTID is the triple (domain id, server id, sequence number).
  - The slave state records, per domain, the applied GTIDs and the highest sequence number seen.
  - The binlog state records the last GTID written for every (domain, server) pair. It also keeps a per-domain sequence counter, which allocates new GTIDs and enforces strict ordering.
  - The slave connection state is the start position a slave requests, one GTID per domain.
  - The binlog event filters are accept-all, reject-all, the start/stop window, the per-domain and per-server delegating filters (with black- and whitelists), and the intersection of two filters.
  - `gtid.dfy`, `gtid_state.dfy` and `gtid_filter.dfy` hold the values, functions and lemmas. `filter_objects.dfy` holds the window and delegating filters as objects updated in place. Each of their methods is specified by the value function.
- **The InnoDB redo log** (`storage/innobase/log/log0log.cc`), in `redo_log.dfy`.
  - Covered: the capacity and checkpoint-age arithmetic, the log file path, the log buffer, and `write_buf`. `write_buf` pads the tail to a block, writes the buffer to the circular log file, moves the tail to the start of the other buffer, and swaps the two buffers.
  - Also covered: `log_write_buf`'s wrap-around write, the flushed-LSN updates of `flush` and `persist`, the resize-target offset, and the checkpoint-margin decision.
  - `log_t` is the class `LogSys`. Its buffers and the file image are arrays.
- **Galera (wsrep) conflict handling on a THD** (`sql/wsrep_thd.cc`), in `wsrep_thd.dfy`.
  - Covered: the conflict-state machine driven by `wsrep_kill`, client rollback after a brute-force (BF) abort, the rollbacker's drain of the aborting queue, and transaction replay.
  - Also covered: switching a THD into BF (applier) mode and back through the saved shadow, the BF/local classification predicates, `wsrep_abort_thd`, and the auto-increment variable choice.
  - A THD is the class `Thd`, whose session state is one record. The server globals (BF abort counter, aborting queue, replaying count) are fields of `WsrepContext`.

## Model

| member | source | states |
|---|---|---|
| Gtid.Equals | sql/rpl_gtid.h:40-46 | two GTIDs compare equal exactly when all three components are equal |
| GtidState.MaxSeqNo | sql/rpl_gtid.h:141 | the highest seq_no bounds every recorded seq_no and is one of them (0 when none) |
| GtidState.MaxSeqNoAppend | sql/rpl_gtid.h:141 | recording one more seq_no makes the highest the maximum of the old highest and the new one |
| GtidState.SlaveStateElement.constructor | sql/rpl_gtid.h:136-174 | a new domain element has an empty list and highest seq_no 0 |
| GtidState.SlaveStateElement.GrabList | sql/rpl_gtid.h:168 | returns the whole list and leaves the element's list empty |
| GtidState.SlaveStateElement.Add | sql/rpl_gtid.h:169-173 | the new entry goes to the head of the list, with the old list after it |
| GtidState.SlaveStateElement.NoteSeqNo | sql/rpl_gtid.h:141 | highest_seq_no stays the maximum over every seq_no ever recorded for the domain |
| GtidState.SlaveState.constructor | sql/rpl_gtid.h:117-260 | a new slave state has no domains |
| GtidState.SlaveState.Count | sql/rpl_gtid.h:233 | the count is the number of domains in the hash |
| GtidState.SlaveState.GetElement | sql/rpl_gtid.h:253 | returns the domain's existing element unchanged, or creates and registers a fresh empty one |
| GtidState.SlaveStateElement.Record | sql/rpl_gtid.h:234-235 | the node goes in front of the domain's list and the highest seq_no becomes the maximum of all recorded ones |
| GtidState.SlaveState.Update | sql/rpl_gtid.h:234-235 | the GTID is pushed on its domain's list and the highest seq_no becomes the max; other domains are untouched; last_sub_id becomes the max of itself and sub_id |
| GtidState.SlaveState.RecordIn | sql/rpl_gtid.h:234-235 | the node goes in front of its domain's list, the highest seq_no becomes the max, last_sub_id becomes the max of itself and the node's sub_id, and no other domain changes |
| GtidState.UpdateElement | sql/rpl_gtid.h:287-295 | the server's entry becomes the GTID and last_gtid points to it, whether or not the fast same-server path is taken |
| GtidState.NewBinlogElement | sql/rpl_gtid.h:287-296 | a new domain element holds just the GTID as its last GTID, with the counter at its seq_no |
| GtidState.UpdateElementValid | sql/rpl_gtid.h:287-296 | updating an element with a seq_no within the counter keeps every entry in its domain and below the counter |
| GtidState.NextSeqNo | sql/rpl_gtid.h:293 | the next allocated seq_no is the counter plus one, wrapping to 0 at 2^64 |
| GtidState.BinlogState.constructor | sql/rpl_gtid.h:285-334 | a new binlog state is empty |
| GtidState.BinlogState.Reset | sql/rpl_gtid.h:310-311 | reset empties the state |
| GtidState.BinlogState.Find | sql/rpl_gtid.h:329-330 | finds the GTID of a (domain, server) pair exactly when the pair was recorded |
| GtidState.BinlogState.FindMostRecent | sql/rpl_gtid.h:331 | returns the domain's last recorded GTID, nothing for an unknown domain |
| GtidState.BinlogState.CheckStrictSequence | sql/rpl_gtid.h:320 | fails exactly when the domain is known and the seq_no does not exceed its counter |
| GtidState.BinlogState.Update | sql/rpl_gtid.h:315-316 | strict mode refuses an out-of-order GTID and changes nothing; otherwise the pair's entry and the domain's last GTID become the GTID and the counter becomes the max; other domains are untouched |
| GtidState.BinlogState.UpdateWithNextGtid | sql/rpl_gtid.h:317-318 | allocates counter+1 (1 for a new domain), records it as the pair's and the domain's last GTID, and returns it |
| GtidState.BinlogState.BumpSeqNoIfNeeded | sql/rpl_gtid.h:321 | raises the domain counter to at least seq_no, creating an empty domain if needed, and keeps the recorded GTIDs |
| GtidState.SlaveConnectionState.constructor | sql/rpl_gtid.h:340-372 | a new connection state is empty |
| GtidState.SlaveConnectionState.Reset | sql/rpl_gtid.h:362 | reset empties the state |
| GtidState.SlaveConnectionState.Count | sql/rpl_gtid.h:371 | the count is the number of domains |
| GtidState.SlaveConnectionState.Find | sql/rpl_gtid.h:366 | returns the GTID requested for a domain exactly when the domain is present |
| GtidState.SlaveConnectionState.FindEntry | sql/rpl_gtid.h:367 | returns the domain's entry exactly when the domain is present |
| GtidState.SlaveConnectionState.Update | sql/rpl_gtid.h:368 | the domain's GTID becomes the given one, keeping the entry's flags (0 for a new entry); other domains are untouched |
| GtidState.SlaveConnectionState.Remove | sql/rpl_gtid.h:369 | removes the domain's entry and nothing else |
| GtidState.SlaveConnectionState.RemoveIfPresent | sql/rpl_gtid.h:370 | afterwards the domain is absent and every other domain is unchanged |
| GtidFilter.SetStartGtid | sql/rpl_gtid.h:496-501 | fails exactly when a start position is already set; otherwise sets it and nothing else |
| GtidFilter.SetStopGtid | sql/rpl_gtid.h:503-508 | fails exactly when a stop position is already set; otherwise sets it and nothing else |
| GtidFilter.ClearStartPos | sql/rpl_gtid.h:521-525 | clears the start position and keeps the stop position |
| GtidFilter.ClearStopPos | sql/rpl_gtid.h:527-531 | clears the stop position and keeps the start position |
| GtidFilter.WindowExclude | sql/rpl_gtid.h:470-485 | a passed window excludes everything; before the start, excluded; a window with no start activates on its first GTID and lets it through; the GTID that reaches the start stream activates the window and is excluded exactly when it is the start GTID itself (exclusive start); once active, let through; reaching the stop passes the window, excluding the start GTID and seq_nos beyond the stop; bounds are never changed; the warning flag is sticky; in strict mode, an active window fed a lower seq_no of the domain it last saw sets the out-of-order warning, and otherwise the warning is as before |
| GtidFilter.WindowWarnings | sql/rpl_gtid.h:431-435 | one warning exactly when the out-of-order flag is set |
| GtidFilter.Warnings | sql/rpl_gtid.h:814-818 | constant filters write nothing; a window writes exactly when its out-of-order flag is set; a delegating filter writes nothing exactly when no explicit filter and not its default filter does; an intersecting filter writes nothing exactly when neither child does |
| GtidFilter.ElementWarnings | sql/rpl_gtid.h:629 | the explicit filters from position i on write nothing exactly when none of them has a warning |
| GtidFilter.WindowExcludePreservesValid | sql/rpl_gtid.h:549-595 | a window is never active and passed at once, across any exclude |
| GtidFilter.StrictWindowWarnsOnLowerSeqNo | sql/rpl_gtid.h:535-546 | an active strict window fed a lower seq_no of the same domain has a warning to write |
| GtidFilter.FilterType | sql/rpl_gtid.h:397-404 | each filter variant reports its own type code |
| GtidFilter.GetIdFromGtid | sql/rpl_gtid.h:699-702 | the domain filter keys by domain id, the server filter by server id (lines 776-779) |
| GtidFilter.Lookup | sql/rpl_gtid.h:660 | finds the element registered for an id, or reports that none is |
| GtidFilter.CountFinished | sql/rpl_gtid.h:652-653 | the completed-filter count never exceeds the number of explicit filters |
| GtidFilter.Step | sql/rpl_gtid.h:407-415 | excluding a GTID never changes a filter's type |
| GtidFilter.DelegationExclude | sql/rpl_gtid.h:627 | dispatch keeps the ids, the explicit-filter count and the start/stop lists, and never lowers the completed count |
| GtidFilter.Run | sql/rpl_gtid.h:407-415 | feeding a stream yields one verdict per GTID |
| GtidFilter.NewDelegation | sql/rpl_gtid.h:612-661 | a new delegating filter has no explicit filters, an accept-all default and is not finished |
| GtidFilter.AddIdFilter | sql/rpl_gtid.h:660 | an id already registered keeps its filter; a new id is appended and counted |
| GtidFilter.AddIdFilters | sql/rpl_gtid.h:636-648 | registering ids changes only the explicit elements and their count |
| GtidFilter.SetBlacklist | sql/rpl_gtid.h:636-641 | fails exactly when a whitelist is set; otherwise the default becomes accept-all |
| GtidFilter.SetWhitelist | sql/rpl_gtid.h:643-648 | fails exactly when a blacklist is set; otherwise the default becomes reject-all |
| GtidFilter.AddBoundGtid | sql/rpl_gtid.h:704-716 | an unknown domain always succeeds; a domain whose filter is not a window is refused; success appends the domain to the start or stop list (a window that thereby finishes is counted as completed) |
| GtidFilter.SetBound | sql/rpl_gtid.h:763 | setting a bound fails exactly when that bound is already set |
| GtidFilter.RecordBound | sql/rpl_gtid.h:704-716 | only the start or the stop list grows, by the domain id |
| GtidFilter.WindowOf | sql/rpl_gtid.h:763 | a window is found only for a registered domain |
| GtidFilter.GetStartGtids | sql/rpl_gtid.h:725-730 | one GTID per start entry: the start position of that domain's window |
| GtidFilter.GetStopGtids | sql/rpl_gtid.h:732-737 | one GTID per stop entry: the stop position of that domain's window |
| GtidFilter.ClearBound | sql/rpl_gtid.h:521-531 | the chosen bound is cleared, the other bound and the window's phase are kept |
| GtidFilter.ClearedElement | sql/rpl_gtid.h:718-723 | an element is dropped exactly when it is a window holding only the cleared kind of bound; a window holding both loses that bound; any other element is kept as it is |
| GtidFilter.ClearElements | sql/rpl_gtid.h:718-723 | no window keeps the cleared kind of bound, nothing is added, and valid elements stay valid |
| GtidFilter.ClearGtids | sql/rpl_gtid.h:718-723 | only the elements, the counters and the cleared list change; the counters are recomputed from the remaining elements |
| GtidFilter.ClearStartGtids | sql/rpl_gtid.h:718-722 | the start list is emptied, no window keeps a start position, the stop list is kept, and the counters match the remaining elements |
| GtidFilter.ClearStopGtids | sql/rpl_gtid.h:718-723 | the stop list is emptied, no window keeps a stop position, the start list is kept, and the counters match the remaining elements |
| GtidFilter.ClearElementsLookup | sql/rpl_gtid.h:718-723 | after clearing, an id has an element exactly when it had one that clearing did not drop, and that element is the cleared form of the old one |
| GtidFilter.ClearElementsUnique | sql/rpl_gtid.h:718-723 | clearing keeps every id registered at most once |
| GtidFilter.ClearGtidsValid | sql/rpl_gtid.h:718-723 | clearing the start or the stop positions keeps the delegating invariant |
| GtidFilter.ClearGtidsStartsOver | sql/rpl_gtid.h:718-721 | per domain: a window holding only the cleared bound is gone, so the domain falls back to the default filter; a window with the other bound keeps it; other filters stay; no domain gains a filter |
| GtidFilter.RespecifiedStartExample | sql/rpl_gtid.h:718-721 | start 1-1-5 and stop 0-1-9, then clear_start_gtids, equals a new filter given only stop 0-1-9, which finishes once it sees 0-1-9 |
| GtidFilter.ConstantFiltersNeverFinish | sql/rpl_gtid.h:445-467 | accept-all lets every GTID through, reject-all excludes every one, and neither ever finishes |
| GtidFilter.IntersectingExcludesIffEither | sql/rpl_gtid.h:786-819 | the intersection excludes exactly what either filter excludes, finishes when both finish, and reports both filters' warnings |
| GtidFilter.IntersectAcceptRejectExcludesAll | sql/rpl_gtid.h:786-802 | intersecting accept-all with reject-all excludes every GTID of every stream |
| GtidFilter.NoStartActiveFromBeginning | sql/rpl_gtid.h:470-485 | a window without a start position lets GTIDs through from the first one |
| GtidFilter.NoStopNeverFinishes | sql/rpl_gtid.h:423-429 | a window without a stop position never finishes, whatever the stream |
| GtidFilter.WindowExampleStream | sql/rpl_gtid.h:470-485 | window (0-1-0, 0-1-2] over 0-1-1, 0-2-1, 0-1-2 lets all three through and finishes at the last |
| GtidFilter.DomainFilterExampleStream | sql/rpl_gtid.h:663-716 | the same window set through a domain filter gives the same verdicts and finishes only after the stop GTID |
| GtidFilter.CountFinishedUpdate | sql/rpl_gtid.h:652-653 | replacing one explicit filter changes the completed count by that filter's change of state |
| GtidFilter.CountFinishedAppend | sql/rpl_gtid.h:652-653 | appending a filter adds one to the completed count exactly when it is finished |
| GtidFilter.CountFinishedAll | sql/rpl_gtid.h:628 | when every explicit filter is counted complete, each one has finished |
| GtidFilter.LookupAppend | sql/rpl_gtid.h:660 | after appending, the new id is found at the end and other ids where they were |
| GtidFilter.LookupUnique | sql/rpl_gtid.h:660 | with unique ids, the lookup finds the element holding the id |
| GtidFilter.StepPreservesValid | sql/rpl_gtid.h:407-415 | every filter's structural invariant survives any exclude |
| GtidFilter.DelegationExcludePreservesValid | sql/rpl_gtid.h:627 | the completed count stays equal to the number of finished explicit filters |
| GtidFilter.Finished | sql/rpl_gtid.h:808-811 | accept-all and reject-all never finish; a window finishes only once it has a stop; a delegating filter only with at least one explicit filter; that finishing is permanent is FinishedIsStable, and intersecting filters finishing exactly when both children do is IntersectingExcludesIffEither |
| GtidFilter.FinishedIsStable | sql/rpl_gtid.h:423-429 | a finished filter stays finished whatever it is fed next |
| GtidFilter.CompletedNeverExceedsExplicit | sql/rpl_gtid.h:652-653 | the completed count never exceeds the explicit-filter count |
| GtidFilter.AddIdFiltersShape | sql/rpl_gtid.h:636-648 | existing elements stay in place; the new ones are appended with the given filter and counted |
| GtidFilter.AddIdFilterLookup | sql/rpl_gtid.h:660 | registering one id keeps the element of every known id and adds an element, with the given filter, only for that id |
| GtidFilter.AddIdFiltersLookup | sql/rpl_gtid.h:636-660 | after registration an id is found exactly when it was known or listed; known ids keep their element; new ones get the given filter |
| GtidFilter.AddIdFiltersValid | sql/rpl_gtid.h:636-648 | registering unfinished filters keeps the delegating invariant |
| GtidFilter.BlacklistExcludesExactlyListed | sql/rpl_gtid.h:636-641 | a fresh blacklist excludes a GTID exactly when its id is listed |
| GtidFilter.WhitelistIncludesExactlyListed | sql/rpl_gtid.h:643-648 | a fresh whitelist lets a GTID through exactly when its id is listed |
| GtidFilter.ConstantChildrenNeverFinish | sql/rpl_gtid.h:628 | a delegating filter whose explicit filters are all accept-all or reject-all never finishes |
| GtidFilter.ConstantCountIsZero | sql/rpl_gtid.h:652-653 | constant explicit filters contribute nothing to the completed count |
| GtidFilter.BlacklistFiveNeverFinishes | sql/rpl_gtid.h:636-641 | blacklisting id 5 excludes exactly id 5 and never finishes |
| GtidFilter.UnregisteredIdGoesToDefault | sql/rpl_gtid.h:627-630 | a GTID with no explicit filter is judged by the default filter alone |
| GtidFilter.RegisteredIdGoesToChild | sql/rpl_gtid.h:627 | a GTID whose id has an unfinished explicit filter is judged by that filter |
| GtidFilter.DomainWindowWarnsOnLowerSeqNo | sql/rpl_gtid.h:590-595 | a strict domain filter whose active window for the domain is fed a lower seq_no has a warning to write |
| GtidFilter.AddBoundGtidValid | sql/rpl_gtid.h:704-716 | adding a start or stop GTID keeps the delegating invariant |
| GtidFilter.AppendWindowValid | sql/rpl_gtid.h:763 | appending a new unfinished window keeps the delegating invariant |
| GtidFilter.ReplaceWindowValid | sql/rpl_gtid.h:763 | updating a window in place under the same id, never un-finishing it, keeps the invariant once a newly finished window is counted |
| GtidFilter.AddBoundGtidRegisters | sql/rpl_gtid.h:704-716 | after a successful add, the domain's window carries the GTID as its start or stop |
| GtidFilter.AddStartGtidReported | sql/rpl_gtid.h:704-709 | a successfully added start GTID is the last one get_start_gtids reports |
| GtidFilter.AddStopGtidReported | sql/rpl_gtid.h:711-716 | a successfully added stop GTID is the last one get_stop_gtids reports |
| GtidFilter.RepeatedStartRefused | sql/rpl_gtid.h:704-709 | a second start GTID for the same domain is refused |
| FilterObjects.WindowFilter.constructor | sql/rpl_gtid.h:486-596 | a new window has no bounds, is inactive and not passed |
| FilterObjects.WindowFilter.SetStartGtid | sql/rpl_gtid.h:496-501 | returns 0 exactly when no start was set, then behaves as the value operation, else changes nothing |
| FilterObjects.WindowFilter.SetStopGtid | sql/rpl_gtid.h:503-508 | returns 0 exactly when no stop was set, then behaves as the value operation, else changes nothing |
| FilterObjects.WindowFilter.ClearStartPos | sql/rpl_gtid.h:521-525 | the new state is the old one with the start cleared |
| FilterObjects.WindowFilter.ClearStopPos | sql/rpl_gtid.h:527-531 | the new state is the old one with the stop cleared |
| FilterObjects.WindowFilter.Exclude | sql/rpl_gtid.h:470-485 | the verdict and new state are those of WindowExclude, and the window invariant is kept |
| FilterObjects.WindowFilter.HasFinished | sql/rpl_gtid.h:493 | finished only when the window has a stop and has passed it; a window without a stop never finishes |
| FilterObjects.IdDelegatingFilter.constructor | sql/rpl_gtid.h:612-661 | a new filter is the empty delegation with an accept-all default |
| FilterObjects.IdDelegatingFilter.SetDefaultFilter | sql/rpl_gtid.h:630 | only the default filter changes; a valid filter given a valid default stays valid |
| FilterObjects.IdDelegatingFilter.SetGtidStrictMode | sql/rpl_gtid.h:745-748 | only the strict-mode flag changes; a valid filter stays valid |
| FilterObjects.IdDelegatingFilter.Exclude | sql/rpl_gtid.h:627 | the verdict and new state are those of DelegationExclude, and the invariant is kept |
| FilterObjects.IdDelegatingFilter.HasFinished | sql/rpl_gtid.h:628 | finished only when there is at least one explicit filter and every one of them has completed; with no explicit filter it never finishes |
| FilterObjects.IdDelegatingFilter.SetBlacklist | sql/rpl_gtid.h:636-641 | returns 0 exactly when the value operation succeeds, and takes its new state; else nothing changes; a valid filter stays valid |
| FilterObjects.IdDelegatingFilter.SetWhitelist | sql/rpl_gtid.h:643-648 | returns 0 exactly when the value operation succeeds, and takes its new state; else nothing changes; a valid filter stays valid |
| FilterObjects.IdDelegatingFilter.FindOrCreateFilterElement | sql/rpl_gtid.h:660 | an id already registered keeps its element; a new id gets an element with the given filter, counted as explicit |
| FilterObjects.IdDelegatingFilter.AddIdFiltersLoop | sql/rpl_gtid.h:636-648 | the loop over the ids reaches the state AddIdFilters describes |
| FilterObjects.IdDelegatingFilter.AddStartGtid | sql/rpl_gtid.h:704-709 | returns 0 exactly when AddBoundGtid succeeds, taking its state; else nothing changes; a valid filter stays valid |
| FilterObjects.IdDelegatingFilter.AddStopGtid | sql/rpl_gtid.h:711-716 | returns 0 exactly when AddBoundGtid succeeds, taking its state; else nothing changes; a valid filter stays valid |
| FilterObjects.IdDelegatingFilter.AddBound | sql/rpl_gtid.h:763 | find-or-create of the window then setting its bound agrees with AddBoundGtid; a valid filter stays valid |
| FilterObjects.IdDelegatingFilter.ClearStartGtids | sql/rpl_gtid.h:718-722 | the new state is ClearStartGtids of the old, so start-only windows are removed and the counters recomputed; a valid filter stays valid |
| FilterObjects.IdDelegatingFilter.ClearStopGtids | sql/rpl_gtid.h:718-723 | the new state is ClearStopGtids of the old, so stop-only windows are removed and the counters recomputed; a valid filter stays valid |
| FilterObjects.IdDelegatingFilter.NumStartGtids | sql/rpl_gtid.h:739 | the count equals the number of start GTIDs reported |
| FilterObjects.IdDelegatingFilter.NumStopGtids | sql/rpl_gtid.h:740 | the count equals the number of stop GTIDs reported |
| RedoLog.PageSize | storage/innobase/log/log0log.cc:73-75 | the page size lies between 4 KiB and 64 KiB |
| RedoLog.Sub64 | storage/innobase/log/log0log.cc:109-128 | unsigned 64-bit subtraction: exact when no borrow, else wrapped by 2^64 |
| RedoLog.Add64 | storage/innobase/log/log0log.cc:761-783 | unsigned 64-bit addition: exact when no carry, else wrapped by 2^64 |
| RedoLog.RoundDown | storage/innobase/log/log0log.cc:886-929 | rounding down to the block size gives the largest aligned value not above the input |
| RedoLog.RoundDownAligned | storage/innobase/log/log0log.cc:886-929 | subtracting the remainder leaves a multiple of the block size |
| RedoLog.RoundUp16 | storage/innobase/log/log0log.cc:909 | rounding the tail up to 16 bytes gives the least multiple of 16 not below it |
| RedoLog.GetLogFilePath | storage/innobase/log/log0log.cc:1431-1451 | the path is the home directory, one separating slash (not doubled) and the file name |
| RedoLog.TrailingSlashIsNeutral | storage/innobase/log/log0log.cc:1431-1451 | a home directory with or without its trailing slash gives the same path |
| RedoLog.CapacityFor | storage/innobase/log/log0log.cc:109-128 | the asynchronous flush age never exceeds the checkpoint age |
| RedoLog.CapacityWithoutWrap | storage/innobase/log/log0log.cc:109-128 | without wrap-around, capacity is the usable size less 10%, and the checkpoint age stays 48 pages below the capacity |
| RedoLog.CircularPosInRange | storage/innobase/log/log0log.cc:559-585 | every byte of a write lands in the circular part of the file, on a position the write covers |
| RedoLog.CircularPosInjective | storage/innobase/log/log0log.cc:559-585 | distinct bytes of one write land on distinct file positions |
| RedoLog.InWriteCovered | storage/innobase/log/log0log.cc:559-585 | every position a write covers receives some byte of it |
| RedoLog.CopyBytes | storage/innobase/log/log0log.cc:909 | the destination range receives the source bytes; the rest of the destination is unchanged |
| RedoLog.ZeroBytes | storage/innobase/log/log0log.cc:347-348 | the range is zeroed; the rest is unchanged |
| RedoLog.WriteImageCoversLog | storage/innobase/log/log0log.cc:886-929 | the written image is block aligned, at most one block longer than the log data, and begins with all of it |
| RedoLog.ResizeWriteOffset | storage/innobase/log/log0log.cc:761-783 | the resize write offset lies inside the resize file; a write that would run past its end restarts at the first log block |
| RedoLog.CheckpointMarginDecision | storage/innobase/log/log0log.cc:1115-1146 | the flag is cleared exactly when the checkpoint age is within bounds; otherwise the flush target is below the current LSN and within both the age limit and 1 MiB of the checkpoint |
| RedoLog.LogSys.constructor | storage/innobase/log/log0log.cc:131-171 | all LSNs start at the first LSN, the buffer is empty, and the free limit is half the buffer less the flush margin |
| RedoLog.LogSys.SetCapacity | storage/innobase/log/log0log.cc:109-128 | the three capacity fields become CapacityFor's values; every other field of the log, every LSN included, is kept; a valid log stays valid |
| RedoLog.LogSys.InitBuffersAndHeader | storage/innobase/log/log0log.cc:320-363 | both buffers are zeroed, the file starts with the 512-byte header followed by zeros up to 4 KiB, and the rest of the file is kept |
| RedoLog.LogSys.Create | storage/innobase/log/log0log.cc:320-363 | every LSN becomes the given one except the checkpoint LSN, which is 0; buf_free is 0 and no other field changes; the buffer and file part is InitBuffersAndHeader's |
| RedoLog.LogSys.LogWriteBuf | storage/innobase/log/log0log.cc:559-585 | byte i of the buffer lands on circular position i from the offset; no other file byte changes |
| RedoLog.LogSys.CompleteWriteBuf | storage/innobase/log/log0log.cc:817-829 | the write LSN advances to the written LSN; every other field is kept and a valid log stays valid |
| RedoLog.LogSys.WriteBuf | storage/innobase/log/log0log.cc:866-961 | nothing to write leaves every field, the buffers and the file alone; otherwise write_lsn reaches lsn and the rest is as WriteOut, every other field (the flushed, first and checkpoint LSNs included) being kept |
| RedoLog.LogSys.WriteOut | storage/innobase/log/log0log.cc:885-948 | the padded image lands in the file at the block-aligned offset and nothing else in the file changes; the unfinished block moves to the front of the other buffer; the buffers swap; write_to_log grows by one; write_lsn reaches lsn; every other field is kept |
| RedoLog.LogSys.PrepareWrite | storage/innobase/log/log0log.cc:894-923 | the bytes to write are WriteImage of the log buffer, a whole number of blocks, and the partial last block is copied to the front of the other buffer |
| RedoLog.LogSys.Flush | storage/innobase/log/log0log.cc:963-974 | succeeds exactly under O_DSYNC or a successful file flush; only success advances the flushed LSN, which never goes back; every other field is kept and a valid log stays valid |
| RedoLog.LogSys.Persist | storage/innobase/log/log0log.cc:715-756 | the flushed LSN becomes the maximum of its old value and the target, so it never goes back; every other field is kept and a valid log stays valid |
| RedoLog.LogSys.ResizeWriteBuf | storage/innobase/log/log0log.cc:761-783 | returns ResizeWriteOffset's offset and, when the write restarts, moves resize_lsn to the block-aligned write LSN; every other field is kept and the log stays valid |
| RedoLog.LogSys.CheckpointMargin | storage/innobase/log/log0log.cc:1115-1146 | acts on CheckpointMarginDecision and keeps the flag set exactly when a flush is still needed; every other field is kept and a valid log stays valid |
| WsrepThd.Thd.constructor | sql/wsrep_thd.cc:561-572 | a new THD holds the given session and has no conflict history |
| WsrepThd.Thd.SetConflictState | sql/wsrep_thd.cc:793-818 | only the conflict state changes, and the change is logged |
| WsrepThd.Thd.ReleaseTableLocks | sql/wsrep_thd.cc:242-248 | the session becomes ReleaseTableLock of the old session |
| WsrepThd.ConflictStateOf | sql/wsrep_thd.cc:561-572 | a missing THD reports no conflict; otherwise its own state |
| WsrepThd.IsBfOrCommit | sql/wsrep_thd.cc:605-619 | BF-or-commit exactly for a present THD whose exec mode is not LOCAL_STATE; a null THD is not |
| WsrepThd.IsLocal | sql/wsrep_thd.cc:622-634 | local exactly for a present THD that is not BF-or-commit |
| WsrepThd.IsBf | sql/wsrep_thd.cc:584-602 | BF exactly for a wsrep THD with a provider that is neither local nor local-commit; a BF THD is BF-or-commit and not local |
| WsrepThd.ExecModeClassification | sql/wsrep_thd.cc:605-634 | a THD is BF-or-commit exactly when it is not local; a missing THD is neither |
| WsrepThd.AutoIncrementVariables | sql/wsrep_thd.cc:689-704 | an applier that is not replaying takes the global settings; every other THD keeps its session settings |
| WsrepThd.SessionAutoIncForLocalAndReplaying | sql/wsrep_thd.cc:689-704 | local and replaying THDs keep their session auto-increment settings |
| WsrepThd.AbortThd | sql/wsrep_thd.cc:636-668 | always returns 1; abort is requested only for a victim not already aborting, and exactly when the BF THD is wsrep or a TOI THD under wsrep or RSU |
| WsrepThd.KillDecision | sql/wsrep_thd.cc:718-980 | an exiting victim is left alone; a victim already in conflict keeps its state (woken if must-abort); otherwise it becomes aborting when idle and local, else must-abort; it is queued exactly when idle, local and not yet queued; the provider abort runs exactly for an applier victim that is committing, idle or executing without waiting on a lock, or for a local committing victim whose pre_commit failed; the victim is woken exactly when it was must-abort, or is newly conflicted while executing or committing locally with pre_commit ok or warned; rc is 1 exactly for a committing local victim whose pre_commit warned |
| WsrepThd.KillTrail | sql/wsrep_thd.cc:718-980 | a kill assigns at most two conflict states, each must-abort or aborting |
| WsrepThd.KillLeavesAbortingAlone | sql/wsrep_thd.cc:793-818 | a victim already aborting, aborted or must-abort keeps its state and is neither queued nor processed |
| WsrepThd.KillNeverClearsConflict | sql/wsrep_thd.cc:793-818 | a kill never returns a conflicted THD to no-conflict |
| WsrepThd.ReleaseTableLock | sql/wsrep_thd.cc:67-72 | afterwards no table lock is held in locked-tables mode; one that was held loses OPTION_TABLE_LOCK |
| WsrepThd.RolledBack | sql/wsrep_thd.cc:56-93 | after rollback the THD is aborted, holds no global read lock, table lock or binlog table maps, and keeps its mode, query state and database |
| WsrepThd.RolledBackIdempotent | sql/wsrep_thd.cc:56-93 | rolling back twice is the same as rolling back once |
| WsrepThd.ShadowOf | sql/wsrep_thd.cc:141-175 | the shadow records the exec mode, connection and database it must restore |
| WsrepThd.BfMode | sql/wsrep_thd.cc:141-175 | BF mode is an applier without a connection or database, with logging off, binlogging exactly when log_slave_updates is on, read-committed isolation and replication info; conflict state and server status are kept |
| WsrepThd.BfModeKeepsOtherOptions | sql/wsrep_thd.cc:141-175 | entering BF mode touches no option bit other than log-off and binlog |
| WsrepThd.FromBfMode | sql/wsrep_thd.cc:177-195 | leaving BF mode restores exactly the shadowed fields and drops the replication info |
| WsrepThd.BfModeRoundTrip | sql/wsrep_thd.cc:141-195 | prepare, any work that leaves the shadowed fields alone, then return gives back the original THD, apart from read-committed isolation and the dropped replication info |
| WsrepThd.BfModeRoundTripDirect | sql/wsrep_thd.cc:141-195 | entering and leaving BF mode at once gives back the original THD apart from isolation and the dropped replication info |
| WsrepThd.Drained | sql/wsrep_thd.cc:492-532 | a drained THD is aborted and keeps its mode and query state |
| WsrepThd.DrainTrail | sql/wsrep_thd.cc:492-532 | the drain assigns no state exactly to an already aborted THD |
| WsrepThd.SessionsOf | sql/wsrep_thd.cc:492-532 | one session per queued THD, in queue order |
| WsrepThd.TrailsOf | sql/wsrep_thd.cc:492-532 | one conflict history per queued THD, in queue order |
| WsrepThd.CountNotAborted | sql/wsrep_thd.cc:492-532 | the number of queued THDs to roll back is at most the queue length, and 0 when all are aborted |
| WsrepThd.WsrepContext.constructor | sql/wsrep_thd.cc:37-41 | the counter and the replaying count start at 0, and the queue starts empty |
| WsrepThd.WsrepContext.ClientRollback | sql/wsrep_thd.cc:56-93 | the BF abort counter grows by one, the THD passes through aborting to aborted and ends as RolledBack of its old session |
| WsrepThd.WsrepContext.Kill | sql/wsrep_thd.cc:718-980 | with no victim nothing happens; otherwise the victim's state, the rc and the queue follow KillDecision, and the queue stays duplicate-free |
| WsrepThd.WsrepContext.PrepareBfThd | sql/wsrep_thd.cc:141-175 | returns the shadow of the old session and puts the THD in BfMode |
| WsrepThd.WsrepContext.ReturnFromBfMode | sql/wsrep_thd.cc:177-195 | the session becomes FromBfMode of the old session and the shadow |
| WsrepThd.WsrepContext.ReplayTransaction | sql/wsrep_thd.cc:197-351 | replays exactly a local must-replay THD; the provider result selects no-conflict, aborted, or server abort; the THD passes through replaying and is restored from BF mode |
| WsrepThd.WsrepContext.RollbackOne | sql/wsrep_thd.cc:492-532 | pops the queue head; an aborted THD is skipped, any other is rolled back and counted |
| WsrepThd.WsrepContext.RollbackAt | sql/wsrep_thd.cc:492-532 | one rollbacker step on the queue position it is at: that THD is drained and counted unless already aborted, the rest of the queue is untouched |
| WsrepThd.WsrepContext.RollbackProcess | sql/wsrep_thd.cc:464-540 | the queue is emptied, every queued THD ends aborted, and the counter grows by the number that were not already aborted |

## Left out

- The bodies in `sql/rpl_gtid.cc` are not part of this model. The window, delegating and intersecting filters, and the binlog, slave and connection state operations, follow their declarations and the comments in `sql/rpl_gtid.h`. The choices the comments leave open:
  - a start bound is exclusive and a stop bound inclusive;
  - setting a bound that is already set is an error;
  - an intersection feeds every GTID to both filters;
  - a finished explicit filter excludes without being consulted.
- GtidState.BinlogState.Update: in strict mode an out-of-order GTID is refused when its seq_no does not exceed the domain's counter. This follows the documented rule. A per-server last-GTID comparison, if the missing body makes one, is not captured.
- GtidState.SlaveState.Update: the body of update() is in `sql/rpl_gtid.cc`, which is not part of this model. The header only declares `last_sub_id` (`sql/rpl_gtid.h:205`) and `next_sub_id` (`sql/rpl_gtid.h:243`), which allocates sub_ids from it. The model raises `last_sub_id` to the largest sub_id recorded, so that a later allocation never repeats one already in a list. next_sub_id itself is not modelled.
- GtidState.SlaveConnectionState.Remove: requires that the GTID's domain has an entry and that this entry holds exactly that GTID. This matches the operation's use after a successful find. The body is in `sql/rpl_gtid.cc`, which is not part of this model; RemoveIfPresent covers a missing domain.
- GtidState.BinlogState.UpdateWithNextGtid: excludes an existing domain whose counter is 2^64-1 (18446744073709551615). In the source, incrementing that uint64 counter wraps the next seq_no to 0. The model does not capture the wrap, because a seq_no of 0 after the counter would break the invariant that no entry's seq_no exceeds the counter.
- Clearing start or stop positions (`sql/rpl_gtid.h:718-723`): the bodies are in `sql/rpl_gtid.cc`. The header only says that all existing values are removed and the specification starts over. The model therefore removes every window that held only the cleared kind of bound. It keeps a window that holds the other bound, without the cleared one. It then recomputes the explicit and completed counters from the remaining elements.
- GtidFilter.AddBoundGtid: counts a window as completed when adding its stop makes it finished. This happens only to a window that passed and then had its stop cleared. It keeps the completed counter exact; the source body is not part of this model.
- RedoLog.GetLogFilePath: the Windows build also treats a trailing '\\' of the directory as a separator (`storage/innobase/log/log0log.cc:1439-1441`). Only '/' is modelled.
- The following are left out as I/O, SQL-table or iteration code with no state rule of their own:
  - binlog `load`, `write_to_iocache`, `read_from_iocache`, `get_gtid_list`, `append_pos`/`append_state`, `drop_domain` and the binlog `count()`;
  - slave-state GTID position tables, `gtid_waiting` and the slave `load`/`iterate` parsing;
  - connection-state `load` and `to_string`.
- `write_warnings` prints to a stream. The model returns the list of warnings instead.
- Mutexes and condition variables are left out everywhere; every operation is modelled as running alone.
- The redo log's file I/O, memory mapping (PMEM), asynchronous write callbacks, encryption, header CRC and buffer resizing are left out. The header is a parameter of `Create`, and the file is an array of bytes.
- calc_lsn_offset lives in `log0log.h`, which is not part of this model; write_buf takes the LSN's file offset as a parameter. `START_OFFSET` (12288) is also a value from that header.
- RedoLog.LogSys.Persist: the compare-and-swap loop is modelled single-threaded, as "raise to the target if lower"; PMEM byte persistence is left out.
- RedoLog.LogSys.CompleteWriteBuf: the durable flush it may trigger and the wait/notify of the group-commit locks are left out.
- RedoLog.LogSys.WriteBuf: the synchronous file flush at the end is left out; Flush models it.
- `log_flush_margin`, `log_buffer_flush_to_disk`, `log_write_up_to` and shutdown are left out; they are lock and wait orchestration around write_buf and flush.
- Block-size bit masks are modelled as modulo arithmetic over the block sizes 512 to 4096.
- The page size shift ranges over 12 to 16.
- wsrep: calls into the Galera provider (pre_commit, replay_trx, post_commit, abort_pre_commit) become parameters of type `ProviderStatus`, or are left out.
- wsrep: trans_rollback, MDL release, close_thread_tables, the diagnostics area and statement instrumentation are left out.
- wsrep: `unireg_abort` on a failed replay and the process abort in `wsrep_kill` become outcomes (`ServerAborted`, `processAbort`).
- WsrepThd.WsrepContext.Kill: the BF THD is not looked up by id; it does not influence the victim's transitions. The handler abort and the killer thread's wake-up are recorded only as flags of `KillAction`.
- WsrepThd.WsrepContext.RollbackProcess: models one drain of the aborting queue. The rollbacker thread's outer wait loop and THDs queued concurrently during the drain are left out.
- The order of the aborting queue depends on `wsrep_mysqld.cc`, which is not part of this model. The model enqueues at the head and drains from the head; no property depends on that order.
- The applier thread creation (`wsrep_replication_process`, `wsrep_create_appliers`, `wsrep_create_rollbacker`, `wsrep_create_killer`) and the status variable display are left out as thread plumbing.

=== FILE: filter_objects.dfy ===
/**
 * The stateful filters as objects updated in place: Window_gtid_event_filter
 * and Id_delegating_gtid_event_filter (with its Domain and Server
 * subclasses). Each method is specified by the value-level function of the
 * GtidFilter module applied to the object's state before the call.
 */
module FilterObjects {
  import opened Gtid
  import opened Wrappers
  import opened GtidFilter

  class WindowFilter {
    var hasStart: bool
    var hasStop: bool
    var isActive: bool
    var hasPassed: bool
    var start: RplGtid
    var stop: RplGtid
    var lastGtidSeen: RplGtid
    /** The WARN_GTID_SEQUENCE_NUMBER_OUT_OF_ORDER bit of m_warning_flags. */
    var warnOutOfOrder: bool

    /** The object's state as a window value. */
    function Value(): WindowState
      reads this
    {
      WindowState(hasStart, hasStop, isActive, hasPassed, start, stop, lastGtidSeen, warnOutOfOrder)
    }

    constructor()
      ensures Value() == NEW_WINDOW && WindowValid(Value())
    {
      hasStart, hasStop, isActive, hasPassed := false, false, false, false;
      start, stop, lastGtidSeen := ZERO_GTID, ZERO_GTID, ZERO_GTID;
      warnOutOfOrder := false;
    }

    /** set_start_gtid: 0 on success, 1 when a start position is already set. */
    method SetStartGtid(g: RplGtid) returns (rc: int)
      modifies this
      ensures rc == 0 <==> !old(hasStart)
      ensures rc == 0 ==> Value() == GtidFilter.SetStartGtid(old(Value()), g).value
      ensures rc != 0 ==> Value() == old(Value())
    {
      if hasStart {
        return 1;
      }
      hasStart, start := true, g;
      return 0;
    }

    /** set_stop_gtid: 0 on success, 1 when a stop position is already set. */
    method SetStopGtid(g: RplGtid) returns (rc: int)
      modifies this
      ensures rc == 0 <==> !old(hasStop)
      ensures rc == 0 ==> Value() == GtidFilter.SetStopGtid(old(Value()), g).value
      ensures rc != 0 ==> Value() == old(Value())
    {
      if hasStop {
        return 1;
      }
      hasStop, stop := true, g;
      return 0;
    }

    method ClearStartPos()
      modifies this
      ensures Value() == GtidFilter.ClearStartPos(old(Value()))
    {
      hasStart, start := false, ZERO_GTID;
    }

    method ClearStopPos()
      modifies this
      ensures Value() == GtidFilter.ClearStopPos(old(Value()))
    {
      hasStop, stop := false, ZERO_GTID;
    }

    /**
     * exclude(): the verdict and the new state are those of WindowExclude;
     * strict is the current value of the gtid_strict_mode controller the
     * window points to.
     */
    method Exclude(g: RplGtid, strict: bool) returns (excluded: bool)
      modifies this
      ensures WindowExclude(old(Value()), g, strict) == WindowResult(excluded, Value())
      ensures old(WindowValid(Value())) ==> WindowValid(Value())
    {
      if hasPassed {
        return true;
      }
      if !isActive && hasStart && !AtOrAfter(start, g) {
        return true;
      }
      excluded := !isActive && hasStart && g.seqNo == start.seqNo;
      if isActive && strict && g.domainId == lastGtidSeen.domainId && g.seqNo < lastGtidSeen.seqNo {
        warnOutOfOrder := true;
      }
      if hasStop && AtOrAfter(stop, g) {
        excluded := excluded || g.seqNo > stop.seqNo;
        isActive, hasPassed := false, true;
      } else {
        isActive := true;
      }
      lastGtidSeen := g;
    }

    predicate HasFinished()
      reads this
      ensures HasFinished() ==> hasStop && hasPassed
      ensures !hasStop ==> !HasFinished()
    {
      WindowFinished(Value())
    }
  }

  /**
   * Id_delegating_gtid_event_filter; kind selects get_id_from_gtid (the
   * Domain or the Server subclass). The start and stop lists and the
   * strict-mode flag belong to the Domain subclass.
   */
  class IdDelegatingFilter {
    const kind: IdKind
    var defaultFilter: Filter
    var filtersById: seq<FilterElement>
    var numExplicitFilters: nat
    var numCompletedFilters: nat
    var whitelistSet: bool
    var blacklistSet: bool
    var isGtidStrictMode: bool
    var startFilters: seq<Uint32>
    var stopFilters: seq<Uint32>

    function Value(): Delegation
      reads this
    {
      Delegation(kind, defaultFilter, filtersById, numExplicitFilters, numCompletedFilters,
                 whitelistSet, blacklistSet, isGtidStrictMode, startFilters, stopFilters)
    }

    predicate Valid()
      reads this
    {
      DelegationValid(Value())
    }

    /** A new filter: no explicit filters, accept-all default, strict mode off. */
    constructor(kind: IdKind)
      ensures Value() == NewDelegation(kind) && Valid()
    {
      this.kind := kind;
      defaultFilter := AcceptAll;
      filtersById := [];
      numExplicitFilters, numCompletedFilters := 0, 0;
      whitelistSet, blacklistSet, isGtidStrictMode := false, false, false;
      startFilters, stopFilters := [], [];
    }

    method SetDefaultFilter(f: Filter)
      modifies this
      ensures Value() == old(Value()).(defaultFilter := f)
      ensures old(Valid()) && GtidFilter.Valid(f) ==> Valid()
    {
      defaultFilter := f;
    }

    /** set_gtid_strict_mode of the Domain filter: every child window sees the new flag. */
    method SetGtidStrictMode(strict: bool)
      modifies this
      ensures Value() == old(Value()).(strictMode := strict)
      ensures old(Valid()) ==> Valid()
    {
      isGtidStrictMode := strict;
    }

    /** exclude(), as DelegationExclude; the structural invariant is kept. */
    method Exclude(g: RplGtid) returns (excluded: bool)
      requires Valid()
      modifies this
      ensures DelegationExclude(old(Value()), g) == DelegationResult(excluded, Value())
      ensures Valid()
    {
      DelegationExcludePreservesValid(Value(), g);
      var id := GetIdFromGtid(kind, g);
      var k := Lookup(filtersById, id);
      if k < 0 {
        var s := Step(defaultFilter, g, isGtidStrictMode);
        defaultFilter := s.next;
        excluded := s.excluded;
      } else {
        var child := filtersById[k].filter;
        excluded := true;
        if !Finished(child) {
          var s := Step(child, g, isGtidStrictMode);
          excluded := s.excluded;
          filtersById := filtersById[k := FilterElement(id, s.next)];
          if Finished(s.next) {
            numCompletedFilters := numCompletedFilters + 1;
          }
        }
      }
    }

    predicate HasFinished()
      reads this
      ensures HasFinished() ==> 0 < numCompletedFilters == numExplicitFilters
      ensures numExplicitFilters == 0 ==> !HasFinished()
    {
      Finished(Delegating(Value()))
    }

    /** set_blacklist: 0 on success, 1 when a whitelist is already set. */
    method SetBlacklist(ids: seq<Uint32>) returns (rc: int)
      modifies this
      ensures var r := GtidFilter.SetBlacklist(old(Value()), ids);
              (rc == 0 <==> r.Ok?) && Value() == (if r.Ok? then r.value else old(Value()))
      ensures old(Valid()) ==> Valid()
    {
      if whitelistSet {
        return 1;
      }
      if Valid() {
        AddIdFiltersValid(Value(), ids, RejectAll);
      }
      AddIdFiltersLoop(ids, RejectAll);
      defaultFilter := AcceptAll;
      blacklistSet := true;
      return 0;
    }

    /** set_whitelist: 0 on success, 1 when a blacklist is already set. */
    method SetWhitelist(ids: seq<Uint32>) returns (rc: int)
      modifies this
      ensures var r := GtidFilter.SetWhitelist(old(Value()), ids);
              (rc == 0 <==> r.Ok?) && Value() == (if r.Ok? then r.value else old(Value()))
      ensures old(Valid()) ==> Valid()
    {
      if blacklistSet {
        return 1;
      }
      if Valid() {
        AddIdFiltersValid(Value(), ids, AcceptAll);
      }
      AddIdFiltersLoop(ids, AcceptAll);
      defaultFilter := RejectAll;
      whitelistSet := true;
      return 0;
    }

    /** find_or_create_filter_element_for_id, creating a missing element with f. */
    method FindOrCreateFilterElement(id: Uint32, f: Filter)
      modifies this
      ensures Value() == AddIdFilter(old(Value()), id, f)
    {
      if Lookup(filtersById, id) < 0 {
        filtersById := filtersById + [FilterElement(id, f)];
        numExplicitFilters := numExplicitFilters + 1;
      }
    }

    /** Registers each listed id in turn, creating missing elements with f. */
    method AddIdFiltersLoop(ids: seq<Uint32>, f: Filter)
      modifies this
      ensures Value() == AddIdFilters(old(Value()), ids, f)
    {
      var i := 0;
      while i < |ids|
        invariant 0 <= i <= |ids|
        invariant Value() == AddIdFilters(old(Value()), ids[..i], f)
      {
        AddIdFiltersPrefix(old(Value()), ids, i, f);
        FindOrCreateFilterElement(ids[i], f);
        i := i + 1;
      }
      assert ids[..|ids|] == ids;
    }

    /** add_start_gtid of the Domain filter: 0 on success, 1 on error. */
    method AddStartGtid(g: RplGtid) returns (rc: int)
      requires kind == DomainKey
      modifies this
      ensures var r := AddBoundGtid(old(Value()), g, true);
              (rc == 0 <==> r.Ok?) && Value() == (if r.Ok? then r.value else old(Value()))
      ensures old(Valid()) ==> Valid()
    {
      rc := AddBound(g, true);
    }

    /** add_stop_gtid of the Domain filter: 0 on success, 1 on error. */
    method AddStopGtid(g: RplGtid) returns (rc: int)
      requires kind == DomainKey
      modifies this
      ensures var r := AddBoundGtid(old(Value()), g, false);
              (rc == 0 <==> r.Ok?) && Value() == (if r.Ok? then r.value else old(Value()))
      ensures old(Valid()) ==> Valid()
    {
      rc := AddBound(g, false);
    }

    /** find_or_create_window_filter_for_id, then set_start_gtid or set_stop_gtid on the window. */
    method AddBound(g: RplGtid, isStart: bool) returns (rc: int)
      requires kind == DomainKey
      modifies this
      ensures var r := AddBoundGtid(old(Value()), g, isStart);
              (rc == 0 <==> r.Ok?) && Value() == (if r.Ok? then r.value else old(Value()))
      ensures old(Valid()) ==> Valid()
    {
      if Valid() {
        AddBoundGtidValid(Value(), g, isStart);
      }
      var k := Lookup(filtersById, g.domainId);
      if k < 0 {
        var w := SetBound(NEW_WINDOW, g, isStart).value;
        filtersById := filtersById + [FilterElement(g.domainId, Window(w))];
        numExplicitFilters := numExplicitFilters + 1;
      } else {
        var child := filtersById[k].filter;
        if !child.Window? {
          return 1;
        }
        var bound := SetBound(child.w, g, isStart);
        if bound.Err? {
          return 1;
        }
        if Finished(Window(bound.value)) && !Finished(child) {
          numCompletedFilters := numCompletedFilters + 1;
        }
        filtersById := filtersById[k := FilterElement(g.domainId, Window(bound.value))];
      }
      if isStart {
        startFilters := startFilters + [g.domainId];
      } else {
        stopFilters := stopFilters + [g.domainId];
      }
      return 0;
    }

    /** clear_start_gtids: the start positions are respecified from scratch. */
    method ClearStartGtids()
      modifies this
      ensures Value() == GtidFilter.ClearStartGtids(old(Value()))
      ensures old(Valid()) ==> Valid()
    {
      if Valid() {
        ClearGtidsValid(Value(), true);
      }
      filtersById := ClearElements(filtersById, true);
      numExplicitFilters := |filtersById|;
      numCompletedFilters := CountFinished(filtersById);
      startFilters := [];
    }

    /** clear_stop_gtids: the stop positions are respecified from scratch. */
    method ClearStopGtids()
      modifies this
      ensures Value() == GtidFilter.ClearStopGtids(old(Value()))
      ensures old(Valid()) ==> Valid()
    {
      if Valid() {
        ClearGtidsValid(Value(), false);
      }
      filtersById := ClearElements(filtersById, false);
      numExplicitFilters := |filtersById|;
      numCompletedFilters := CountFinished(filtersById);
      stopFilters := [];
    }

    /** get_num_start_gtids: one per successful add_start_gtid since the last clear. */
    function NumStartGtids(): (n: nat)
      reads this
      ensures n == |GetStartGtids(Value())|
    {
      |startFilters|
    }

    /** get_num_stop_gtids: one per successful add_stop_gtid since the last clear. */
    function NumStopGtids(): (n: nat)
      reads this
      ensures n == |GetStopGtids(Value())|
    {
      |stopFilters|
    }
  }
}

=== FILE: gtid.dfy ===
/**
 * The MariaDB global transaction identifier: a (domain_id, server_id, seq_no)
 * triple, with 32-bit ids and a 64-bit sequence number.
 */
module Gtid {

  const UINT32_LIMIT: nat := 0x1_0000_0000
  const UINT64_LIMIT: nat := 0x1_0000_0000_0000_0000

  type Uint32 = x: nat | x < UINT32_LIMIT
  type Uint64 = x: nat | x < UINT64_LIMIT

  datatype RplGtid = RplGtid(domainId: Uint32, serverId: Uint32, seqNo: Uint64)

  /** The GTID 0-0-0 that set_rpl_gtid(&g, 0, 0, 0) produces for a cleared window bound. */
  const ZERO_GTID: RplGtid := RplGtid(0, 0, 0)

  /** operator==: field-by-field comparison, which is exactly equality of the triple. */
  function Equals(lhs: RplGtid, rhs: RplGtid): (r: bool)
    ensures r <==> lhs == rhs
  {
    lhs.domainId == rhs.domainId &&
    lhs.serverId == rhs.serverId &&
    lhs.seqNo == rhs.seqNo
  }
}

=== FILE: gtid_filter.dfy ===
/**
 * The GTID event filter engine as values: every filter kind of the
 * Gtid_event_filter hierarchy is a variant of one datatype that carries the
 * filter's own state, and exclude() is a function returning the verdict
 * together with the filter's next state.
 */
module GtidFilter {
  import opened Gtid
  import opened Wrappers

  /** get_filter_type() codes of the five filter implementations. */
  const DELEGATING_GTID_FILTER_TYPE: Uint32 := 1
  const WINDOW_GTID_FILTER_TYPE: Uint32 := 2
  const ACCEPT_ALL_GTID_FILTER_TYPE: Uint32 := 3
  const REJECT_ALL_GTID_FILTER_TYPE: Uint32 := 4
  const INTERSECTING_GTID_FILTER_TYPE: Uint32 := 5

  /** Errors reported as a non-zero status by the configuration calls. */
  datatype FilterError =
    | StartAlreadySet         // a window's start position was given twice
    | StopAlreadySet          // a window's stop position was given twice
    | ConflictingIdList       // set_blacklist after set_whitelist, or the reverse
    | NotAWindow              // the domain already has a filter that is not a window

  /** A deferred, non-fatal diagnostic written by write_warnings(). */
  datatype Warning = SeqNoOutOfOrder(start: RplGtid, stop: RplGtid)

  /*
   * ---------------------------------------------------------------------
   * Window_gtid_event_filter
   * ---------------------------------------------------------------------
   */

  /**
   * The state of a window: its bounds, whether it is active or has passed,
   * the last GTID it let through, and the WARN_GTID_SEQUENCE_NUMBER_OUT_OF_ORDER
   * bit of its warning flags.
   */
  datatype WindowState = WindowState(
    hasStart: bool,
    hasStop: bool,
    isActive: bool,
    hasPassed: bool,
    start: RplGtid,
    stop: RplGtid,
    lastGtidSeen: RplGtid,
    warnOutOfOrder: bool)

  /** A freshly constructed window: no bounds, not active, not passed, no warnings. */
  const NEW_WINDOW: WindowState :=
    WindowState(false, false, false, false, ZERO_GTID, ZERO_GTID, ZERO_GTID, false)

  /**
   * A window is never both active and passed, so it is in exactly one of the
   * phases not-yet-started, active, passed. (Passing needs a stop position,
   * but clear_stop_pos may remove the stop of a window that has passed.)
   */
  predicate WindowValid(w: WindowState) {
    !(w.isActive && w.hasPassed)
  }

  /** has_finished() of a window: its stop position has been reached. */
  predicate WindowFinished(w: WindowState) {
    w.hasStop && w.hasPassed
  }

  /** set_start_gtid: fails when the window already has a start position. */
  function SetStartGtid(w: WindowState, start: RplGtid): (r: Result<WindowState, FilterError>)
    ensures r.Err? <==> w.hasStart
    ensures r.Ok? ==> r.value.hasStart && r.value.start == start
    ensures r.Ok? ==> r.value == w.(hasStart := true, start := start)
  {
    if w.hasStart then Err(StartAlreadySet) else Ok(w.(hasStart := true, start := start))
  }

  /** set_stop_gtid: fails when the window already has a stop position. */
  function SetStopGtid(w: WindowState, stop: RplGtid): (r: Result<WindowState, FilterError>)
    ensures r.Err? <==> w.hasStop
    ensures r.Ok? ==> r.value.hasStop && r.value.stop == stop
    ensures r.Ok? ==> r.value == w.(hasStop := true, stop := stop)
  {
    if w.hasStop then Err(StopAlreadySet) else Ok(w.(hasStop := true, stop := stop))
  }

  /** clear_start_pos: the window forgets its start and the start GTID reads 0-0-0. */
  function ClearStartPos(w: WindowState): (r: WindowState)
    ensures !r.hasStart && r.start == ZERO_GTID
    ensures r.hasStop == w.hasStop && r.stop == w.stop
    ensures r == w.(hasStart := false, start := ZERO_GTID)
  {
    w.(hasStart := false, start := ZERO_GTID)
  }

  /** clear_stop_pos: the window forgets its stop and the stop GTID reads 0-0-0. */
  function ClearStopPos(w: WindowState): (r: WindowState)
    ensures !r.hasStop && r.stop == ZERO_GTID
    ensures r.hasStart == w.hasStart && r.start == w.start
    ensures r == w.(hasStop := false, stop := ZERO_GTID)
  {
    w.(hasStop := false, stop := ZERO_GTID)
  }

  /** g is on the same (domain, server) stream as the bound and at or beyond it. */
  predicate AtOrAfter(bound: RplGtid, g: RplGtid) {
    g.domainId == bound.domainId && g.serverId == bound.serverId && g.seqNo >= bound.seqNo
  }

  datatype WindowResult = WindowResult(excluded: bool, next: WindowState)

  /**
   * exclude() of a window. A passed window excludes everything. A window that
   * is not active becomes active when it has no start position or when the
   * stream of its start position reaches it; the start GTID itself is
   * excluded (exclusive bound). While active every GTID is let through, up to
   * and including the stop GTID; a GTID of the stop stream beyond the stop
   * position passes the window and is excluded. In strict mode a GTID of the
   * same domain with a lower seq_no than the last one seen while active sets
   * the out-of-order warning.
   */
  function WindowExclude(w: WindowState, g: RplGtid, strict: bool): (r: WindowResult)
    ensures r.next.hasStart == w.hasStart && r.next.start == w.start
    ensures r.next.hasStop == w.hasStop && r.next.stop == w.stop
    ensures w.hasPassed ==> r.excluded && r.next == w
    ensures !w.isActive && !w.hasPassed && w.hasStart && !AtOrAfter(w.start, g) ==>
              r.excluded && r.next == w
    ensures w.isActive && !w.hasPassed && !(w.hasStop && AtOrAfter(w.stop, g)) ==>
              !r.excluded && r.next.isActive && !r.next.hasPassed && r.next.lastGtidSeen == g
    ensures !w.isActive && !w.hasPassed && w.hasStart && AtOrAfter(w.start, g)
              && !(w.hasStop && AtOrAfter(w.stop, g)) ==>
              r.next.isActive && !r.next.hasPassed && r.next.lastGtidSeen == g
              && (r.excluded <==> g.seqNo == w.start.seqNo)
    ensures !w.isActive && !w.hasPassed && !w.hasStart && !(w.hasStop && AtOrAfter(w.stop, g)) ==>
              !r.excluded && r.next.isActive && !r.next.hasPassed && r.next.lastGtidSeen == g
    ensures w.hasStop && AtOrAfter(w.stop, g) && !w.hasPassed
              && (w.isActive || !w.hasStart || AtOrAfter(w.start, g)) ==>
              r.next.hasPassed && !r.next.isActive
              && (r.excluded <==> (!w.isActive && w.hasStart && g.seqNo == w.start.seqNo)
                                  || g.seqNo > w.stop.seqNo)
    ensures w.warnOutOfOrder ==> r.next.warnOutOfOrder
    ensures !w.hasPassed && (w.isActive || !w.hasStart || AtOrAfter(w.start, g)) ==>
              (r.next.warnOutOfOrder <==>
                 w.warnOutOfOrder
                 || (strict && w.isActive && g.domainId == w.lastGtidSeen.domainId
                     && g.seqNo < w.lastGtidSeen.seqNo))
  {
    if w.hasPassed then
      WindowResult(true, w)
    else if !(w.isActive || !w.hasStart || AtOrAfter(w.start, g)) then
      WindowResult(true, w)
    else
      var justActivated := !w.isActive;
      var isStartGtid := justActivated && w.hasStart && g.seqNo == w.start.seqNo;
      var reachedStop := w.hasStop && AtOrAfter(w.stop, g);
      var beyondStop := reachedStop && g.seqNo > w.stop.seqNo;
      var outOfOrder := strict && w.isActive && g.domainId == w.lastGtidSeen.domainId
                        && g.seqNo < w.lastGtidSeen.seqNo;
      WindowResult(
        isStartGtid || beyondStop,
        w.(isActive := !reachedStop,
           hasPassed := reachedStop,
           lastGtidSeen := g,
           warnOutOfOrder := w.warnOutOfOrder || outOfOrder))
  }

  /** write_warnings() of a window: one line when the out-of-order flag is set. */
  function WindowWarnings(w: WindowState): (r: seq<Warning>)
    ensures |r| <= 1
    ensures |r| == 1 <==> w.warnOutOfOrder
  {
    if w.warnOutOfOrder then [SeqNoOutOfOrder(w.start, w.stop)] else []
  }

  /** Filtering never moves a valid window into an invalid state. */
  lemma WindowExcludePreservesValid(w: WindowState, g: RplGtid, strict: bool)
    requires WindowValid(w)
    ensures WindowValid(WindowExclude(w, g, strict).next)
  {
  }

  /**
   * In strict mode an active window fed a GTID of the same domain with a
   * lower seq_no than the last one it saw has a warning to write.
   */
  lemma StrictWindowWarnsOnLowerSeqNo(w: WindowState, g: RplGtid)
    requires w.isActive && !w.hasPassed
    requires g.domainId == w.lastGtidSeen.domainId && g.seqNo < w.lastGtidSeen.seqNo
    ensures Warnings(Step(Window(w), g, true).next) != []
  {
    var r := WindowExclude(w, g, true);
    assert Step(Window(w), g, true).next == Window(r.next);
    assert r.next.warnOutOfOrder;
  }

  /*
   * ---------------------------------------------------------------------
   * The filter tree
   * ---------------------------------------------------------------------
   */

  /** Which part of a GTID an id-delegating filter dispatches on. */
  datatype IdKind = DomainKey | ServerKey

  /**
   * A filter with its state. Delegating and Intersecting filters own their
   * children.
   */
  datatype Filter =
    | AcceptAll
    | RejectAll
    | Window(w: WindowState)
    | Delegating(d: Delegation)
    | Intersecting(filter1: Filter, filter2: Filter)

  /** gtid_filter_element: an identifier and the child filter registered for it. */
  datatype FilterElement = FilterElement(id: Uint32, filter: Filter)

  /**
   * Id_delegating_gtid_event_filter and its Domain and Server subclasses.
   * The hash of explicit filters is the sequence of elements in insertion
   * order; startIds and stopIds are the Domain filter's m_start_filters and
   * m_stop_filters lists, strictMode its m_is_gtid_strict_mode.
   */
  datatype Delegation = Delegation(
    kind: IdKind,
    defaultFilter: Filter,
    elements: seq<FilterElement>,
    numExplicitFilters: nat,
    numCompletedFilters: nat,
    whitelistSet: bool,
    blacklistSet: bool,
    strictMode: bool,
    startIds: seq<Uint32>,
    stopIds: seq<Uint32>)

  /** get_filter_type(). */
  function FilterType(f: Filter): (t: Uint32)
    ensures 1 <= t <= 5
    ensures f.Window? <==> t == WINDOW_GTID_FILTER_TYPE
    ensures f.Delegating? <==> t == DELEGATING_GTID_FILTER_TYPE
  {
    match f
    case AcceptAll => ACCEPT_ALL_GTID_FILTER_TYPE
    case RejectAll => REJECT_ALL_GTID_FILTER_TYPE
    case Window(_) => WINDOW_GTID_FILTER_TYPE
    case Delegating(_) => DELEGATING_GTID_FILTER_TYPE
    case Intersecting(_, _) => INTERSECTING_GTID_FILTER_TYPE
  }

  /** get_id_from_gtid(): the domain id for a Domain filter, the server id for a Server filter. */
  function GetIdFromGtid(kind: IdKind, g: RplGtid): (id: Uint32)
    ensures kind == DomainKey ==> id == g.domainId
    ensures kind == ServerKey ==> id == g.serverId
  {
    if kind == DomainKey then g.domainId else g.serverId
  }

  /** The position of the element registered for id, or -1 when there is none. */
  function Lookup(elems: seq<FilterElement>, id: Uint32): (k: int)
    ensures -1 <= k < |elems|
    ensures k >= 0 ==> elems[k].id == id
    ensures k < 0 <==> forall i | 0 <= i < |elems| :: elems[i].id != id
    decreases |elems|
  {
    if |elems| == 0 then -1
    else if elems[|elems| - 1].id == id then |elems| - 1
    else Lookup(elems[..|elems| - 1], id)
  }

  /** No identifier is registered twice. */
  predicate UniqueIds(elems: seq<FilterElement>) {
    forall i, j | 0 <= i < j < |elems| :: elems[i].id != elems[j].id
  }

  /** has_finished() of every variant. */
  predicate Finished(f: Filter)
    ensures f.AcceptAll? || f.RejectAll? ==> !Finished(f)
    ensures f.Window? && Finished(f) ==> f.w.hasStop
    ensures f.Delegating? && Finished(f) ==> f.d.numExplicitFilters > 0
  {
    match f
    case AcceptAll => false
    case RejectAll => false
    case Window(w) => WindowFinished(w)
    case Delegating(d) => d.numExplicitFilters > 0 && d.numCompletedFilters == d.numExplicitFilters
    case Intersecting(f1, f2) => Finished(f1) && Finished(f2)
  }

  /** How many of the explicit filters have finished. */
  function CountFinished(elems: seq<FilterElement>): (n: nat)
    ensures n <= |elems|
    decreases |elems|
  {
    if |elems| == 0 then 0
    else CountFinished(elems[..|elems| - 1]) + (if Finished(elems[|elems| - 1].filter) then 1 else 0)
  }

  /**
   * The structural invariant of a filter tree: every window is valid, and in
   * every delegating filter the ids are unique, m_num_explicit_filters counts
   * the explicit filters and m_num_completed_filters counts those that have
   * finished.
   */
  predicate Valid(f: Filter)
    decreases f, 1
  {
    match f
    case AcceptAll => true
    case RejectAll => true
    case Window(w) => WindowValid(w)
    case Delegating(d) => DelegationValid(d)
    case Intersecting(f1, f2) => Valid(f1) && Valid(f2)
  }

  predicate DelegationValid(d: Delegation)
    decreases d, 0
  {
    && UniqueIds(d.elements)
    && d.numExplicitFilters == |d.elements|
    && d.numCompletedFilters == CountFinished(d.elements)
    && Valid(d.defaultFilter)
    && (forall i | 0 <= i < |d.elements| :: Valid(d.elements[i].filter))
  }

  datatype StepResult = StepResult(excluded: bool, next: Filter)
  datatype DelegationResult = DelegationResult(excluded: bool, next: Delegation)

  /**
   * exclude() of every variant, returning the filter's next state. The
   * strict flag is the gtid_strict_mode controller a window points to.
   */
  function Step(f: Filter, g: RplGtid, strict: bool): (r: StepResult)
    ensures FilterType(r.next) == FilterType(f)
    decreases f, 1
  {
    match f
    case AcceptAll => StepResult(false, f)
    case RejectAll => StepResult(true, f)
    case Window(w) =>
      var wr := WindowExclude(w, g, strict);
      StepResult(wr.excluded, Window(wr.next))
    case Delegating(d) =>
      var dr := DelegationExclude(d, g);
      StepResult(dr.excluded, Delegating(dr.next))
    case Intersecting(f1, f2) =>
      var r1 := Step(f1, g, strict);
      var r2 := Step(f2, g, strict);
      StepResult(r1.excluded || r2.excluded, Intersecting(r1.next, r2.next))
  }

  /**
   * exclude() of an id-delegating filter: a GTID whose id has no explicit
   * filter goes to the default filter; one whose explicit filter has finished
   * is excluded; otherwise the explicit filter decides, and the completed
   * counter grows when that filter finishes. Children see the delegating
   * filter's own strict-mode flag.
   */
  function DelegationExclude(d: Delegation, g: RplGtid): (r: DelegationResult)
    ensures r.next.kind == d.kind && r.next.numExplicitFilters == d.numExplicitFilters
    ensures |r.next.elements| == |d.elements|
    ensures forall i | 0 <= i < |d.elements| :: r.next.elements[i].id == d.elements[i].id
    ensures r.next.numCompletedFilters >= d.numCompletedFilters
    ensures r.next.startIds == d.startIds && r.next.stopIds == d.stopIds
    decreases d, 0
  {
    var id := GetIdFromGtid(d.kind, g);
    var k := Lookup(d.elements, id);
    if k < 0 then
      var s := Step(d.defaultFilter, g, d.strictMode);
      DelegationResult(s.excluded, d.(defaultFilter := s.next))
    else
      var child := d.elements[k].filter;
      if Finished(child) then
        DelegationResult(true, d)
      else
        var s := Step(child, g, d.strictMode);
        DelegationResult(
          s.excluded,
          d.(elements := d.elements[k := FilterElement(id, s.next)],
             numCompletedFilters := d.numCompletedFilters + (if Finished(s.next) then 1 else 0)))
  }

  /**
   * write_warnings() of every variant. An intersecting filter writes its first
   * child's warnings before its second's; a delegating filter writes those of
   * its explicit filters in registration order, then its default filter's.
   */
  function Warnings(f: Filter): (r: seq<Warning>)
    ensures f.AcceptAll? || f.RejectAll? ==> r == []
    ensures f.Window? ==> (r != [] <==> f.w.warnOutOfOrder)
    ensures f.Delegating? ==>
              (r == [] <==> Warnings(f.d.defaultFilter) == []
                            && forall j | 0 <= j < |f.d.elements| :: Warnings(f.d.elements[j].filter) == [])
    ensures f.Intersecting? ==> (r == [] <==> Warnings(f.filter1) == [] && Warnings(f.filter2) == [])
    decreases f, 1
  {
    match f
    case AcceptAll => []
    case RejectAll => []
    case Window(w) => WindowWarnings(w)
    case Delegating(d) => ElementWarnings(d, 0) + Warnings(d.defaultFilter)
    case Intersecting(f1, f2) => Warnings(f1) + Warnings(f2)
  }

  function ElementWarnings(d: Delegation, i: nat): (r: seq<Warning>)
    ensures r == [] <==> forall j | i <= j < |d.elements| :: Warnings(d.elements[j].filter) == []
    decreases d, |d.elements| - i
  {
    if i >= |d.elements| then []
    else Warnings(d.elements[i].filter) + ElementWarnings(d, i + 1)
  }

  /** A filter fed a stream of GTIDs, one verdict per GTID. */
  datatype RunResult = RunResult(excluded: seq<bool>, final: Filter)

  function Run(f: Filter, gs: seq<RplGtid>, strict: bool): (r: RunResult)
    ensures |r.excluded| == |gs|
    decreases |gs|
  {
    if |gs| == 0 then RunResult([], f)
    else
      var s := Step(f, gs[0], strict);
      var rest := Run(s.next, gs[1..], strict);
      RunResult([s.excluded] + rest.excluded, rest.final)
  }

  /*
   * ---------------------------------------------------------------------
   * Building an id-delegating filter
   * ---------------------------------------------------------------------
   */

  /** A new Domain or Server filter: no explicit filters, accept-all default, strict mode off. */
  function NewDelegation(kind: IdKind): (d: Delegation)
    ensures DelegationValid(d) && !Finished(Delegating(d))
    ensures d.kind == kind && d.elements == [] && d.defaultFilter == AcceptAll
  {
    Delegation(kind, AcceptAll, [], 0, 0, false, false, false, [], [])
  }

  /** find_or_create_filter_element_for_id with a fresh filter f: an existing element is kept. */
  function AddIdFilter(d: Delegation, id: Uint32, f: Filter): (r: Delegation)
    ensures Lookup(d.elements, id) >= 0 ==> r == d
    ensures Lookup(d.elements, id) < 0 ==>
              r == d.(elements := d.elements + [FilterElement(id, f)],
                      numExplicitFilters := d.numExplicitFilters + 1)
  {
    if Lookup(d.elements, id) >= 0 then d
    else d.(elements := d.elements + [FilterElement(id, f)],
            numExplicitFilters := d.numExplicitFilters + 1)
  }

  /** Registering each id of the list in turn. */
  function AddIdFilters(d: Delegation, ids: seq<Uint32>, f: Filter): (r: Delegation)
    ensures r.kind == d.kind && r.defaultFilter == d.defaultFilter
    ensures r.whitelistSet == d.whitelistSet && r.blacklistSet == d.blacklistSet
    ensures r.strictMode == d.strictMode && r.startIds == d.startIds && r.stopIds == d.stopIds
    ensures r.numCompletedFilters == d.numCompletedFilters
    decreases |ids|
  {
    if |ids| == 0 then d
    else AddIdFilter(AddIdFilters(d, ids[..|ids| - 1], f), ids[|ids| - 1], f)
  }

  /** Registering one more id of the list registers it after the ones before it. */
  lemma AddIdFiltersPrefix(d: Delegation, ids: seq<Uint32>, i: nat, f: Filter)
    requires i < |ids|
    ensures AddIdFilters(d, ids[..i + 1], f) == AddIdFilter(AddIdFilters(d, ids[..i], f), ids[i], f)
  {
    assert ids[..i + 1][..i] == ids[..i];
  }

  /**
   * set_blacklist: include every id except the listed ones, each of which
   * gets a reject-all filter unless it already has an explicit filter.
   * Refused once a whitelist has been set.
   */
  function SetBlacklist(d: Delegation, ids: seq<Uint32>): (r: Result<Delegation, FilterError>)
    ensures r.Err? <==> d.whitelistSet
    ensures r.Ok? ==> r.value.blacklistSet && r.value.defaultFilter == AcceptAll
  {
    if d.whitelistSet then Err(ConflictingIdList)
    else Ok(AddIdFilters(d, ids, RejectAll).(defaultFilter := AcceptAll, blacklistSet := true))
  }

  /**
   * set_whitelist: exclude every id except the listed ones, each of which
   * gets an accept-all filter unless it already has an explicit filter.
   * Refused once a blacklist has been set.
   */
  function SetWhitelist(d: Delegation, ids: seq<Uint32>): (r: Result<Delegation, FilterError>)
    ensures r.Err? <==> d.blacklistSet
    ensures r.Ok? ==> r.value.whitelistSet && r.value.defaultFilter == RejectAll
  {
    if d.blacklistSet then Err(ConflictingIdList)
    else Ok(AddIdFilters(d, ids, AcceptAll).(defaultFilter := RejectAll, whitelistSet := true))
  }

  /**
   * add_start_gtid / add_stop_gtid of the Domain filter: find or create the
   * window of the GTID's domain and set its start (isStart) or stop bound.
   * Fails when the domain's filter is not a window or already has that bound.
   * The domain is recorded in the start (or stop) list.
   */
  function AddBoundGtid(d: Delegation, g: RplGtid, isStart: bool): (r: Result<Delegation, FilterError>)
    requires d.kind == DomainKey
    ensures r.Ok? ==> r.value.kind == d.kind && r.value.defaultFilter == d.defaultFilter
    ensures r.Ok? && isStart ==> r.value.startIds == d.startIds + [g.domainId] && r.value.stopIds == d.stopIds
    ensures r.Ok? && !isStart ==> r.value.stopIds == d.stopIds + [g.domainId] && r.value.startIds == d.startIds
    ensures Lookup(d.elements, g.domainId) < 0 ==> r.Ok?
    ensures Lookup(d.elements, g.domainId) >= 0 && !d.elements[Lookup(d.elements, g.domainId)].filter.Window? ==>
              r == Err(NotAWindow)
  {
    var k := Lookup(d.elements, g.domainId);
    if k < 0 then
      var w := SetBound(NEW_WINDOW, g, isStart).value;
      var elem := FilterElement(g.domainId, Window(w));
      Ok(RecordBound(d.(elements := d.elements + [elem],
                        numExplicitFilters := d.numExplicitFilters + 1), g.domainId, isStart))
    else
      match d.elements[k].filter
      case Window(w) =>
        var bound := SetBound(w, g, isStart);
        if bound.Err? then Err(bound.error)
        else
          var elem := FilterElement(g.domainId, Window(bound.value));
          var completed := if Finished(Window(bound.value)) && !Finished(Window(w)) then 1 else 0;
          Ok(RecordBound(d.(elements := d.elements[k := elem],
                            numCompletedFilters := d.numCompletedFilters + completed), g.domainId, isStart))
      case _ => Err(NotAWindow)
  }

  /** set_start_gtid (isStart) or set_stop_gtid. */
  function SetBound(w: WindowState, g: RplGtid, isStart: bool): (r: Result<WindowState, FilterError>)
    ensures r.Err? <==> (if isStart then w.hasStart else w.hasStop)
  {
    if isStart then SetStartGtid(w, g) else SetStopGtid(w, g)
  }

  /** Appending the domain to m_start_filters (isStart) or m_stop_filters. */
  function RecordBound(d: Delegation, id: Uint32, isStart: bool): (r: Delegation)
    ensures r.elements == d.elements && r.numExplicitFilters == d.numExplicitFilters
    ensures r.numCompletedFilters == d.numCompletedFilters && r.kind == d.kind
    ensures r.defaultFilter == d.defaultFilter && r.strictMode == d.strictMode
    ensures isStart ==> r.startIds == d.startIds + [id] && r.stopIds == d.stopIds
    ensures !isStart ==> r.stopIds == d.stopIds + [id] && r.startIds == d.startIds
  {
    if isStart then d.(startIds := d.startIds + [id]) else d.(stopIds := d.stopIds + [id])
  }

  /** The window registered for a domain, if any. */
  function WindowOf(d: Delegation, domainId: Uint32): (r: Option<WindowState>)
    ensures r.Some? ==> Lookup(d.elements, domainId) >= 0
  {
    var k := Lookup(d.elements, domainId);
    if k >= 0 && d.elements[k].filter.Window? then Some(d.elements[k].filter.w) else None
  }

  /** get_start_gtids: the start position of each domain in the start list, in the order added. */
  function GetStartGtids(d: Delegation): (r: seq<RplGtid>)
    ensures |r| == |d.startIds|
    ensures forall i | 0 <= i < |r| :: WindowOf(d, d.startIds[i]).Some? ==> r[i] == WindowOf(d, d.startIds[i]).value.start
  {
    seq(|d.startIds|, i requires 0 <= i < |d.startIds| =>
      match WindowOf(d, d.startIds[i]) case Some(w) => w.start case None => ZERO_GTID)
  }

  /** get_stop_gtids: the stop position of each domain in the stop list, in the order added. */
  function GetStopGtids(d: Delegation): (r: seq<RplGtid>)
    ensures |r| == |d.stopIds|
    ensures forall i | 0 <= i < |r| :: WindowOf(d, d.stopIds[i]).Some? ==> r[i] == WindowOf(d, d.stopIds[i]).value.stop
  {
    seq(|d.stopIds|, i requires 0 <= i < |d.stopIds| =>
      match WindowOf(d, d.stopIds[i]) case Some(w) => w.stop case None => ZERO_GTID)
  }

  /** Whether the window has a start position (start) or a stop position (not start). */
  predicate HasBound(w: WindowState, start: bool) {
    if start then w.hasStart else w.hasStop
  }

  /** clear_start_pos or clear_stop_pos of a window. */
  function ClearBound(w: WindowState, start: bool): (r: WindowState)
    ensures !HasBound(r, start) && HasBound(r, !start) == HasBound(w, !start)
    ensures r.isActive == w.isActive && r.hasPassed == w.hasPassed
    ensures start ==> r.stop == w.stop
    ensures !start ==> r.start == w.start
  {
    if start then ClearStartPos(w) else ClearStopPos(w)
  }

  /**
   * What respecifying one kind of bound does to an element: a window holding
   * such a bound loses it, and is removed altogether when it has no bound of
   * the other kind left; every other element is kept as it is.
   */
  function ClearedElement(e: FilterElement, start: bool): (r: Option<FilterElement>)
    ensures r.None? <==> e.filter.Window? && HasBound(e.filter.w, start) && !HasBound(e.filter.w, !start)
    ensures r.Some? ==> r.value.id == e.id
    ensures r.Some? && e.filter.Window? && HasBound(e.filter.w, start) ==>
              r.value.filter == Window(ClearBound(e.filter.w, start))
    ensures r.Some? && !(e.filter.Window? && HasBound(e.filter.w, start)) ==> r.value == e
  {
    if e.filter.Window? && HasBound(e.filter.w, start) then
      if HasBound(e.filter.w, !start) then Some(FilterElement(e.id, Window(ClearBound(e.filter.w, start))))
      else None
    else Some(e)
  }

  /** The explicit filters left after respecifying one kind of bound, in their order. */
  function ClearElements(elems: seq<FilterElement>, start: bool): (r: seq<FilterElement>)
    ensures |r| <= |elems|
    ensures forall i | 0 <= i < |r| :: !(r[i].filter.Window? && HasBound(r[i].filter.w, start))
    ensures (forall i | 0 <= i < |elems| :: Valid(elems[i].filter)) ==>
              forall i | 0 <= i < |r| :: Valid(r[i].filter)
    decreases |elems|
  {
    if |elems| == 0 then []
    else
      var rest := ClearElements(elems[..|elems| - 1], start);
      match ClearedElement(elems[|elems| - 1], start)
      case None => rest
      case Some(e) => rest + [e]
  }

  /**
   * clear_start_gtids (start) or clear_stop_gtids (not start): the filter
   * starts over. Every window loses that kind of bound, a window left with
   * no bound is removed, the counters are recomputed from what remains and
   * the list of that kind of bound empties.
   */
  function ClearGtids(d: Delegation, start: bool): (r: Delegation)
    ensures r.kind == d.kind && r.defaultFilter == d.defaultFilter && r.strictMode == d.strictMode
    ensures r.whitelistSet == d.whitelistSet && r.blacklistSet == d.blacklistSet
    ensures start ==> r.startIds == [] && r.stopIds == d.stopIds
    ensures !start ==> r.stopIds == [] && r.startIds == d.startIds
    ensures |r.elements| <= |d.elements|
    ensures r.numExplicitFilters == |r.elements| && r.numCompletedFilters == CountFinished(r.elements)
    ensures forall i | 0 <= i < |r.elements| :: !(r.elements[i].filter.Window? && HasBound(r.elements[i].filter.w, start))
  {
    var elems := ClearElements(d.elements, start);
    d.(elements := elems, numExplicitFilters := |elems|, numCompletedFilters := CountFinished(elems),
       startIds := if start then [] else d.startIds, stopIds := if start then d.stopIds else [])
  }

  /** clear_start_gtids: no window keeps a start position and the start list empties. */
  function ClearStartGtids(d: Delegation): (r: Delegation)
    ensures r.startIds == [] && r.stopIds == d.stopIds
    ensures forall i | 0 <= i < |r.elements| :: !(r.elements[i].filter.Window? && r.elements[i].filter.w.hasStart)
    ensures r.numExplicitFilters == |r.elements| && r.numCompletedFilters == CountFinished(r.elements)
  {
    ClearGtids(d, true)
  }

  /** clear_stop_gtids: no window keeps a stop position and the stop list empties. */
  function ClearStopGtids(d: Delegation): (r: Delegation)
    ensures r.stopIds == [] && r.startIds == d.startIds
    ensures forall i | 0 <= i < |r.elements| :: !(r.elements[i].filter.Window? && r.elements[i].filter.w.hasStop)
    ensures r.numExplicitFilters == |r.elements| && r.numCompletedFilters == CountFinished(r.elements)
  {
    ClearGtids(d, false)
  }

  /*
   * ---------------------------------------------------------------------
   * Properties
   * ---------------------------------------------------------------------
   */

  /** Accept-all and reject-all never change, never finish, and give a constant verdict. */
  lemma ConstantFiltersNeverFinish(gs: seq<RplGtid>, strict: bool)
    ensures forall i | 0 <= i < |gs| :: !Run(AcceptAll, gs, strict).excluded[i]
    ensures forall i | 0 <= i < |gs| :: Run(RejectAll, gs, strict).excluded[i]
    ensures Run(AcceptAll, gs, strict).final == AcceptAll && !Finished(AcceptAll)
    ensures Run(RejectAll, gs, strict).final == RejectAll && !Finished(RejectAll)
    decreases |gs|
  {
    if |gs| > 0 {
      ConstantFiltersNeverFinish(gs[1..], strict);
    }
  }

  /** An intersecting filter lets a GTID through exactly when both children do. */
  lemma IntersectingExcludesIffEither(f1: Filter, f2: Filter, g: RplGtid, strict: bool)
    ensures Step(Intersecting(f1, f2), g, strict).excluded <==>
              Step(f1, g, strict).excluded || Step(f2, g, strict).excluded
    ensures Finished(Intersecting(f1, f2)) <==> Finished(f1) && Finished(f2)
    ensures Warnings(Intersecting(f1, f2)) == Warnings(f1) + Warnings(f2)
  {
  }

  /** Intersecting(AcceptAll, RejectAll) excludes every GTID of every stream. */
  lemma {:induction false} IntersectAcceptRejectExcludesAll(gs: seq<RplGtid>, strict: bool)
    ensures forall i | 0 <= i < |gs| :: Run(Intersecting(AcceptAll, RejectAll), gs, strict).excluded[i]
    ensures Run(Intersecting(AcceptAll, RejectAll), gs, strict).final == Intersecting(AcceptAll, RejectAll)
    decreases |gs|
  {
    if |gs| > 0 {
      IntersectAcceptRejectExcludesAll(gs[1..], strict);
      var r := Run(Intersecting(AcceptAll, RejectAll), gs, strict);
      var rest := Run(Intersecting(AcceptAll, RejectAll), gs[1..], strict);
      assert r.excluded == [true] + rest.excluded;
    }
  }

  /** A window with no start position is active from the first GTID of its stream on. */
  lemma NoStartActiveFromBeginning(w: WindowState, g: RplGtid, strict: bool)
    requires !w.hasStart && !w.hasPassed
    requires !(w.hasStop && AtOrAfter(w.stop, g))
    ensures !WindowExclude(w, g, strict).excluded
    ensures WindowExclude(w, g, strict).next.isActive
  {
  }

  /** A window with no stop position never finishes, whatever stream it is fed. */
  lemma {:induction false} NoStopNeverFinishes(w: WindowState, gs: seq<RplGtid>, strict: bool)
    requires !w.hasStop && WindowValid(w)
    ensures Run(Window(w), gs, strict).final.Window?
    ensures !Run(Window(w), gs, strict).final.w.hasStop
    ensures !Finished(Run(Window(w), gs, strict).final)
    decreases |gs|
  {
    if |gs| > 0 {
      var next := WindowExclude(w, gs[0], strict).next;
      WindowExcludePreservesValid(w, gs[0], strict);
      NoStopNeverFinishes(next, gs[1..], strict);
    }
  }

  /**
   * The window of the class comment: start 0-1-0, stop 0-1-2 and the stream
   * 0-1-1, 0-2-1, 0-1-2. Nothing is excluded; the window activates at 0-1-1,
   * admits 0-2-1 from another server, and finishes exactly after 0-1-2.
   */
  lemma WindowExampleStream()
    ensures var w0 := NEW_WINDOW.(hasStart := true, start := RplGtid(0, 1, 0),
                                  hasStop := true, stop := RplGtid(0, 1, 2));
            var r1 := WindowExclude(w0, RplGtid(0, 1, 1), false);
            var r2 := WindowExclude(r1.next, RplGtid(0, 2, 1), false);
            var r3 := WindowExclude(r2.next, RplGtid(0, 1, 2), false);
            && !r1.excluded && !r2.excluded && !r3.excluded
            && r1.next.isActive && !WindowFinished(r1.next)
            && r2.next.isActive && !WindowFinished(r2.next)
            && !r3.next.isActive && WindowFinished(r3.next)
  {
  }

  /** The same stream through a Domain filter configured with add_start_gtid and add_stop_gtid. */
  lemma DomainFilterExampleStream()
    ensures var d0 := NewDelegation(DomainKey);
            var a := AddBoundGtid(d0, RplGtid(0, 1, 0), true);
            a.Ok? &&
            var b := AddBoundGtid(a.value, RplGtid(0, 1, 2), false);
            b.Ok? &&
            var run := Run(Delegating(b.value), [RplGtid(0, 1, 1), RplGtid(0, 2, 1), RplGtid(0, 1, 2)], false);
            && run.excluded == [false, false, false]
            && Finished(run.final)
            && !Finished(Run(Delegating(b.value), [RplGtid(0, 1, 1), RplGtid(0, 2, 1)], false).final)
  {
    var g1, g2, g3 := RplGtid(0, 1, 1), RplGtid(0, 2, 1), RplGtid(0, 1, 2);
    var w0 := NEW_WINDOW.(hasStart := true, start := RplGtid(0, 1, 0),
                          hasStop := true, stop := RplGtid(0, 1, 2));
    var d := Delegation(DomainKey, AcceptAll, [FilterElement(0, Window(w0))], 1, 0,
                        false, false, false, [0], [0]);
    var a := AddBoundGtid(NewDelegation(DomainKey), RplGtid(0, 1, 0), true);
    assert a.value.elements == [FilterElement(0, Window(NEW_WINDOW.(hasStart := true,
                                                                     start := RplGtid(0, 1, 0))))];
    assert Lookup(a.value.elements, 0) == 0;
    assert AddBoundGtid(a.value, RplGtid(0, 1, 2), false).value.elements == d.elements;
    assert AddBoundGtid(a.value, RplGtid(0, 1, 2), false).value == d;
    WindowExampleStream();
    var r1 := WindowExclude(w0, g1, false);
    var r2 := WindowExclude(r1.next, g2, false);
    var r3 := WindowExclude(r2.next, g3, false);
    var d1 := d.(elements := [FilterElement(0, Window(r1.next))]);
    var d2 := d.(elements := [FilterElement(0, Window(r2.next))]);
    var d3 := d.(elements := [FilterElement(0, Window(r3.next))], numCompletedFilters := 1);
    assert Lookup(d.elements, 0) == 0 && Lookup(d1.elements, 0) == 0 && Lookup(d2.elements, 0) == 0;
    assert d.elements[0 := FilterElement(0, Window(r1.next))] == d1.elements;
    assert d1.elements[0 := FilterElement(0, Window(r2.next))] == d2.elements;
    assert d2.elements[0 := FilterElement(0, Window(r3.next))] == d3.elements;
    assert DelegationExclude(d, g1) == DelegationResult(false, d1);
    assert DelegationExclude(d1, g2) == DelegationResult(false, d2);
    assert DelegationExclude(d2, g3) == DelegationResult(false, d3);
    assert [g1, g2, g3][1..] == [g2, g3] && [g2, g3][1..] == [g3] && [g3][1..] == [];
    assert [g1, g2][1..] == [g2] && [g2][1..] == [];
    assert Run(Delegating(d2), [g3], false) == RunResult([false], Delegating(d3));
    assert Run(Delegating(d1), [g2, g3], false) == RunResult([false, false], Delegating(d3));
    assert Run(Delegating(d1), [g2], false) == RunResult([false], Delegating(d2));
    assert Run(Delegating(d), [g1, g2, g3], false) == RunResult([false, false, false], Delegating(d3));
  }

  /*
   * Counting finished explicit filters.
   */

  lemma {:induction false} CountFinishedUpdate(elems: seq<FilterElement>, k: nat, e: FilterElement)
    requires k < |elems|
    ensures CountFinished(elems[k := e]) ==
              CountFinished(elems)
              - (if Finished(elems[k].filter) then 1 else 0)
              + (if Finished(e.filter) then 1 else 0)
    decreases |elems|
  {
    var n := |elems|;
    var upd := elems[k := e];
    assert upd[..n - 1] == if k < n - 1 then elems[..n - 1][k := e] else elems[..n - 1];
    if k < n - 1 {
      CountFinishedUpdate(elems[..n - 1], k, e);
    }
  }

  lemma CountFinishedAppend(elems: seq<FilterElement>, e: FilterElement)
    ensures CountFinished(elems + [e]) == CountFinished(elems) + (if Finished(e.filter) then 1 else 0)
  {
    assert (elems + [e])[..|elems|] == elems;
  }

  /** When every explicit filter is counted as finished, each of them has finished. */
  lemma {:induction false} CountFinishedAll(elems: seq<FilterElement>, i: nat)
    requires CountFinished(elems) == |elems| && i < |elems|
    ensures Finished(elems[i].filter)
    decreases |elems|
  {
    var n := |elems|;
    if i < n - 1 {
      CountFinishedAll(elems[..n - 1], i);
    }
  }

  lemma LookupAppend(elems: seq<FilterElement>, e: FilterElement, id: Uint32)
    ensures Lookup(elems + [e], id) == if e.id == id then |elems| else Lookup(elems, id)
    ensures Lookup(elems + [e], id) >= 0 ==>
              (elems + [e])[Lookup(elems + [e], id)] == if e.id == id then e else elems[Lookup(elems, id)]
  {
    assert (elems + [e])[..|elems|] == elems;
  }

  /** With unique ids, the element found for an id is the only one carrying it. */
  lemma LookupUnique(elems: seq<FilterElement>, id: Uint32, i: int)
    requires UniqueIds(elems) && 0 <= i < |elems| && elems[i].id == id
    ensures Lookup(elems, id) == i
  {
  }

  /*
   * Filtering keeps the structural invariant, and a finished filter stays finished.
   */

  lemma {:induction false} StepPreservesValid(f: Filter, g: RplGtid, strict: bool)
    requires Valid(f)
    ensures Valid(Step(f, g, strict).next)
    decreases f, 1
  {
    match f
    case AcceptAll =>
    case RejectAll =>
    case Window(w) =>
      WindowExcludePreservesValid(w, g, strict);
    case Delegating(d) =>
      DelegationExcludePreservesValid(d, g);
    case Intersecting(f1, f2) =>
      StepPreservesValid(f1, g, strict);
      StepPreservesValid(f2, g, strict);
  }

  lemma {:induction false} DelegationExcludePreservesValid(d: Delegation, g: RplGtid)
    requires DelegationValid(d)
    ensures DelegationValid(DelegationExclude(d, g).next)
    decreases d, 0
  {
    var id := GetIdFromGtid(d.kind, g);
    var k := Lookup(d.elements, id);
    if k < 0 {
      StepPreservesValid(d.defaultFilter, g, d.strictMode);
    } else {
      var child := d.elements[k].filter;
      if !Finished(child) {
        assert Valid(child);
        var s := Step(child, g, d.strictMode);
        StepPreservesValid(child, g, d.strictMode);
        CountFinishedUpdate(d.elements, k, FilterElement(id, s.next));
        var next := DelegationExclude(d, g).next;
        assert next.elements == d.elements[k := FilterElement(id, s.next)];
        assert forall i | 0 <= i < |next.elements| :: Valid(next.elements[i].filter);
      }
    }
  }

  lemma {:induction false} FinishedIsStable(f: Filter, g: RplGtid, strict: bool)
    requires Valid(f) && Finished(f)
    ensures Finished(Step(f, g, strict).next)
    decreases f
  {
    match f
    case AcceptAll =>
    case RejectAll =>
    case Window(w) =>
    case Delegating(d) =>
      var k := Lookup(d.elements, GetIdFromGtid(d.kind, g));
      if k >= 0 {
        CountFinishedAll(d.elements, k);
      }
    case Intersecting(f1, f2) =>
      FinishedIsStable(f1, g, strict);
      FinishedIsStable(f2, g, strict);
  }

  /** The completed counter of a valid delegating filter never exceeds the explicit one. */
  lemma CompletedNeverExceedsExplicit(d: Delegation)
    requires DelegationValid(d)
    ensures d.numCompletedFilters <= d.numExplicitFilters
  {
  }

  /*
   * Blacklists and whitelists.
   */

  /** After registering ids with filter f, an id has an element iff it had one or is listed. */
  lemma {:induction false} AddIdFiltersShape(d: Delegation, ids: seq<Uint32>, f: Filter)
    ensures var r := AddIdFilters(d, ids, f);
            && |d.elements| <= |r.elements|
            && r.elements[..|d.elements|] == d.elements
            && r.numExplicitFilters == d.numExplicitFilters + (|r.elements| - |d.elements|)
            && (forall i | |d.elements| <= i < |r.elements| :: r.elements[i].filter == f)
    decreases |ids|
  {
    if |ids| > 0 {
      var front := ids[..|ids| - 1];
      var last := ids[|ids| - 1];
      AddIdFiltersShape(d, front, f);
      var m := AddIdFilters(d, front, f);
      if Lookup(m.elements, last) < 0 {
        var r := AddIdFilters(d, ids, f);
        assert r.elements == m.elements + [FilterElement(last, f)];
        forall i | 0 <= i < |d.elements| ensures r.elements[i] == d.elements[i] {
          assert r.elements[i] == m.elements[i] == m.elements[..|d.elements|][i];
        }
      }
    }
  }

  /** After registering ids with filter f, an id has an element iff it had one or is listed. */
  lemma {:induction false} AddIdFiltersLookup(d: Delegation, ids: seq<Uint32>, f: Filter, id: Uint32)
    ensures var r := AddIdFilters(d, ids, f).elements;
            && (Lookup(r, id) >= 0 <==> Lookup(d.elements, id) >= 0 || id in ids)
            && (Lookup(d.elements, id) >= 0 ==> Lookup(r, id) == Lookup(d.elements, id))
            && (Lookup(d.elements, id) < 0 && id in ids ==> r[Lookup(r, id)].filter == f)
    decreases |ids|
  {
    if |ids| > 0 {
      var front := ids[..|ids| - 1];
      var last := ids[|ids| - 1];
      AddIdFiltersLookup(d, front, f, id);
      assert id in ids <==> id in front || id == last by {
        assert ids == front + [last];
      }
      AddIdFilterLookup(AddIdFilters(d, front, f), last, f, id);
    }
  }

  /** Registering one id: the lookup of an id already present is unchanged, and only the registered id is added. */
  lemma AddIdFilterLookup(d: Delegation, x: Uint32, f: Filter, id: Uint32)
    ensures var m := d.elements;
            var r := AddIdFilter(d, x, f).elements;
            && (Lookup(m, id) >= 0 ==> Lookup(r, id) == Lookup(m, id) && r[Lookup(r, id)] == m[Lookup(m, id)])
            && (Lookup(m, id) < 0 ==> (Lookup(r, id) >= 0 <==> id == x))
            && (Lookup(m, id) < 0 && id == x ==> r[Lookup(r, id)].filter == f)
  {
    if Lookup(d.elements, x) < 0 {
      LookupAppend(d.elements, FilterElement(x, f), id);
    }
  }

  /** Registering ids keeps the ids unique and the completed counter exact. */
  lemma {:induction false} AddIdFiltersValid(d: Delegation, ids: seq<Uint32>, f: Filter)
    requires DelegationValid(d) && Valid(f) && !Finished(f)
    ensures DelegationValid(AddIdFilters(d, ids, f))
    decreases |ids|
  {
    if |ids| > 0 {
      var front := ids[..|ids| - 1];
      var last := ids[|ids| - 1];
      AddIdFiltersValid(d, front, f);
      var m := AddIdFilters(d, front, f);
      if Lookup(m.elements, last) < 0 {
        CountFinishedAppend(m.elements, FilterElement(last, f));
      }
    }
  }

  /**
   * A blacklist on a filter with no explicit filters yet excludes exactly the
   * GTIDs whose id is listed.
   */
  lemma BlacklistExcludesExactlyListed(d: Delegation, ids: seq<Uint32>, g: RplGtid)
    requires d.elements == [] && !d.whitelistSet
    ensures SetBlacklist(d, ids).Ok?
    ensures DelegationExclude(SetBlacklist(d, ids).value, g).excluded <==> GetIdFromGtid(d.kind, g) in ids
  {
    AddIdFiltersLookup(d, ids, RejectAll, GetIdFromGtid(d.kind, g));
  }

  /**
   * A whitelist on a filter with no explicit filters yet includes exactly the
   * GTIDs whose id is listed.
   */
  lemma WhitelistIncludesExactlyListed(d: Delegation, ids: seq<Uint32>, g: RplGtid)
    requires d.elements == [] && !d.blacklistSet
    ensures SetWhitelist(d, ids).Ok?
    ensures !DelegationExclude(SetWhitelist(d, ids).value, g).excluded <==> GetIdFromGtid(d.kind, g) in ids
  {
    AddIdFiltersLookup(d, ids, AcceptAll, GetIdFromGtid(d.kind, g));
  }

  /** Every explicit filter is accept-all or reject-all. */
  predicate OnlyConstantChildren(d: Delegation) {
    forall i | 0 <= i < |d.elements| :: d.elements[i].filter == AcceptAll || d.elements[i].filter == RejectAll
  }

  /**
   * A delegating filter whose explicit filters are all accept-all or
   * reject-all (a blacklist or whitelist with nothing else registered) never
   * finishes, whatever stream it is fed.
   */
  lemma {:induction false} ConstantChildrenNeverFinish(d: Delegation, gs: seq<RplGtid>)
    requires DelegationValid(d) && OnlyConstantChildren(d)
    ensures Run(Delegating(d), gs, d.strictMode).final.Delegating?
    ensures !Finished(Run(Delegating(d), gs, d.strictMode).final)
    decreases |gs|
  {
    assert CountFinished(d.elements) == 0 by {
      ConstantCountIsZero(d.elements);
    }
    if |gs| > 0 {
      var next := DelegationExclude(d, gs[0]).next;
      DelegationExcludePreservesValid(d, gs[0]);
      var k := Lookup(d.elements, GetIdFromGtid(d.kind, gs[0]));
      if k >= 0 {
        assert next.elements == d.elements;
      }
      ConstantChildrenNeverFinish(next, gs[1..]);
    }
  }

  lemma {:induction false} ConstantCountIsZero(elems: seq<FilterElement>)
    requires forall i | 0 <= i < |elems| :: elems[i].filter == AcceptAll || elems[i].filter == RejectAll
    ensures CountFinished(elems) == 0
    decreases |elems|
  {
    if |elems| > 0 {
      ConstantCountIsZero(elems[..|elems| - 1]);
    }
  }

  /** The blacklist {5} of the design notes: id 5 excluded, all others included, never finished. */
  lemma BlacklistFiveNeverFinishes(kind: IdKind, gs: seq<RplGtid>)
    ensures var d := SetBlacklist(NewDelegation(kind), [5]);
            && d.Ok?
            && (forall g: RplGtid :: DelegationExclude(d.value, g).excluded <==> GetIdFromGtid(kind, g) == 5)
            && !Finished(Run(Delegating(d.value), gs, false).final)
  {
    var d0 := NewDelegation(kind);
    var d := SetBlacklist(d0, [5]).value;
    forall g: RplGtid
      ensures DelegationExclude(d, g).excluded <==> GetIdFromGtid(kind, g) == 5
    {
      BlacklistExcludesExactlyListed(d0, [5], g);
    }
    assert [5 as Uint32][..0] == [] && [] + [FilterElement(5, RejectAll)] == [FilterElement(5, RejectAll)];
    assert d == Delegation(kind, AcceptAll, [FilterElement(5, RejectAll)], 1, 0, false, true, false, [], []);
    ConstantChildrenNeverFinish(d, gs);
  }

  /*
   * Id dispatch.
   */

  /** A GTID whose id has no explicit filter is decided by the default filter alone. */
  lemma UnregisteredIdGoesToDefault(d: Delegation, g: RplGtid)
    requires forall i | 0 <= i < |d.elements| :: d.elements[i].id != GetIdFromGtid(d.kind, g)
    ensures DelegationExclude(d, g).excluded == Step(d.defaultFilter, g, d.strictMode).excluded
    ensures DelegationExclude(d, g).next.elements == d.elements
  {
  }

  /**
   * A GTID whose id has an explicit, unfinished filter is decided by that
   * filter alone, and the default filter is not consulted.
   */
  lemma RegisteredIdGoesToChild(d: Delegation, g: RplGtid, i: int)
    requires UniqueIds(d.elements) && 0 <= i < |d.elements|
    requires d.elements[i].id == GetIdFromGtid(d.kind, g) && !Finished(d.elements[i].filter)
    ensures DelegationExclude(d, g).excluded == Step(d.elements[i].filter, g, d.strictMode).excluded
    ensures DelegationExclude(d, g).next.defaultFilter == d.defaultFilter
  {
    LookupUnique(d.elements, GetIdFromGtid(d.kind, g), i);
  }

  /**
   * A domain filter in strict mode whose window for the GTID's domain is
   * active, fed a seq_no lower than the last one that window saw, has a
   * warning to write afterwards.
   */
  lemma DomainWindowWarnsOnLowerSeqNo(d: Delegation, g: RplGtid, i: int)
    requires d.kind == DomainKey && d.strictMode
    requires UniqueIds(d.elements) && 0 <= i < |d.elements| && d.elements[i].id == g.domainId
    requires d.elements[i].filter.Window?
    requires var w := d.elements[i].filter.w;
             && w.isActive && !w.hasPassed
             && g.domainId == w.lastGtidSeen.domainId && g.seqNo < w.lastGtidSeen.seqNo
    ensures Warnings(Delegating(DelegationExclude(d, g).next)) != []
  {
    var w := d.elements[i].filter.w;
    LookupUnique(d.elements, g.domainId, i);
    var r := DelegationExclude(d, g).next;
    assert r.elements[i].filter == Step(Window(w), g, true).next;
    StrictWindowWarnsOnLowerSeqNo(w, g);
    assert Warnings(r.elements[i].filter) != [];
  }

  /** add_start_gtid and add_stop_gtid keep the structural invariant. */
  lemma {:induction false} AddBoundGtidValid(d: Delegation, g: RplGtid, isStart: bool)
    requires d.kind == DomainKey && DelegationValid(d)
    ensures AddBoundGtid(d, g, isStart).Ok? ==> DelegationValid(AddBoundGtid(d, g, isStart).value)
  {
    var r := AddBoundGtid(d, g, isStart);
    var k := Lookup(d.elements, g.domainId);
    if r.Ok? {
      if k < 0 {
        var elem := FilterElement(g.domainId, Window(SetBound(NEW_WINDOW, g, isStart).value));
        assert r.value.elements == d.elements + [elem];
        AppendWindowValid(d, elem);
      } else {
        var w := d.elements[k].filter.w;
        var elem := FilterElement(g.domainId, Window(SetBound(w, g, isStart).value));
        assert r.value.elements == d.elements[k := elem];
        assert r.value.numCompletedFilters == d.numCompletedFilters +
                 (if Finished(elem.filter) && !Finished(d.elements[k].filter) then 1 else 0);
        assert Valid(d.elements[k].filter);
        ReplaceWindowValid(d, k, elem);
      }
    }
  }

  /** Registering a fresh, unfinished filter under a new id keeps the invariant. */
  lemma AppendWindowValid(d: Delegation, elem: FilterElement)
    requires DelegationValid(d) && Valid(elem.filter) && !Finished(elem.filter)
    requires Lookup(d.elements, elem.id) < 0
    ensures DelegationValid(d.(elements := d.elements + [elem], numExplicitFilters := d.numExplicitFilters + 1))
  {
    CountFinishedAppend(d.elements, elem);
    var e := d.elements + [elem];
    assert forall i | 0 <= i < |d.elements| :: e[i] == d.elements[i];
  }

  /**
   * Replacing a filter by a valid one with the same id that is finished
   * whenever the old one was keeps the invariant, once a filter that has
   * just become finished is counted.
   */
  lemma ReplaceWindowValid(d: Delegation, k: nat, elem: FilterElement)
    requires DelegationValid(d) && k < |d.elements| && Valid(elem.filter)
    requires elem.id == d.elements[k].id && (Finished(d.elements[k].filter) ==> Finished(elem.filter))
    ensures DelegationValid(d.(elements := d.elements[k := elem],
                               numCompletedFilters := d.numCompletedFilters +
                                 (if Finished(elem.filter) && !Finished(d.elements[k].filter) then 1 else 0)))
  {
    CountFinishedUpdate(d.elements, k, elem);
  }

  /**
   * With unique ids, the element registered for an id after clearing is the
   * cleared form of the one registered before, and there is none exactly
   * when there was none or the clearing removed it.
   */
  lemma {:induction false} ClearElementsLookup(elems: seq<FilterElement>, start: bool, id: Uint32)
    requires UniqueIds(elems)
    ensures var r := ClearElements(elems, start);
            var k := Lookup(elems, id);
            && (Lookup(r, id) >= 0 <==> k >= 0 && ClearedElement(elems[k], start).Some?)
            && (Lookup(r, id) >= 0 ==> k >= 0 && r[Lookup(r, id)] == ClearedElement(elems[k], start).value)
    decreases |elems|
  {
    if |elems| > 0 {
      var p := elems[..|elems| - 1];
      var e := elems[|elems| - 1];
      assert elems == p + [e];
      assert UniqueIds(p) by {
        forall i, j | 0 <= i < j < |p| ensures p[i].id != p[j].id {
          assert p[i] == elems[i] && p[j] == elems[j];
        }
      }
      ClearElementsLookup(p, start, id);
      LookupAppend(p, e, id);
      var rp := ClearElements(p, start);
      if e.id == id {
        assert forall i | 0 <= i < |p| :: p[i].id != id by {
          forall i | 0 <= i < |p| ensures p[i].id != id {
            assert p[i] == elems[i];
          }
        }
      }
      match ClearedElement(e, start)
      case None =>
        assert ClearElements(elems, start) == rp;
      case Some(e2) =>
        assert ClearElements(elems, start) == rp + [e2];
        LookupAppend(rp, e2, id);
    }
  }

  /** Clearing keeps the ids unique. */
  lemma {:induction false} ClearElementsUnique(elems: seq<FilterElement>, start: bool)
    requires UniqueIds(elems)
    ensures UniqueIds(ClearElements(elems, start))
    decreases |elems|
  {
    if |elems| > 0 {
      var p := elems[..|elems| - 1];
      var e := elems[|elems| - 1];
      assert UniqueIds(p) by {
        forall i, j | 0 <= i < j < |p| ensures p[i].id != p[j].id {
          assert p[i] == elems[i] && p[j] == elems[j];
        }
      }
      ClearElementsUnique(p, start);
      var rp := ClearElements(p, start);
      match ClearedElement(e, start)
      case None =>
      case Some(e2) =>
        assert forall i | 0 <= i < |p| :: p[i].id != e.id by {
          forall i | 0 <= i < |p| ensures p[i].id != e.id {
            assert p[i] == elems[i];
          }
        }
        ClearElementsLookup(p, start, e.id);
        UniqueAppend(rp, e2);
        assert ClearElements(elems, start) == rp + [e2];
    }
  }

  /** Appending an element whose id is not yet registered keeps the ids unique. */
  lemma UniqueAppend(elems: seq<FilterElement>, e: FilterElement)
    requires UniqueIds(elems) && Lookup(elems, e.id) < 0
    ensures UniqueIds(elems + [e])
  {
    var r := elems + [e];
    forall i, j | 0 <= i < j < |r| ensures r[i].id != r[j].id {
      assert r[i] == elems[i];
    }
  }

  /** Respecifying the start or the stop positions keeps the delegating invariant. */
  lemma ClearGtidsValid(d: Delegation, start: bool)
    requires DelegationValid(d)
    ensures DelegationValid(ClearGtids(d, start))
  {
    ClearElementsUnique(d.elements, start);
  }

  /**
   * Respecifying starts over, domain by domain: a domain whose window held
   * only the cleared kind of bound loses its window (so its GTIDs go to the
   * default filter), a window holding the other kind of bound keeps that
   * bound and loses the cleared one, other explicit filters stay as they
   * were, and no domain gains a filter.
   */
  lemma ClearGtidsStartsOver(d: Delegation, start: bool, id: Uint32)
    requires DelegationValid(d)
    ensures var r := ClearGtids(d, start);
            var k := Lookup(d.elements, id);
            && (k < 0 ==> Lookup(r.elements, id) < 0)
            && ((WindowOf(d, id).Some? && !HasBound(WindowOf(d, id).value, !start)
                 && HasBound(WindowOf(d, id).value, start)) ==> Lookup(r.elements, id) < 0)
            && (WindowOf(d, id).Some? && HasBound(WindowOf(d, id).value, !start) ==>
                  WindowOf(r, id) == Some(if HasBound(WindowOf(d, id).value, start)
                                          then ClearBound(WindowOf(d, id).value, start)
                                          else WindowOf(d, id).value))
            && (k >= 0 && !d.elements[k].filter.Window? ==>
                  Lookup(r.elements, id) >= 0 && r.elements[Lookup(r.elements, id)] == d.elements[k])
  {
    ClearElementsLookup(d.elements, start, id);
  }

  /*
   * An example of respecifying: add_start_gtid(1-1-5), add_stop_gtid(0-1-9),
   * then clear_start_gtids().
   */

  const EXAMPLE_START_WINDOW: WindowState := NEW_WINDOW.(hasStart := true, start := RplGtid(1, 1, 5))
  const EXAMPLE_STOP_WINDOW: WindowState := NEW_WINDOW.(hasStop := true, stop := RplGtid(0, 1, 9))
  /** The Domain filter after add_start_gtid(1-1-5). */
  const EXAMPLE_START_ONLY: Delegation :=
    Delegation(DomainKey, AcceptAll, [FilterElement(1, Window(EXAMPLE_START_WINDOW))], 1, 0,
               false, false, false, [1], [])
  /** The Domain filter after add_start_gtid(1-1-5), then add_stop_gtid(0-1-9). */
  const EXAMPLE_START_AND_STOP: Delegation :=
    Delegation(DomainKey, AcceptAll,
               [FilterElement(1, Window(EXAMPLE_START_WINDOW)), FilterElement(0, Window(EXAMPLE_STOP_WINDOW))], 2, 0,
               false, false, false, [1], [0])
  /** A new Domain filter given only add_stop_gtid(0-1-9). */
  const EXAMPLE_STOP_ONLY: Delegation :=
    Delegation(DomainKey, AcceptAll, [FilterElement(0, Window(EXAMPLE_STOP_WINDOW))], 1, 0,
               false, false, false, [], [0])

  lemma ExampleAddStart()
    ensures AddBoundGtid(NewDelegation(DomainKey), RplGtid(1, 1, 5), true) == Ok(EXAMPLE_START_ONLY)
  {
    assert [] + [FilterElement(1, Window(EXAMPLE_START_WINDOW))] == [FilterElement(1, Window(EXAMPLE_START_WINDOW))];
    assert [] + [1 as Uint32] == [1];
  }

  lemma ExampleAddStop()
    ensures AddBoundGtid(EXAMPLE_START_ONLY, RplGtid(0, 1, 9), false) == Ok(EXAMPLE_START_AND_STOP)
  {
    assert Lookup(EXAMPLE_START_ONLY.elements, 0) < 0;
    assert EXAMPLE_START_ONLY.elements + [FilterElement(0, Window(EXAMPLE_STOP_WINDOW))] ==
           EXAMPLE_START_AND_STOP.elements;
    assert [] + [0 as Uint32] == [0];
  }

  lemma ExampleStopOnly()
    ensures AddBoundGtid(NewDelegation(DomainKey), RplGtid(0, 1, 9), false) == Ok(EXAMPLE_STOP_ONLY)
  {
    assert [] + [FilterElement(0, Window(EXAMPLE_STOP_WINDOW))] == EXAMPLE_STOP_ONLY.elements;
    assert [] + [0 as Uint32] == [0];
  }

  lemma ExampleClearStart()
    ensures ClearStartGtids(EXAMPLE_START_AND_STOP) == EXAMPLE_STOP_ONLY
  {
    var e1 := FilterElement(1, Window(EXAMPLE_START_WINDOW));
    var e0 := FilterElement(0, Window(EXAMPLE_STOP_WINDOW));
    assert [e1, e0][..1] == [e1];
    assert ClearElements([e1], true) == [];
    assert ClearElements([e1, e0], true) == [e0];
    assert CountFinished([e0]) == 0 by {
      assert [e0][..0] == [];
    }
  }

  lemma ExampleStopOnlyFinishes()
    ensures Finished(Run(Delegating(EXAMPLE_STOP_ONLY), [RplGtid(0, 1, 9)], false).final)
  {
    var g := RplGtid(0, 1, 9);
    var d := EXAMPLE_STOP_ONLY;
    assert GetIdFromGtid(DomainKey, g) == 0;
    assert Lookup(d.elements, 0) == 0;
    assert !Finished(Window(EXAMPLE_STOP_WINDOW)) && AtOrAfter(EXAMPLE_STOP_WINDOW.stop, g);
    var s := Step(Window(EXAMPLE_STOP_WINDOW), g, false);
    assert Finished(s.next);
    var next := DelegationExclude(d, g).next;
    assert next == d.(elements := d.elements[0 := FilterElement(0, s.next)], numCompletedFilters := 1);
    assert Finished(Delegating(next));
    assert [g][1..] == [];
    assert Run(Delegating(d), [g], false).final == Run(Delegating(next), [], false).final;
  }

  /**
   * Start 1-1-5 and stop 0-1-9, then clear_start_gtids: the filter is the
   * one given only the stop 0-1-9, and it finishes once 0-1-9 is seen.
   */
  lemma RespecifiedStartExample()
    ensures var d0 := NewDelegation(DomainKey);
            var a := AddBoundGtid(d0, RplGtid(1, 1, 5), true);
            a.Ok? &&
            var b := AddBoundGtid(a.value, RplGtid(0, 1, 9), false);
            var single := AddBoundGtid(d0, RplGtid(0, 1, 9), false);
            && b.Ok? && single.Ok?
            && ClearStartGtids(b.value) == single.value
            && Finished(Run(Delegating(single.value), [RplGtid(0, 1, 9)], false).final)
  {
    ExampleAddStart();
    ExampleAddStop();
    ExampleStopOnly();
    ExampleClearStart();
    ExampleStopOnlyFinishes();
  }

  /** After add_start_gtid (add_stop_gtid) the domain's window has the GTID as its start (stop). */
  lemma {:induction false} AddBoundGtidRegisters(d: Delegation, g: RplGtid, isStart: bool)
    requires d.kind == DomainKey && DelegationValid(d)
    ensures var r := AddBoundGtid(d, g, isStart);
            r.Ok? ==> && WindowOf(r.value, g.domainId).Some?
                      && (isStart ==> WindowOf(r.value, g.domainId).value.start == g)
                      && (!isStart ==> WindowOf(r.value, g.domainId).value.stop == g)
  {
    var r := AddBoundGtid(d, g, isStart);
    var k := Lookup(d.elements, g.domainId);
    if r.Ok? {
      AddBoundGtidValid(d, g, isStart);
      if k < 0 {
        var elem := FilterElement(g.domainId, Window(SetBound(NEW_WINDOW, g, isStart).value));
        assert r.value.elements == d.elements + [elem];
        LookupAppend(d.elements, elem, g.domainId);
      } else {
        var elem := FilterElement(g.domainId, Window(SetBound(d.elements[k].filter.w, g, isStart).value));
        assert r.value.elements == d.elements[k := elem];
        LookupUnique(r.value.elements, g.domainId, k);
      }
    }
  }

  /** The GTID given to a successful add_start_gtid is the last one get_start_gtids reports. */
  lemma AddStartGtidReported(d: Delegation, g: RplGtid)
    requires d.kind == DomainKey && DelegationValid(d)
    requires AddBoundGtid(d, g, true).Ok?
    ensures var s := GetStartGtids(AddBoundGtid(d, g, true).value);
            |s| == |d.startIds| + 1 && s[|s| - 1] == g
  {
    AddBoundGtidRegisters(d, g, true);
  }

  /** The GTID given to a successful add_stop_gtid is the last one get_stop_gtids reports. */
  lemma AddStopGtidReported(d: Delegation, g: RplGtid)
    requires d.kind == DomainKey && DelegationValid(d)
    requires AddBoundGtid(d, g, false).Ok?
    ensures var s := GetStopGtids(AddBoundGtid(d, g, false).value);
            |s| == |d.stopIds| + 1 && s[|s| - 1] == g
  {
    AddBoundGtidRegisters(d, g, false);
  }

  /** A second add_start_gtid for the same domain is refused. */
  lemma RepeatedStartRefused(d: Delegation, g1: RplGtid, g2: RplGtid)
    requires d.kind == DomainKey && DelegationValid(d)
    requires g1.domainId == g2.domainId
    requires AddBoundGtid(d, g1, true).Ok?
    ensures AddBoundGtid(AddBoundGtid(d, g1, true).value, g2, true) == Err(StartAlreadySet)
  {
    AddBoundGtidRegisters(d, g1, true);
  }
}

=== FILE: gtid_state.dfy ===
/**
 * The per-domain GTID state tables: the slave state (rpl_slave_state), the
 * binlog state (rpl_binlog_state) and the position a slave connection asks
 * its master to start from (slave_connection_state). The library hashes are
 * Dafny maps keyed by domain id (and, inside a binlog element, by server id).
 */
module GtidState {
  import opened Gtid
  import opened Wrappers

  function Max(a: Uint64, b: Uint64): Uint64 {
    if a >= b then a else b
  }

  /*
   * ---------------------------------------------------------------------
   * rpl_slave_state
   * ---------------------------------------------------------------------
   */

  /**
   * rpl_slave_state::list_element: one applied GTID with its sub_id and the
   * handlerton of the table that recorded it (None for NULL).
   */
  datatype ListElement = ListElement(
    subId: Uint64, domainId: Uint32, serverId: Uint32, seqNo: Uint64, hton: Option<nat>)

  /** The largest seq_no of the sequence, 0 for the empty sequence. */
  function MaxSeqNo(s: seq<Uint64>): (m: Uint64)
    ensures forall i | 0 <= i < |s| :: s[i] <= m
    ensures |s| > 0 ==> exists i | 0 <= i < |s| :: s[i] == m
    ensures |s| == 0 ==> m == 0
    decreases |s|
  {
    if |s| == 0 then 0 else Max(MaxSeqNo(s[..|s| - 1]), s[|s| - 1])
  }

  /** Recording one more seq_no moves the maximum to the larger of the two. */
  lemma {:induction false} MaxSeqNoAppend(s: seq<Uint64>, x: Uint64)
    ensures MaxSeqNo(s + [x]) == Max(MaxSeqNo(s), x)
  {
    assert (s + [x])[..|s|] == s;
  }

  /**
   * rpl_slave_state::element: the list of GTIDs applied in one domain, most
   * recent first, and the highest seq_no seen in the domain. seenSeqNos is
   * the history of seq_nos recorded for the domain, which grab_list does not
   * erase.
   */
  class SlaveStateElement {
    var list: seq<ListElement>
    const domainId: Uint32
    var highestSeqNo: Uint64
    ghost var seenSeqNos: seq<Uint64>

    /** highest_seq_no is the maximum seq_no ever recorded for the domain. */
    ghost predicate Valid()
      reads this
    {
      highestSeqNo == MaxSeqNo(seenSeqNos)
    }

    constructor(domainId: Uint32)
      ensures this.domainId == domainId && list == [] && highestSeqNo == 0
      ensures seenSeqNos == [] && Valid()
    {
      this.domainId := domainId;
      list := [];
      highestSeqNo := 0;
      seenSeqNos := [];
    }

    /** grab_list: hands the whole list to the caller and leaves the element's list empty. */
    method GrabList() returns (l: seq<ListElement>)
      modifies this
      ensures l == old(list) && list == []
      ensures highestSeqNo == old(highestSeqNo) && seenSeqNos == old(seenSeqNos)
    {
      l := list;
      list := [];
    }

    /** add: links one node in front of the list; the rest of the list is unchanged. */
    method Add(e: ListElement)
      modifies this
      ensures list == [e] + old(list)
      ensures list[0] == e && list[1..] == old(list)
      ensures highestSeqNo == old(highestSeqNo) && seenSeqNos == old(seenSeqNos)
    {
      list := [e] + list;
    }

    /** Advancing highest_seq_no when a GTID of the domain is applied. */
    method NoteSeqNo(seqNo: Uint64)
      requires Valid()
      modifies this
      ensures Valid() && seenSeqNos == old(seenSeqNos) + [seqNo]
      ensures highestSeqNo == Max(old(highestSeqNo), seqNo)
      ensures highestSeqNo >= old(highestSeqNo) && highestSeqNo >= seqNo
      ensures list == old(list)
    {
      MaxSeqNoAppend(seenSeqNos, seqNo);
      if seqNo > highestSeqNo {
        highestSeqNo := seqNo;
      }
      seenSeqNos := seenSeqNos + [seqNo];
    }

    /** The list node of an applied GTID linked in front and its seq_no noted, as update() does for its domain. */
    method Record(e: ListElement)
      requires Valid()
      modifies this
      ensures Valid() && list == [e] + old(list) && seenSeqNos == old(seenSeqNos) + [e.seqNo]
      ensures highestSeqNo == Max(old(highestSeqNo), e.seqNo)
    {
      Add(e);
      NoteSeqNo(e.seqNo);
    }
  }

  /** rpl_slave_state: the mapping from domain_id to its element. */
  class SlaveState {
    var hash: map<Uint32, SlaveStateElement>
    var lastSubId: Uint64
    ghost var Repr: set<object>

    /**
     * Every domain has its own element, keyed by the element's domain id
     * (so no two domains share an element).
     */
    ghost predicate Valid()
      reads this, Repr
    {
      && (forall d | d in hash :: hash[d] in Repr && hash[d].domainId == d && hash[d].Valid())
      && this !in Repr
    }

    constructor()
      ensures hash == map[] && lastSubId == 0 && Valid() && fresh(Repr)
    {
      hash := map[];
      lastSubId := 0;
      Repr := {};
    }

    /** count(): the number of domains in the table. */
    function Count(): (n: nat)
      reads this
      ensures n == |hash.Keys|
    {
      |hash|
    }

    /** get_element: the domain's element, created empty when the domain is new. */
    method GetElement(domainId: Uint32) returns (e: SlaveStateElement)
      requires Valid()
      modifies this
      ensures Valid() && domainId in hash && e == hash[domainId]
      ensures domainId in old(hash) ==> hash == old(hash) && Repr == old(Repr)
      ensures domainId !in old(hash) ==>
                fresh(e) && e.list == [] && e.highestSeqNo == 0 && e.seenSeqNos == []
                && hash == old(hash)[domainId := e] && Repr == old(Repr) + {e}
      ensures lastSubId == old(lastSubId)
    {
      if domainId in hash {
        e := hash[domainId];
      } else {
        e := new SlaveStateElement(domainId);
        hash := hash[domainId := e];
        Repr := Repr + {e};
      }
    }

    /**
     * update(): record an applied GTID in its domain, creating the domain's
     * element if needed, putting the new list node in front of the domain's
     * list and advancing the domain's highest seq_no. last_sub_id is raised
     * to at least sub_id, so that next_sub_id allocates beyond every recorded
     * sub_id. Other domains are not touched.
     */
    method Update(domainId: Uint32, serverId: Uint32, subId: Uint64, seqNo: Uint64, hton: Option<nat>)
      requires Valid()
      modifies this, Repr
      ensures Valid() && domainId in hash
      ensures hash[domainId].list ==
                [ListElement(subId, domainId, serverId, seqNo, hton)]
                + (if domainId in old(hash) then old(hash[domainId].list) else [])
      ensures hash[domainId].highestSeqNo ==
                Max(if domainId in old(hash) then old(hash[domainId].highestSeqNo) else 0, seqNo)
      ensures lastSubId == Max(old(lastSubId), subId) && subId <= lastSubId
      ensures hash.Keys == old(hash.Keys) + {domainId}
      ensures forall d | d in old(hash) && d != domainId ::
                hash[d] == old(hash[d]) && hash[d].list == old(hash[d].list)
                && hash[d].highestSeqNo == old(hash[d].highestSeqNo)
    {
      var e := GetElement(domainId);
      RecordIn(e, ListElement(subId, domainId, serverId, seqNo, hton));
    }

    /**
     * Records a list node in its domain's element and raises last_sub_id to
     * at least the node's sub_id; no other domain is touched.
     */
    method RecordIn(e: SlaveStateElement, le: ListElement)
      requires Valid() && le.domainId in hash && e == hash[le.domainId]
      modifies this, e
      ensures Valid() && hash == old(hash) && Repr == old(Repr)
      ensures lastSubId == Max(old(lastSubId), le.subId)
      ensures e.list == [le] + old(e.list) && e.highestSeqNo == Max(old(e.highestSeqNo), le.seqNo)
      ensures forall d | d in hash && d != le.domainId ::
                hash[d].list == old(hash[d].list) && hash[d].highestSeqNo == old(hash[d].highestSeqNo)
    {
      e.Record(le);
      if lastSubId < le.subId {
        lastSubId := le.subId;
      }
    }
  }

  /*
   * ---------------------------------------------------------------------
   * rpl_binlog_state
   * ---------------------------------------------------------------------
   */

  /**
   * rpl_binlog_state::element: the last GTID of every server in one domain,
   * keyed by server id; the server id of the most recently updated entry
   * (last_gtid points into the hash); the counter next seq_nos are drawn from.
   */
  datatype BinlogElement = BinlogElement(
    domainId: Uint32,
    hash: map<Uint32, RplGtid>,
    lastServerId: Option<Uint32>,
    seqNoCounter: Uint64)

  /**
   * Every entry belongs to the element's domain and is keyed by its own
   * server id, the counter is at least every entry's seq_no, and last_gtid,
   * when set, points at an entry.
   */
  predicate BinlogElementValid(e: BinlogElement) {
    && (forall s | s in e.hash ::
          e.hash[s].serverId == s && e.hash[s].domainId == e.domainId && e.hash[s].seqNo <= e.seqNoCounter)
    && (e.lastServerId.Some? ==> e.lastServerId.value in e.hash)
  }

  /** The GTID last_gtid points to, if any. */
  function LastGtid(e: BinlogElement): Option<RplGtid> {
    if e.lastServerId.Some? && e.lastServerId.value in e.hash then Some(e.hash[e.lastServerId.value])
    else None
  }

  /**
   * update_element: when the GTID has the server id of last_gtid, only the
   * seq_no of that entry is overwritten (no hash lookup); otherwise the
   * server's entry is looked up and updated, or inserted. Either way the
   * server's entry becomes the GTID and last_gtid points at it.
   */
  function UpdateElement(e: BinlogElement, g: RplGtid): (r: BinlogElement)
    requires BinlogElementValid(e) && g.domainId == e.domainId
    ensures r.hash == e.hash[g.serverId := g]
    ensures r.lastServerId == Some(g.serverId) && LastGtid(r) == Some(g)
    ensures r.domainId == e.domainId && r.seqNoCounter == e.seqNoCounter
  {
    if e.lastServerId == Some(g.serverId) then
      e.(hash := e.hash[g.serverId := e.hash[g.serverId].(seqNo := g.seqNo)])
    else if g.serverId in e.hash then
      e.(hash := e.hash[g.serverId := e.hash[g.serverId].(seqNo := g.seqNo)],
         lastServerId := Some(g.serverId))
    else
      e.(hash := e.hash[g.serverId := g], lastServerId := Some(g.serverId))
  }

  /** alloc_element_nolock: a new domain whose only entry, and last GTID, is g. */
  function NewBinlogElement(g: RplGtid): (e: BinlogElement)
    ensures BinlogElementValid(e) && LastGtid(e) == Some(g)
    ensures e.hash.Keys == {g.serverId} && e.seqNoCounter == g.seqNo
  {
    BinlogElement(g.domainId, map[g.serverId := g], Some(g.serverId), g.seqNo)
  }

  /** Recording g after raising the counter to at least g's seq_no keeps the element valid. */
  lemma UpdateElementValid(e: BinlogElement, g: RplGtid)
    requires BinlogElementValid(e) && g.domainId == e.domainId && g.seqNo <= e.seqNoCounter
    ensures BinlogElementValid(UpdateElement(e, g))
  {
  }

  /** The table is keyed by domain id and every element is valid. */
  predicate BinlogTableValid(hash: map<Uint32, BinlogElement>) {
    forall d | d in hash :: hash[d].domainId == d && BinlogElementValid(hash[d])
  }

  /** The seq_no update_with_next_gtid draws: ++seq_no_counter, wrapping at 2^64. */
  function NextSeqNo(counter: Uint64): (n: Uint64)
    ensures counter < UINT64_LIMIT - 1 ==> n == counter + 1
    ensures counter == UINT64_LIMIT - 1 ==> n == 0
  {
    (counter + 1) % UINT64_LIMIT
  }

  /** rpl_binlog_state: the mapping from domain_id to its element. */
  class BinlogState {
    var hash: map<Uint32, BinlogElement>

    ghost predicate Valid()
      reads this
    {
      BinlogTableValid(hash)
    }

    constructor()
      ensures hash == map[] && Valid()
    {
      hash := map[];
    }

    /** reset_nolock: every domain is dropped. */
    method Reset()
      modifies this
      ensures hash == map[] && Valid()
    {
      hash := map[];
    }

    /** find: the last GTID of the (domain, server) pair. */
    function Find(domainId: Uint32, serverId: Uint32): (r: Option<RplGtid>)
      reads this
      ensures r.Some? <==> domainId in hash && serverId in hash[domainId].hash
      ensures r.Some? ==> r.value == hash[domainId].hash[serverId]
    {
      if domainId in hash && serverId in hash[domainId].hash then Some(hash[domainId].hash[serverId])
      else None
    }

    /** find_most_recent: the last GTID logged in the domain. */
    function FindMostRecent(domainId: Uint32): (r: Option<RplGtid>)
      reads this
      ensures domainId !in hash ==> r.None?
      ensures domainId in hash ==> r == LastGtid(hash[domainId])
    {
      if domainId in hash then LastGtid(hash[domainId]) else None
    }

    /**
     * check_strict_sequence: true (an error) when the domain has already
     * reached seq_no, i.e. seq_no is not beyond the domain's counter.
     */
    function CheckStrictSequence(domainId: Uint32, serverId: Uint32, seqNo: Uint64): (err: bool)
      reads this
      ensures err <==> domainId in hash && seqNo <= hash[domainId].seqNoCounter
    {
      domainId in hash && seqNo <= hash[domainId].seqNoCounter
    }

    /**
     * update(gtid, strict): in strict mode a GTID whose seq_no is not beyond
     * its domain's counter is refused (rc 1) and nothing changes; otherwise
     * the counter rises to at least the seq_no and the GTID becomes the last
     * one of its (domain, server) pair and of its domain.
     */
    method Update(g: RplGtid, strict: bool) returns (rc: int)
      requires Valid()
      modifies this
      ensures Valid()
      ensures rc != 0 <==> strict && old(CheckStrictSequence(g.domainId, g.serverId, g.seqNo))
      ensures rc != 0 ==> hash == old(hash)
      ensures rc == 0 ==>
                && Find(g.domainId, g.serverId) == Some(g)
                && FindMostRecent(g.domainId) == Some(g)
                && hash[g.domainId].seqNoCounter ==
                     (if g.domainId in old(hash) then Max(old(hash[g.domainId].seqNoCounter), g.seqNo) else g.seqNo)
                && hash[g.domainId].hash ==
                     (if g.domainId in old(hash) then old(hash[g.domainId].hash) else map[])[g.serverId := g]
                && (forall d | d != g.domainId :: (d in hash <==> d in old(hash)) && (d in hash ==> hash[d] == old(hash[d])))
    {
      if g.domainId in hash {
        var e := hash[g.domainId];
        if strict && g.seqNo <= e.seqNoCounter {
          return 1;
        }
        var bumped := e.(seqNoCounter := Max(e.seqNoCounter, g.seqNo));
        UpdateElementValid(bumped, g);
        hash := hash[g.domainId := UpdateElement(bumped, g)];
      } else {
        hash := hash[g.domainId := NewBinlogElement(g)];
      }
      return 0;
    }

    /**
     * update_with_next_gtid: draws the next seq_no of the domain from its
     * counter (1 for a new domain) and records the resulting GTID.
     */
    method UpdateWithNextGtid(domainId: Uint32, serverId: Uint32) returns (rc: int, g: RplGtid)
      requires Valid()
      requires domainId in hash ==> hash[domainId].seqNoCounter < UINT64_LIMIT - 1
      modifies this
      ensures Valid() && rc == 0
      ensures g.domainId == domainId && g.serverId == serverId
      ensures g.seqNo == (if domainId in old(hash) then old(hash[domainId].seqNoCounter) + 1 else 1)
      ensures domainId in hash && hash[domainId].seqNoCounter == g.seqNo
      ensures Find(domainId, serverId) == Some(g) && FindMostRecent(domainId) == Some(g)
      ensures forall d | d != domainId :: (d in hash <==> d in old(hash)) && (d in hash ==> hash[d] == old(hash[d]))
    {
      if domainId in hash {
        var e := hash[domainId];
        var seqNo := NextSeqNo(e.seqNoCounter);
        g := RplGtid(domainId, serverId, seqNo);
        var bumped := e.(seqNoCounter := seqNo);
        UpdateElementValid(bumped, g);
        hash := hash[domainId := UpdateElement(bumped, g)];
      } else {
        g := RplGtid(domainId, serverId, 1);
        hash := hash[domainId := NewBinlogElement(g)];
      }
      rc := 0;
    }

    /**
     * bump_seq_no_if_needed: raises the domain's counter to at least seq_no,
     * creating the domain with no entries when it is new.
     */
    method BumpSeqNoIfNeeded(domainId: Uint32, seqNo: Uint64) returns (rc: int)
      requires Valid()
      modifies this
      ensures Valid() && rc == 0 && domainId in hash
      ensures hash[domainId].seqNoCounter ==
                (if domainId in old(hash) then Max(old(hash[domainId].seqNoCounter), seqNo) else seqNo)
      ensures domainId in old(hash) ==> hash[domainId].hash == old(hash[domainId].hash)
                                         && hash[domainId].lastServerId == old(hash[domainId].lastServerId)
      ensures domainId !in old(hash) ==> hash[domainId].hash == map[] && hash[domainId].lastServerId.None?
      ensures forall d | d != domainId :: (d in hash <==> d in old(hash)) && (d in hash ==> hash[d] == old(hash[d]))
    {
      if domainId in hash {
        var e := hash[domainId];
        if e.seqNoCounter < seqNo {
          hash := hash[domainId := e.(seqNoCounter := seqNo)];
        }
      } else {
        hash := hash[domainId := BinlogElement(domainId, map[], None, seqNo)];
      }
      return 0;
    }
  }

  /*
   * ---------------------------------------------------------------------
   * slave_connection_state
   * ---------------------------------------------------------------------
   */

  /** Bits of entry::flags. */
  const START_OWN_SLAVE_POS: nat := 0x1
  const START_ON_EMPTY_DOMAIN: nat := 0x2

  /** The GTID requested for one domain and its start flags. */
  datatype Entry = Entry(gtid: RplGtid, flags: Uint32)

  /** slave_connection_state: the requested GTID per domain. */
  class SlaveConnectionState {
    var hash: map<Uint32, Entry>

    /** Every entry is keyed by the domain of its GTID. */
    ghost predicate Valid()
      reads this
    {
      forall d | d in hash :: hash[d].gtid.domainId == d
    }

    constructor()
      ensures hash == map[] && Valid()
    {
      hash := map[];
    }

    /** reset(): every domain is dropped. */
    method Reset()
      modifies this
      ensures hash == map[] && Valid()
    {
      hash := map[];
    }

    /** count(): the number of domains with a requested GTID. */
    function Count(): (n: nat)
      reads this
      ensures n == |hash.Keys|
    {
      |hash|
    }

    /** find: the GTID requested for the domain. */
    function Find(domainId: Uint32): (r: Option<RplGtid>)
      reads this
      ensures r.Some? <==> domainId in hash
      ensures r.Some? ==> r.value == hash[domainId].gtid
    {
      if domainId in hash then Some(hash[domainId].gtid) else None
    }

    /** find_entry: the domain's entry with its flags. */
    function FindEntry(domainId: Uint32): (r: Option<Entry>)
      reads this
      ensures r.Some? <==> domainId in hash
      ensures r.Some? ==> r.value == hash[domainId]
    {
      if domainId in hash then Some(hash[domainId]) else None
    }

    /**
     * update: the GTID becomes the one requested for its domain; an existing
     * entry keeps its flags, a new entry starts with no flags.
     */
    method Update(g: RplGtid) returns (rc: int)
      requires Valid()
      modifies this
      ensures Valid() && rc == 0
      ensures Find(g.domainId) == Some(g)
      ensures hash[g.domainId].flags == (if g.domainId in old(hash) then old(hash[g.domainId].flags) else 0)
      ensures forall d | d != g.domainId :: (d in hash <==> d in old(hash)) && (d in hash ==> hash[d] == old(hash[d]))
    {
      if g.domainId in hash {
        hash := hash[g.domainId := hash[g.domainId].(gtid := g)];
      } else {
        hash := hash[g.domainId := Entry(g, 0)];
      }
      return 0;
    }

    /** remove: the caller guarantees the domain is present with exactly this GTID. */
    method Remove(g: RplGtid)
      requires g.domainId in hash && hash[g.domainId].gtid == g
      modifies this
      ensures hash == old(hash) - {g.domainId}
      ensures old(Valid()) ==> Valid()
    {
      hash := hash - {g.domainId};
    }

    /** remove_if_present: drops the GTID's domain if it has an entry. */
    method RemoveIfPresent(g: RplGtid)
      modifies this
      ensures hash == old(hash) - {g.domainId}
      ensures g.domainId !in hash && Find(g.domainId).None?
      ensures old(Valid()) ==> Valid()
    {
      if g.domainId in hash {
        hash := hash - {g.domainId};
      }
    }
  }
}

=== FILE: redo_log.dfy ===
/**
 * The InnoDB redo log writer (log_t, the global log_sys): the log buffer and
 * the buffer being written, the circular log file ib_logfile0 as a byte
 * array, and the LSN bookkeeping that write_buf, complete_write_buf, flush
 * and persist advance. Locks, asynchronous I/O and memory-mapped (PMEM) log
 * files are not modelled; a write to the file is a copy into the array.
 */
module RedoLog {

  const UINT64_LIMIT: nat := 0x1_0000_0000_0000_0000

  /** lsn_t and the other 64-bit unsigned quantities. */
  type Lsn = x: nat | x < UINT64_LIMIT

  type Byte = x: int | 0 <= x < 256

  /** log_t::START_OFFSET: the first byte of the circular part of the log file. */
  const START_OFFSET: nat := 12288

  /** log_t::FIRST_LSN, which equals START_OFFSET. */
  const FIRST_LSN: Lsn := 12288

  /** The buffer-flush margins of log_t::create(). */
  const LOG_BUF_FLUSH_RATIO: nat := 2

  function LogBufFlushMargin(pageSizeShift: nat): nat
    requires IsPageSizeShift(pageSizeShift)
  {
    4 * 4096 + 4 * PageSize(pageSizeShift)
  }

  /** srv_page_size_shift ranges over 12 (4 KiB pages) to 16 (64 KiB pages). */
  predicate IsPageSizeShift(shift: nat) {
    12 <= shift <= 16
  }

  /** 1 << srv_page_size_shift. */
  function PageSize(shift: nat): (size: nat)
    requires IsPageSizeShift(shift)
    ensures 4096 <= size <= 65536
  {
    if shift == 12 then 4096
    else if shift == 13 then 8192
    else if shift == 14 then 16384
    else if shift == 15 then 32768
    else 65536
  }

  /** Unsigned 64-bit subtraction and addition, wrapping around. */
  function Sub64(a: Lsn, b: Lsn): (r: Lsn)
    ensures a >= b ==> r == a - b
    ensures a < b ==> r == a - b + UINT64_LIMIT
  {
    (a - b) % UINT64_LIMIT
  }

  function Add64(a: Lsn, b: Lsn): (r: Lsn)
    ensures a + b < UINT64_LIMIT ==> r == a + b
    ensures a + b >= UINT64_LIMIT ==> r == a + b - UINT64_LIMIT
  {
    (a + b) % UINT64_LIMIT
  }

  /** The block sizes of a log file: the mask x & ~(block_size - 1) is x rounded down to a block. */
  predicate IsBlockSize(bs: nat) {
    bs == 512 || bs == 1024 || bs == 2048 || bs == 4096
  }

  function RoundDown(x: nat, bs: nat): (r: nat)
    requires IsBlockSize(bs)
    ensures r <= x && r % bs == 0 && x - r < bs
    ensures x % bs == 0 ==> r == x
  {
    RoundDownAligned(x, bs);
    x - x % bs
  }

  lemma RoundDownAligned(x: nat, bs: nat)
    requires IsBlockSize(bs)
    ensures (x - x % bs) % bs == 0
  {
    if bs == 512 {
    } else if bs == 1024 {
    } else if bs == 2048 {
    } else {
    }
  }

  /** (n + 15) & ~15: n rounded up to a multiple of 16. */
  function RoundUp16(n: nat): (r: nat)
    ensures r >= n && r % 16 == 0 && r < n + 16
  {
    (n + 15) - (n + 15) % 16
  }

  /*
   * ---------------------------------------------------------------------
   * get_log_file_path
   * ---------------------------------------------------------------------
   */

  /**
   * The path of a log file: the log group home directory, a '/' unless the
   * directory already ends in one, then the file name. The directory must
   * not be empty, since its last character is read.
   */
  function GetLogFilePath(home: string, filename: string): (path: string)
    requires |home| > 0
    ensures |path| == |home| + |filename| + (if home[|home| - 1] == '/' then 0 else 1)
    ensures path[..|home|] == home
    ensures path[|path| - |filename|..] == filename
    ensures path[|path| - |filename| - 1] == '/'
  {
    if home[|home| - 1] == '/' then home + filename else home + "/" + filename
  }

  /** A directory given with or without its trailing '/' yields the same path. */
  lemma TrailingSlashIsNeutral(home: string, filename: string)
    requires |home| > 0 && home[|home| - 1] != '/'
    ensures GetLogFilePath(home + "/", filename) == GetLogFilePath(home, filename)
  {
  }

  /*
   * ---------------------------------------------------------------------
   * set_capacity
   * ---------------------------------------------------------------------
   */

  datatype Capacity = Capacity(logCapacity: Lsn, maxModifiedAgeAsync: Lsn, maxCheckpointAge: Lsn)

  /**
   * The capacity and the checkpoint margins for a log file of the given
   * size, in unsigned 64-bit arithmetic: nine tenths of the circular part
   * is the capacity; the margin is that less 48 pages, less a tenth; the
   * asynchronous flush age is seven eighths of the margin.
   */
  function CapacityFor(srvLogFileSize: Lsn, pageSizeShift: nat): (c: Capacity)
    requires IsPageSizeShift(pageSizeShift)
    ensures c.maxModifiedAgeAsync <= c.maxCheckpointAge
  {
    var smallest0 := Sub64(srvLogFileSize, START_OFFSET);
    var smallest := Sub64(smallest0, smallest0 / 10);
    var margin0 := Sub64(smallest, 48 * PageSize(pageSizeShift));
    var margin := Sub64(margin0, margin0 / 10);
    Capacity(smallest, Sub64(margin, margin / 8), margin)
  }

  /**
   * When the file is large enough that nothing wraps around, the capacity is
   * nine tenths of the circular part, and the checkpoint age is below the
   * capacity and above the asynchronous flush age.
   */
  lemma {:induction false} CapacityWithoutWrap(srvLogFileSize: Lsn, pageSizeShift: nat)
    requires IsPageSizeShift(pageSizeShift)
    requires srvLogFileSize >= START_OFFSET
    requires var s := srvLogFileSize - START_OFFSET; s - s / 10 >= 48 * PageSize(pageSizeShift)
    ensures var c := CapacityFor(srvLogFileSize, pageSizeShift);
            var s := srvLogFileSize - START_OFFSET;
            && c.logCapacity == s - s / 10
            && c.logCapacity <= s
            && c.maxCheckpointAge <= c.logCapacity - 48 * PageSize(pageSizeShift)
            && c.maxModifiedAgeAsync <= c.maxCheckpointAge
  {
  }

  /*
   * ---------------------------------------------------------------------
   * log_write_buf: a write that wraps around the end of the file
   * ---------------------------------------------------------------------
   */

  /**
   * What log_write_buf asserts of its arguments: a non-empty, block-aligned
   * write starting in the circular part of the file, and, when it wraps, a
   * second part that ends before the first part starts.
   */
  predicate WriteOk(offset: nat, len: nat, bs: nat, fileSize: nat) {
    && IsBlockSize(bs) && offset % bs == 0 && len % bs == 0 && len > 0
    && START_OFFSET <= offset < fileSize
    && (offset + len > fileSize ==> START_OFFSET + (len - (fileSize - offset)) < offset)
  }

  /** The file position that byte i of a write starting at offset lands on. */
  function CircularPos(offset: nat, i: nat, fileSize: nat): nat {
    if offset + i < fileSize then offset + i else START_OFFSET + (offset + i - fileSize)
  }

  /** Whether file position p is covered by the write. */
  predicate InWrite(offset: nat, len: nat, fileSize: nat, p: nat) {
    || (offset <= p < offset + len && p < fileSize)
    || (offset + len > fileSize && START_OFFSET <= p < START_OFFSET + (offset + len - fileSize))
  }

  /** Every byte of a write lands inside the circular part of the file, on a covered position. */
  lemma CircularPosInRange(offset: nat, len: nat, bs: nat, fileSize: nat, i: nat)
    requires WriteOk(offset, len, bs, fileSize) && i < len
    ensures START_OFFSET <= CircularPos(offset, i, fileSize) < fileSize
    ensures InWrite(offset, len, fileSize, CircularPos(offset, i, fileSize))
  {
  }

  /** No two bytes of a write land on the same position: the wrapped part never overwrites the first. */
  lemma CircularPosInjective(offset: nat, len: nat, bs: nat, fileSize: nat, i: nat, j: nat)
    requires WriteOk(offset, len, bs, fileSize) && i < len && j < len && i != j
    ensures CircularPos(offset, i, fileSize) != CircularPos(offset, j, fileSize)
  {
  }

  /** Every covered position receives some byte of the write. */
  lemma InWriteCovered(offset: nat, len: nat, bs: nat, fileSize: nat, p: nat)
    requires WriteOk(offset, len, bs, fileSize) && InWrite(offset, len, fileSize, p)
    ensures exists i | 0 <= i < len :: CircularPos(offset, i, fileSize) == p
  {
    var i := if offset <= p < fileSize then p - offset else p - START_OFFSET + (fileSize - offset);
    assert CircularPos(offset, i, fileSize) == p;
  }

  /** memcpy(dst + dstStart, src + srcStart, n). */
  method CopyBytes(dst: array<Byte>, dstStart: nat, src: array<Byte>, srcStart: nat, n: nat)
    requires dst != src
    requires dstStart + n <= dst.Length && srcStart + n <= src.Length
    modifies dst
    ensures forall p | dstStart <= p < dstStart + n :: dst[p] == src[p - dstStart + srcStart]
    ensures forall p | 0 <= p < dst.Length && !(dstStart <= p < dstStart + n) :: dst[p] == old(dst[p])
  {
    var k := 0;
    while k < n
      invariant 0 <= k <= n
      invariant forall p | dstStart <= p < dstStart + k :: dst[p] == src[p - dstStart + srcStart]
      invariant forall p | 0 <= p < dst.Length && !(dstStart <= p < dstStart + k) :: dst[p] == old(dst[p])
    {
      dst[dstStart + k] := src[srcStart + k];
      k := k + 1;
    }
  }

  /** memset(a + start, 0, n). */
  method ZeroBytes(a: array<Byte>, start: nat, n: nat)
    requires start + n <= a.Length
    modifies a
    ensures forall p | start <= p < start + n :: a[p] == 0
    ensures forall p | 0 <= p < a.Length && !(start <= p < start + n) :: a[p] == old(a[p])
  {
    var k := start;
    while k < start + n
      invariant start <= k <= start + n
      invariant forall p | start <= p < k :: a[p] == 0
      invariant forall p | 0 <= p < a.Length && !(start <= p < k) :: a[p] == old(a[p])
    {
      a[k] := 0;
      k := k + 1;
    }
  }

  /*
   * ---------------------------------------------------------------------
   * write_buf: what reaches the file
   * ---------------------------------------------------------------------
   */

  /**
   * The number of bytes write_buf writes for buf_free bytes of log: buf_free
   * itself when it is a whole number of blocks, otherwise the whole blocks
   * plus the partial last block.
   */
  function WrittenLength(bufFree: nat, bs: nat): nat
    requires IsBlockSize(bs)
  {
    if bufFree % bs != 0 then RoundDown(bufFree, bs) + bs else bufFree
  }

  /**
   * The bytes write_buf hands to log_write_buf: the log buffer, with the byte
   * just past the log zeroed when the last block is partial, up to the
   * written length.
   */
  function WriteImage(b: seq<Byte>, bufFree: nat, bs: nat): seq<Byte>
    requires IsBlockSize(bs) && bufFree <= |b| && WrittenLength(bufFree, bs) <= |b|
  {
    if bufFree % bs != 0 then b[bufFree := 0][..WrittenLength(bufFree, bs)] else b[..bufFree]
  }

  /**
   * Every byte of the log reaches the file unchanged, the written length is
   * a whole number of blocks, and at most one block of padding is added.
   */
  lemma WriteImageCoversLog(b: seq<Byte>, bufFree: nat, bs: nat)
    requires IsBlockSize(bs) && bufFree <= |b| && WrittenLength(bufFree, bs) <= |b|
    ensures var image := WriteImage(b, bufFree, bs);
            && |image| == WrittenLength(bufFree, bs)
            && |image| % bs == 0
            && bufFree <= |image| < bufFree + bs
            && image[..bufFree] == b[..bufFree]
  {
    if bufFree % bs != 0 {
      var r := RoundDown(bufFree, bs);
      NextBlockAligned(r, bs);
      var image := b[bufFree := 0][..r + bs];
      assert image[..bufFree] == b[..bufFree] by {
        forall k | 0 <= k < bufFree ensures image[k] == b[k] {
        }
      }
    }
  }

  /** The block after a block-aligned offset starts block-aligned too. */
  lemma NextBlockAligned(r: nat, bs: nat)
    requires IsBlockSize(bs) && r % bs == 0
    ensures (r + bs) % bs == 0
  {
    if bs == 512 {
    } else if bs == 1024 {
    } else if bs == 2048 {
    } else {
    }
  }

  /*
   * ---------------------------------------------------------------------
   * resize_write_buf and log_checkpoint_margin
   * ---------------------------------------------------------------------
   */

  datatype ResizeWrite = ResizeWrite(offset: nat, restarted: bool)

  /**
   * The offset in the resize target file for a write of length bytes: the
   * block-aligned distance of write_lsn from the resize start, modulo the
   * circular part of the target; when the write would run past the end of
   * the target it restarts at START_OFFSET.
   */
  function ResizeWriteOffset(writeLsn: Lsn, resizing: Lsn, bs: nat, resizeTarget: nat, length: nat): (r: ResizeWrite)
    requires IsBlockSize(bs) && resizing <= writeLsn && resizeTarget > START_OFFSET
    ensures START_OFFSET <= r.offset < resizeTarget
    ensures !r.restarted ==> r.offset + length <= resizeTarget
    ensures r.restarted ==> r.offset == START_OFFSET
    ensures length <= resizeTarget - START_OFFSET ==> r.offset + length <= resizeTarget
  {
    var offset := START_OFFSET + RoundDown(writeLsn - resizing, bs) % (resizeTarget - START_OFFSET);
    if offset + length > resizeTarget then ResizeWrite(START_OFFSET, true) else ResizeWrite(offset, false)
  }

  /** The outcome of one pass of log_checkpoint_margin. */
  datatype MarginAction =
    | FlagCleared              // the log is within the checkpoint age; stop checking
    | WaitFlushed(target: Lsn) // wait for pages up to target to be flushed, then check again

  /**
   * One pass of log_checkpoint_margin: with sync_lsn the last checkpoint plus
   * the maximum checkpoint age, the check flag is cleared when the current
   * LSN is at most sync_lsn; otherwise page flushing is awaited up to
   * sync_lsn, but never more than 1 MiB beyond the last checkpoint.
   */
  function CheckpointMarginDecision(lsn: Lsn, checkpoint: Lsn, maxCheckpointAge: Lsn): (r: MarginAction)
    ensures checkpoint + maxCheckpointAge < UINT64_LIMIT ==>
              (r == FlagCleared <==> lsn <= checkpoint + maxCheckpointAge)
    ensures r.WaitFlushed? && checkpoint + 0x10_0000 < UINT64_LIMIT && checkpoint + maxCheckpointAge < UINT64_LIMIT ==>
              && r.target <= checkpoint + maxCheckpointAge
              && r.target <= checkpoint + 0x10_0000
              && r.target < lsn
  {
    var syncLsn := Add64(checkpoint, maxCheckpointAge);
    if lsn <= syncLsn then FlagCleared
    else
      var step := Add64(checkpoint, 0x10_0000);
      WaitFlushed(if syncLsn <= step then syncLsn else step)
  }

  /*
   * ---------------------------------------------------------------------
   * log_t
   * ---------------------------------------------------------------------
   */

  /** Every field of log_t the model keeps that a method may assign. */
  datatype LogFields = LogFields(
    lsn: Lsn, flushedToDiskLsn: Lsn, firstLsn: Lsn, writeLsn: Lsn, lastCheckpointLsn: Lsn,
    buf: array<Byte>, flushBuf: array<Byte>, bufFree: nat, maxBufFree: Lsn,
    logCapacity: Lsn, maxModifiedAgeAsync: Lsn, maxCheckpointAge: Lsn,
    writeToLog: nat, checkFlushOrCheckpoint: bool, resizeLsn: Lsn, resizeTarget: nat)

  class LogSys {
    var lsn: Lsn
    var flushedToDiskLsn: Lsn
    var firstLsn: Lsn
    var writeLsn: Lsn
    var lastCheckpointLsn: Lsn
    /** The buffer log records are appended to, and the one being written. */
    var buf: array<Byte>
    var flushBuf: array<Byte>
    const bufSize: nat
    var bufFree: nat
    var maxBufFree: Lsn
    const blockSize: nat
    const fileSize: nat
    /** The contents of ib_logfile0. */
    const file: array<Byte>
    var logCapacity: Lsn
    var maxModifiedAgeAsync: Lsn
    var maxCheckpointAge: Lsn
    var writeToLog: nat
    var checkFlushOrCheckpoint: bool
    /** resize_lsn (0 when no resize is in progress) and the size of the resize target file. */
    var resizeLsn: Lsn
    var resizeTarget: nat

    /** The object's fields as one value, so that a method can say which of them it changes. */
    function Fields(): LogFields
      reads this
    {
      LogFields(lsn, flushedToDiskLsn, firstLsn, writeLsn, lastCheckpointLsn, buf, flushBuf, bufFree,
                maxBufFree, logCapacity, maxModifiedAgeAsync, maxCheckpointAge, writeToLog,
                checkFlushOrCheckpoint, resizeLsn, resizeTarget)
    }

    ghost predicate Valid()
      reads this
    {
      && buf.Length == bufSize && flushBuf.Length == bufSize && buf != flushBuf
      && file.Length == fileSize && file != buf && file != flushBuf
      && IsBlockSize(blockSize) && bufSize >= 4096
      && fileSize % blockSize == 0 && START_OFFSET + 4096 <= fileSize
      && bufFree <= bufSize
    }

    /**
     * log_t::create(): the buffers are allocated, every LSN is FIRST_LSN, the
     * margins are zero and the buffer-flush threshold is half the buffer
     * less the flush margin (unsigned).
     */
    constructor(bufSize: nat, blockSize: nat, fileSize: nat, pageSizeShift: nat)
      requires IsBlockSize(blockSize) && bufSize >= 4096 && bufSize < UINT64_LIMIT
      requires fileSize % blockSize == 0 && START_OFFSET + 4096 <= fileSize
      requires IsPageSizeShift(pageSizeShift)
      ensures Valid() && fresh(buf) && fresh(flushBuf) && fresh(file)
      ensures lsn == FIRST_LSN && flushedToDiskLsn == FIRST_LSN && writeLsn == FIRST_LSN
      ensures lastCheckpointLsn == FIRST_LSN && bufFree == 0 && checkFlushOrCheckpoint
      ensures logCapacity == 0 && maxModifiedAgeAsync == 0 && maxCheckpointAge == 0
      ensures maxBufFree == Sub64(bufSize / LOG_BUF_FLUSH_RATIO, LogBufFlushMargin(pageSizeShift) % UINT64_LIMIT)
    {
      this.bufSize, this.blockSize, this.fileSize := bufSize, blockSize, fileSize;
      buf := new Byte[bufSize](_ => 0);
      flushBuf := new Byte[bufSize](_ => 0);
      file := new Byte[fileSize](_ => 0);
      lsn, flushedToDiskLsn, writeLsn, firstLsn := FIRST_LSN, FIRST_LSN, FIRST_LSN, FIRST_LSN;
      maxBufFree := Sub64(bufSize / LOG_BUF_FLUSH_RATIO, LogBufFlushMargin(pageSizeShift) % UINT64_LIMIT);
      checkFlushOrCheckpoint := true;
      lastCheckpointLsn := FIRST_LSN;
      logCapacity, maxModifiedAgeAsync, maxCheckpointAge := 0, 0, 0;
      bufFree := 0;
      writeToLog := 0;
      resizeLsn, resizeTarget := 0, 0;
    }

    /** set_capacity: the capacity and margins of CapacityFor; nothing else changes. */
    method SetCapacity(srvLogFileSize: Lsn, pageSizeShift: nat)
      requires IsPageSizeShift(pageSizeShift)
      modifies this
      ensures Capacity(logCapacity, maxModifiedAgeAsync, maxCheckpointAge) == CapacityFor(srvLogFileSize, pageSizeShift)
      ensures maxModifiedAgeAsync <= maxCheckpointAge
      ensures lsn == old(lsn) && writeLsn == old(writeLsn) && flushedToDiskLsn == old(flushedToDiskLsn)
      ensures buf == old(buf) && flushBuf == old(flushBuf) && bufFree == old(bufFree)
      ensures Fields() == old(Fields()).(logCapacity := logCapacity, maxModifiedAgeAsync := maxModifiedAgeAsync,
                                         maxCheckpointAge := maxCheckpointAge)
      ensures old(Valid()) ==> Valid()
    {
      var smallestCapacity := Sub64(srvLogFileSize, START_OFFSET);
      smallestCapacity := Sub64(smallestCapacity, smallestCapacity / 10);
      var margin := Sub64(smallestCapacity, 48 * PageSize(pageSizeShift));
      margin := Sub64(margin, margin / 10);
      logCapacity := smallestCapacity;
      maxModifiedAgeAsync := Sub64(margin, margin / 8);
      maxCheckpointAge := margin;
    }

    /**
     * The buffer and file part of create(lsn): both buffers are cleared, the
     * 512-byte file header (computed by header_write) followed by zeros fills
     * the first 4096 bytes of the file, and the buffer is cleared again.
     */
    method InitBuffersAndHeader(header: seq<Byte>)
      requires Valid() && |header| == 512
      modifies buf, flushBuf, file
      ensures forall i | 0 <= i < bufSize :: buf[i] == 0 && flushBuf[i] == 0
      ensures file[..512] == header
      ensures forall p | 512 <= p < 4096 :: file[p] == 0
      ensures forall p | 4096 <= p < fileSize :: file[p] == old(file[p])
    {
      var b, fb := buf, flushBuf;
      ZeroBytes(fb, 0, bufSize);
      ZeroBytes(b, 0, bufSize);
      var k := 0;
      while k < 512
        invariant 0 <= k <= 512
        invariant forall i | 0 <= i < k :: b[i] == header[i]
        invariant forall i | k <= i < bufSize :: b[i] == 0
        invariant forall i | 0 <= i < bufSize :: fb[i] == 0
        invariant unchanged(file)
      {
        b[k] := header[k];
        k := k + 1;
      }
      CopyBytes(file, 0, b, 0, 4096);
      ZeroBytes(b, 0, 512);
    }

    /**
     * create(lsn) for a log file that is not memory-mapped: every LSN starts
     * at lsn except the checkpoint LSN, which is 0; buf_free is 0; the
     * buffers and the first 4096 bytes of the file are initialised by
     * InitBuffersAndHeader; no other field changes.
     */
    method Create(newLsn: Lsn, header: seq<Byte>)
      requires Valid() && |header| == 512
      modifies this, buf, flushBuf, file
      ensures Valid() && buf == old(buf) && flushBuf == old(flushBuf)
      ensures lsn == newLsn && flushedToDiskLsn == newLsn && firstLsn == newLsn && writeLsn == newLsn
      ensures lastCheckpointLsn == 0 && bufFree == 0
      ensures Fields() == old(Fields()).(lsn := newLsn, flushedToDiskLsn := newLsn, firstLsn := newLsn,
                                         writeLsn := newLsn, lastCheckpointLsn := 0, bufFree := 0)
      ensures forall i | 0 <= i < bufSize :: buf[i] == 0 && flushBuf[i] == 0
      ensures file[..512] == header
      ensures forall p | 512 <= p < 4096 :: file[p] == 0
      ensures forall p | 4096 <= p < fileSize :: file[p] == old(file[p])
    {
      InitBuffersAndHeader(header);
      lsn, flushedToDiskLsn := newLsn, newLsn;
      firstLsn, writeLsn := newLsn, newLsn;
      lastCheckpointLsn := 0;
      bufFree := 0;
    }

    /**
     * log_write_buf: a write that fits before the end of the file is one
     * write at offset; otherwise the part up to the end of the file is
     * written at offset and the rest at START_OFFSET (the goto jumps back to
     * the single-write path exactly once). Byte i of the data lands on
     * CircularPos(offset, i); nothing else in the file changes.
     */
    method LogWriteBuf(src: array<Byte>, len: nat, offset: nat)
      requires Valid() && src != file && len <= src.Length
      requires WriteOk(offset, len, blockSize, fileSize)
      modifies file
      ensures forall i | 0 <= i < len :: file[CircularPos(offset, i, fileSize)] == src[i]
      ensures forall p | 0 <= p < fileSize && !InWrite(offset, len, fileSize, p) :: file[p] == old(file[p])
    {
      if offset + len <= fileSize {
        CopyBytes(file, offset, src, 0, len);
        return;
      }
      var writeLen := fileSize - offset;
      CopyBytes(file, offset, src, 0, writeLen);
      ghost var mid := file[..];
      CopyBytes(file, START_OFFSET, src, writeLen, len - writeLen);
      forall i | 0 <= i < len
        ensures file[CircularPos(offset, i, fileSize)] == src[i]
      {
        if i >= writeLen {
          assert CircularPos(offset, i, fileSize) == START_OFFSET + (i - writeLen);
        } else {
          assert CircularPos(offset, i, fileSize) == offset + i;
          assert mid[offset + i] == src[i];
        }
      }
    }

    /**
     * complete_write_buf: write_lsn advances to lsn, which must not be
     * behind it.
     */
    method CompleteWriteBuf(newLsn: Lsn)
      requires newLsn >= writeLsn
      modifies this
      ensures writeLsn == newLsn && writeLsn >= old(writeLsn)
      ensures lsn == old(lsn) && flushedToDiskLsn == old(flushedToDiskLsn) && bufFree == old(bufFree)
      ensures buf == old(buf) && flushBuf == old(flushBuf) && writeToLog == old(writeToLog)
      ensures Fields() == old(Fields()).(writeLsn := newLsn)
      ensures old(Valid()) ==> Valid()
    {
      writeLsn := newLsn;
    }

    /**
     * write_buf, synchronous path. When everything up to the current LSN is
     * already written, only complete_write_buf runs. Otherwise the log
     * buffer, rounded to whole blocks, is written at the block-aligned file
     * offset of write_lsn; a partial last block is carried over to the start
     * of the other buffer, the buffers are swapped, buf_free keeps only the
     * partial block, and write_lsn advances to the current LSN.
     * lsnOffset is calc_lsn_offset(write_lsn).
     */
    method WriteBuf(lsnOffset: nat)
      requires Valid()
      requires writeLsn >= lsn ==> writeLsn == lsn
      requires writeLsn < lsn ==>
                 && writeLsn >= flushedToDiskLsn
                 && WrittenLength(bufFree, blockSize) <= bufSize
                 && WriteOk(RoundDown(lsnOffset, blockSize), WrittenLength(bufFree, blockSize), blockSize, fileSize)
      modifies this, buf, flushBuf, file
      ensures Valid() && writeLsn == old(lsn) && lsn == old(lsn)
      ensures old(writeLsn) >= old(lsn) ==>
                && bufFree == old(bufFree) && buf == old(buf) && flushBuf == old(flushBuf)
                && file[..] == old(file[..]) && buf[..] == old(buf[..]) && writeToLog == old(writeToLog)
                && Fields() == old(Fields())
      ensures old(writeLsn) < old(lsn) ==>
                && bufFree == old(bufFree) % blockSize
                && buf == old(flushBuf) && flushBuf == old(buf)
                && writeToLog == old(writeToLog) + 1
                && Fields() == old(Fields()).(writeLsn := old(lsn), buf := old(flushBuf), flushBuf := old(buf),
                                              bufFree := old(bufFree) % blockSize, writeToLog := old(writeToLog) + 1)
                && (forall i | 0 <= i < bufFree :: buf[i] == old(buf[RoundDown(bufFree, blockSize) + i]))
                && (forall i | 0 <= i < WrittenLength(old(bufFree), blockSize) ::
                      file[CircularPos(RoundDown(lsnOffset, blockSize), i, fileSize)]
                        == WriteImage(old(buf[..]), old(bufFree), blockSize)[i])
                && (forall p | 0 <= p < fileSize &&
                               !InWrite(RoundDown(lsnOffset, blockSize), WrittenLength(old(bufFree), blockSize), fileSize, p) ::
                      file[p] == old(file[p]))
    {
      if writeLsn >= lsn {
        CompleteWriteBuf(lsn);
        return;
      }
      WriteOut(lsnOffset);
    }

    /**
     * The path of write_buf that has log to write: the buffer image goes to
     * the file at the block-aligned offset, the partial last block is
     * carried over, the buffers are swapped, write_to_log is incremented and
     * write_lsn advances to the current LSN.
     */
    method WriteOut(lsnOffset: nat)
      requires Valid() && writeLsn < lsn
      requires WrittenLength(bufFree, blockSize) <= bufSize
      requires WriteOk(RoundDown(lsnOffset, blockSize), WrittenLength(bufFree, blockSize), blockSize, fileSize)
      modifies this, buf, flushBuf, file
      ensures Valid() && writeLsn == old(lsn) && lsn == old(lsn)
      ensures bufFree == old(bufFree) % blockSize
      ensures buf == old(flushBuf) && flushBuf == old(buf)
      ensures writeToLog == old(writeToLog) + 1
      ensures Fields() == old(Fields()).(writeLsn := old(lsn), buf := old(flushBuf), flushBuf := old(buf),
                                         bufFree := old(bufFree) % blockSize, writeToLog := old(writeToLog) + 1)
      ensures forall i | 0 <= i < bufFree :: buf[i] == old(buf[RoundDown(bufFree, blockSize) + i])
      ensures forall i | 0 <= i < WrittenLength(old(bufFree), blockSize) ::
                file[CircularPos(RoundDown(lsnOffset, blockSize), i, fileSize)]
                  == WriteImage(old(buf[..]), old(bufFree), blockSize)[i]
      ensures forall p | 0 <= p < fileSize &&
                         !InWrite(RoundDown(lsnOffset, blockSize), WrittenLength(old(bufFree), blockSize), fileSize, p) ::
                file[p] == old(file[p])
    {
      var offset := RoundDown(lsnOffset, blockSize);
      var length := PrepareWrite();
      bufFree := bufFree % blockSize;
      buf, flushBuf := flushBuf, buf;
      writeToLog := writeToLog + 1;
      LogWriteBuf(flushBuf, length, offset);
      CompleteWriteBuf(lsn);
    }

    /**
     * The buffer part of write_buf: when the last block is partial, the byte
     * just past the log is zeroed and the partial block is carried over to
     * the start of the other buffer; length is the number of bytes to write,
     * and they are WriteImage of the log buffer.
     */
    method PrepareWrite() returns (length: nat)
      requires Valid() && WrittenLength(bufFree, blockSize) <= bufSize
      modifies buf, flushBuf
      ensures length == WrittenLength(bufFree, blockSize) && length <= bufSize
      ensures buf[..length] == WriteImage(old(buf[..]), bufFree, blockSize)
      ensures forall i | 0 <= i < bufFree % blockSize :: flushBuf[i] == old(buf[RoundDown(bufFree, blockSize) + i])
    {
      ghost var image := WriteImage(buf[..], bufFree, blockSize);
      length := bufFree;
      var newBufFree := length % blockSize;
      if newBufFree != 0 {
        buf[length] := 0;
        length := RoundDown(length, blockSize);
        CopyBytes(flushBuf, 0, buf, length, RoundUp16(newBufFree));
        length := length + blockSize;
      }
      assert buf[..length] == image;
    }

    /**
     * flush: after a successful flush (always, with O_DSYNC) the durable LSN
     * becomes lsn, which must not be behind it; a failed flush changes
     * nothing.
     */
    method Flush(newLsn: Lsn, oDsync: bool, fileFlushOk: bool) returns (success: bool)
      requires newLsn >= flushedToDiskLsn
      modifies this
      ensures success == (oDsync || fileFlushOk)
      ensures success ==> flushedToDiskLsn == newLsn
      ensures !success ==> flushedToDiskLsn == old(flushedToDiskLsn)
      ensures flushedToDiskLsn >= old(flushedToDiskLsn)
      ensures writeLsn == old(writeLsn) && lsn == old(lsn)
      ensures Fields() == old(Fields()).(flushedToDiskLsn := flushedToDiskLsn)
      ensures old(Valid()) ==> Valid()
    {
      success := oDsync || fileFlushOk;
      if success {
        flushedToDiskLsn := newLsn;
      }
    }

    /**
     * persist (memory-mapped log): returns at once when the durable LSN is
     * already at least lsn; otherwise the compare-and-swap loop raises it to
     * lsn. The durable LSN never decreases.
     */
    method Persist(newLsn: Lsn)
      modifies this
      ensures flushedToDiskLsn == (if old(flushedToDiskLsn) >= newLsn then old(flushedToDiskLsn) else newLsn)
      ensures flushedToDiskLsn >= old(flushedToDiskLsn) && flushedToDiskLsn >= newLsn
      ensures writeLsn == old(writeLsn) && lsn == old(lsn)
      ensures Fields() == old(Fields()).(flushedToDiskLsn := flushedToDiskLsn)
      ensures old(Valid()) ==> Valid()
    {
      if flushedToDiskLsn >= newLsn {
        return;
      }
      flushedToDiskLsn := newLsn;
    }

    /**
     * resize_write_buf: the offset in the resize target of a write of length
     * bytes; when the write restarts at START_OFFSET, resize_lsn moves to
     * first_lsn plus the block-aligned distance of write_lsn from first_lsn.
     */
    method ResizeWriteBuf(length: nat) returns (offset: nat)
      requires Valid() && resizeLsn <= writeLsn && resizeTarget > START_OFFSET && firstLsn <= writeLsn
      requires resizeTarget % blockSize == 0 && length % blockSize == 0
      requires blockSize <= length <= resizeTarget
      modifies this
      ensures writeLsn == old(writeLsn) && firstLsn == old(firstLsn) && resizeTarget == old(resizeTarget)
      ensures var r := ResizeWriteOffset(old(writeLsn), old(resizeLsn), blockSize, resizeTarget, length);
              && offset == r.offset
              && resizeLsn == (if r.restarted then Add64(firstLsn, RoundDown(writeLsn - firstLsn, blockSize))
                               else old(resizeLsn))
      ensures Fields() == old(Fields()).(resizeLsn := resizeLsn)
      ensures Valid()
    {
      var resizing := resizeLsn;
      offset := START_OFFSET + RoundDown(writeLsn - resizing, blockSize) % (resizeTarget - START_OFFSET);
      if offset + length > resizeTarget {
        offset := START_OFFSET;
        resizeLsn := Add64(firstLsn, RoundDown(writeLsn - firstLsn, blockSize));
      }
    }

    /**
     * One pass of log_checkpoint_margin while the check flag is set: the
     * flag is cleared exactly when the decision is FlagCleared.
     */
    method CheckpointMargin() returns (action: MarginAction)
      requires checkFlushOrCheckpoint
      modifies this
      ensures action == CheckpointMarginDecision(lsn, lastCheckpointLsn, maxCheckpointAge)
      ensures checkFlushOrCheckpoint <==> action.WaitFlushed?
      ensures lsn == old(lsn) && lastCheckpointLsn == old(lastCheckpointLsn)
      ensures maxCheckpointAge == old(maxCheckpointAge)
      ensures Fields() == old(Fields()).(checkFlushOrCheckpoint := checkFlushOrCheckpoint)
      ensures old(Valid()) ==> Valid()
    {
      var checkpoint := lastCheckpointLsn;
      var syncLsn := Add64(checkpoint, maxCheckpointAge);
      if lsn <= syncLsn {
        checkFlushOrCheckpoint := false;
        return FlagCleared;
      }
      var step := Add64(checkpoint, 0x10_0000);
      action := WaitFlushed(if syncLsn <= step then syncLsn else step);
    }
  }
}

=== FILE: wrappers.dfy ===
/** Option and Result values used where the source returns a null pointer or a non-zero status. */
module Wrappers {

  datatype Option<+T> = None | Some(value: T)

  /** An operation that either succeeds with a value or fails with an error code. */
  datatype Result<+T, +E> = Ok(value: T) | Err(error: E)
}

=== FILE: wsrep_thd.dfy ===
/**
 * Galera (wsrep) handling of a session thread (THD): the exec-mode
 * predicates, the conflict-state transitions performed by the brute-force
 * (BF) abort path (wsrep_abort_thd, wsrep_kill), the client rollback and the
 * rollbacker's drain of the aborting queue, the replay of a transaction, and
 * the save and restore of session fields around BF mode. Mutexes, thread
 * creation, provider calls and the storage engine are not modelled: a
 * provider's status code is a parameter, and a call that ends the server
 * process is an outcome.
 */
module WsrepThd {
  import opened Wrappers

  datatype ExecMode = LocalState | ReplRecv | TotalOrder | LocalCommit

  datatype ConflictState = NoConflict | MustAbort | Aborting | Aborted | MustReplay | Replaying

  datatype QueryState = QueryIdle | QueryExec | QueryCommitting | QueryExiting | QueryRollback

  datatype OsuMethod = OsuToi | OsuRsu

  datatype Isolation = ReadUncommitted | ReadCommitted | RepeatableRead | Serializable

  /** The bits of variables.option_bits this code touches; every other bit is kept as is. */
  datatype OptionBit = OptionLogOff | OptionBinLog | OptionBegin | OptionTableLock | OtherOption(bit: nat)

  /** The bits of server_status this code touches. */
  datatype StatusBit = StatusInTrans | OtherStatus(bit: nat)

  /** A status code returned by the replication provider. */
  datatype ProviderStatus = WsrepOk | WsrepWarning | WsrepTrxFail | WsrepOther(code: int)

  /** The session state of a THD as this code sees it. */
  datatype ThdView = ThdView(
    execMode: ExecMode,
    conflictState: ConflictState,
    queryState: QueryState,
    optionBits: set<OptionBit>,
    serverStatus: set<StatusBit>,
    vio: Option<nat>,              // net.vio; None is the null connection of an applier
    varTxIsolation: Isolation,     // variables.tx_isolation
    txIsolation: Isolation,        // tx_isolation
    db: Option<string>,
    userTime: int,
    rowCountFunc: int,
    hasRgi: bool,                  // wsrep_rgi != NULL
    hasRplSqlInfo: bool,           // system_thread_info.rpl_sql_info allocated
    autoIncOffset: nat,
    autoIncIncrement: nat,
    lockedTablesMode: bool,
    holdsTableLock: bool,          // thd->lock != NULL
    globalReadLock: bool,
    binlogTableMaps: nat,
    wsrepOn: bool,                 // variables.wsrep_on
    osuMethod: OsuMethod)

  /** struct wsrep_thd_shadow: the fields BF mode overrides and later restores. */
  datatype WsrepThdShadow = WsrepThdShadow(
    options: set<OptionBit>,
    serverStatus: set<StatusBit>,
    execMode: ExecMode,
    vio: Option<nat>,
    txIsolation: Isolation,
    db: Option<string>,
    userTime: int,
    rowCountFunc: int)

  /** A session thread; its session record is updated in place. */
  class Thd {
    var session: ThdView
    /** Every conflict state assigned to this THD, in order. */
    ghost var trail: seq<ConflictState>

    constructor(v: ThdView)
      ensures session == v && trail == []
    {
      session := v;
      trail := [];
    }

    /** wsrep_thd_set_conflict_state. */
    method SetConflictState(s: ConflictState)
      modifies this
      ensures session == old(session).(conflictState := s)
      ensures trail == old(trail) + [s]
    {
      session := session.(conflictState := s);
      trail := trail + [s];
    }

    /** unlock_locked_tables followed by clearing OPTION_TABLE_LOCK, when tables are locked. */
    method ReleaseTableLocks()
      modifies this
      ensures session == ReleaseTableLock(old(session))
      ensures trail == old(trail)
    {
      if session.lockedTablesMode && session.holdsTableLock {
        session := session.(lockedTablesMode := false, holdsTableLock := false,
                            optionBits := session.optionBits - {OptionTableLock});
      }
    }
  }

  /*
   * ---------------------------------------------------------------------
   * Exec-mode predicates
   * ---------------------------------------------------------------------
   */

  /** wsrep_thd_conflict_state: NO_CONFLICT for a null THD. */
  function ConflictStateOf(thd: Thd?): (s: ConflictState)
    reads thd
    ensures thd == null ==> s == NoConflict
    ensures thd != null ==> s == thd.session.conflictState
  {
    if thd == null then NoConflict else thd.session.conflictState
  }

  /** wsrep_thd_is_BF_or_commit: an applier, a total-order or a committing thread. */
  predicate IsBfOrCommit(thd: Thd?)
    reads thd
    ensures IsBfOrCommit(thd) <==> thd != null && !thd.session.execMode.LocalState?
  {
    thd != null && thd.session.execMode in {ReplRecv, TotalOrder, LocalCommit}
  }

  /** wsrep_thd_is_local: a thread executing a local transaction. */
  predicate IsLocal(thd: Thd?)
    reads thd
    ensures IsLocal(thd) <==> thd != null && !IsBfOrCommit(thd)
  {
    thd != null && thd.session.execMode == LocalState
  }

  /** WSREP(thd): wsrep is on globally and for the session. */
  predicate Wsrep(wsrepOnGlobal: bool, thd: Thd?)
    reads thd
  {
    wsrepOnGlobal && thd != null && thd.session.wsrepOn
  }

  /**
   * wsrep_thd_is_BF: a wsrep thread (a provider is loaded) that is an
   * applier or executes in total order.
   */
  function IsBf(wsrepOnGlobal: bool, providerExists: bool, thd: Thd?): (r: bool)
    reads thd
    ensures r ==> IsBfOrCommit(thd) && !IsLocal(thd)
    ensures r <==> Wsrep(wsrepOnGlobal, thd) && providerExists && !IsLocal(thd) && !IsLocalCommit(thd)
  {
    if thd != null && Wsrep(wsrepOnGlobal, thd) && providerExists then
      thd.session.execMode == ReplRecv || thd.session.execMode == TotalOrder
    else false
  }

  predicate IsLocalCommit(thd: Thd?)
    reads thd
  {
    thd != null && thd.session.execMode == LocalCommit
  }

  /** Every THD is exactly one of local or BF-or-committing; a null THD is neither. */
  lemma ExecModeClassification(thd: Thd?)
    ensures thd == null ==> !IsBfOrCommit(thd) && !IsLocal(thd)
    ensures thd != null ==> (IsBfOrCommit(thd) <==> !IsLocal(thd))
  {
  }

  datatype AutoInc = AutoInc(offset: nat, increment: nat)

  /**
   * wsrep_thd_auto_increment_variables: an applier that is not replaying
   * uses the global offset and increment; every other thread its session's.
   */
  function AutoIncrementVariables(thd: Thd, global: AutoInc): (r: AutoInc)
    reads thd
    ensures thd.session.execMode == ReplRecv && thd.session.conflictState != Replaying ==> r == global
    ensures thd.session.execMode != ReplRecv || thd.session.conflictState == Replaying ==>
              r == AutoInc(thd.session.autoIncOffset, thd.session.autoIncIncrement)
  {
    if thd.session.execMode == ReplRecv && thd.session.conflictState != Replaying then global
    else AutoInc(thd.session.autoIncOffset, thd.session.autoIncIncrement)
  }

  /** A local thread, and a thread replaying its own transaction, keep their session's settings. */
  lemma SessionAutoIncForLocalAndReplaying(thd: Thd, global: AutoInc)
    requires IsLocal(thd) || thd.session.conflictState == Replaying
    ensures AutoIncrementVariables(thd, global) == AutoInc(thd.session.autoIncOffset, thd.session.autoIncIncrement)
  {
  }

  /*
   * ---------------------------------------------------------------------
   * wsrep_abort_thd
   * ---------------------------------------------------------------------
   */

  /**
   * Whether wsrep_abort_thd asks the storage engine to abort the victim's
   * transaction: the aborter is a wsrep thread, or a total-order thread
   * while wsrep is on or schema upgrades run in rolling mode; the victim
   * exists and is not already being aborted. The function always returns 1.
   */
  datatype AbortOutcome = AbortOutcome(rc: int, abortRequested: bool)

  function AbortThd(wsrepOnGlobal: bool, bf: Thd, victim: Thd?): (r: AbortOutcome)
    reads bf, victim
    ensures r.rc == 1
    ensures r.abortRequested ==> victim != null && victim.session.conflictState !in {MustAbort, Aborted, Aborting}
    ensures victim != null && victim.session.conflictState in {MustAbort, Aborted, Aborting} ==> !r.abortRequested
    ensures victim != null && victim.session.conflictState !in {MustAbort, Aborted, Aborting} ==>
              (r.abortRequested <==> Wsrep(wsrepOnGlobal, bf) ||
                                     ((wsrepOnGlobal || bf.session.osuMethod == OsuRsu) && bf.session.execMode == TotalOrder))
  {
    var effective := Wsrep(wsrepOnGlobal, bf) ||
                     ((wsrepOnGlobal || bf.session.osuMethod == OsuRsu) && bf.session.execMode == TotalOrder);
    if effective && victim != null then
      if victim.session.conflictState == MustAbort || victim.session.conflictState == Aborted || victim.session.conflictState == Aborting then
        AbortOutcome(1, false)
      else
        AbortOutcome(1, true)
    else
      AbortOutcome(1, false)
  }

  /*
   * ---------------------------------------------------------------------
   * wsrep_kill
   * ---------------------------------------------------------------------
   */

  /**
   * What wsrep_kill does to a victim it found: its return code, the
   * victim's new conflict state, whether the victim is added to the
   * aborting queue, whether it is woken up, and whether the server process
   * is aborted (an applier that cannot be killed, or a pre-commit abort the
   * provider refused).
   */
  datatype KillAction = KillAction(rc: int, newState: ConflictState, enqueue: bool, awaken: bool, processAbort: bool)

  /**
   * The decision of wsrep_kill for a victim in state v; inQueue says whether
   * it is already in the aborting queue and preCommit is the provider's
   * answer to abort_pre_commit (consulted only for a committing local victim).
   */
  function KillDecision(v: ThdView, inQueue: bool, waitLock: bool, preCommit: ProviderStatus): (r: KillAction)
    ensures v.queryState == QueryExiting ==> r == KillAction(0, v.conflictState, false, false, false)
    ensures v.queryState != QueryExiting && v.conflictState != NoConflict ==>
              && r.newState == v.conflictState && r.rc == 0 && !r.enqueue && !r.processAbort
              && (r.awaken <==> v.conflictState == MustAbort)
    ensures v.conflictState == NoConflict && v.queryState != QueryExiting ==>
              r.newState == (if v.queryState == QueryIdle && v.execMode != ReplRecv then Aborting else MustAbort)
    ensures r.enqueue <==> v.conflictState == NoConflict && v.queryState == QueryIdle && v.execMode != ReplRecv && !inQueue
    ensures r.processAbort <==>
              && v.queryState != QueryExiting && v.conflictState == NoConflict
              && (|| (v.execMode == ReplRecv &&
                      (v.queryState in {QueryCommitting, QueryIdle} || (v.queryState == QueryExec && !waitLock)))
                  || (v.execMode != ReplRecv && v.queryState == QueryCommitting &&
                      preCommit !in {WsrepOk, WsrepWarning}))
    ensures r.awaken <==>
              && v.queryState != QueryExiting
              && (|| v.conflictState == MustAbort
                  || (v.conflictState == NoConflict && v.queryState == QueryExec)
                  || (v.conflictState == NoConflict && v.queryState == QueryCommitting &&
                      v.execMode != ReplRecv && preCommit in {WsrepOk, WsrepWarning}))
    ensures r.rc == 1 <==>
              v.conflictState == NoConflict && v.queryState == QueryCommitting && v.execMode != ReplRecv && preCommit == WsrepWarning
    ensures r.rc in {0, 1}
  {
    if v.queryState == QueryExiting then KillAction(0, v.conflictState, false, false, false)
    else match v.conflictState
      case NoConflict =>
        (match v.queryState
          case QueryCommitting =>
            if v.execMode == ReplRecv then KillAction(0, MustAbort, false, false, true)
            else (match preCommit
              case WsrepWarning => KillAction(1, MustAbort, false, true, false)
              case WsrepOk => KillAction(0, MustAbort, false, true, false)
              case _ => KillAction(0, MustAbort, false, false, true))
          case QueryExec => KillAction(0, MustAbort, false, true, !waitLock && v.execMode == ReplRecv)
          case QueryIdle =>
            if v.execMode == ReplRecv then KillAction(0, MustAbort, false, false, true)
            else KillAction(0, Aborting, !inQueue, false, false)
          case _ => KillAction(0, MustAbort, false, false, false))
      case MustAbort => KillAction(0, MustAbort, false, true, false)
      case _ => KillAction(0, v.conflictState, false, false, false)
  }

  /** The conflict states wsrep_kill assigns on its way to the decision's new state. */
  function KillTrail(v: ThdView, r: KillAction): (t: seq<ConflictState>)
    ensures |t| <= 2 && forall i | 0 <= i < |t| :: t[i] in {MustAbort, Aborting}
  {
    if v.queryState != QueryExiting && v.conflictState == NoConflict then
      if r.newState == Aborting then [MustAbort, Aborting] else [MustAbort]
    else []
  }

  /** A victim already being aborted, or already aborted, is left exactly as it is. */
  lemma KillLeavesAbortingAlone(v: ThdView, inQueue: bool, waitLock: bool, preCommit: ProviderStatus)
    requires v.conflictState in {MustAbort, Aborting, Aborted}
    ensures var r := KillDecision(v, inQueue, waitLock, preCommit);
            r.newState == v.conflictState && !r.enqueue && !r.processAbort && KillTrail(v, r) == []
  {
  }

  /** A kill never moves a victim back to NO_CONFLICT. */
  lemma KillNeverClearsConflict(v: ThdView, inQueue: bool, waitLock: bool, preCommit: ProviderStatus)
    requires v.conflictState != NoConflict
    ensures KillDecision(v, inQueue, waitLock, preCommit).newState != NoConflict
  {
  }

  /** rollback-relevant effect of wsrep_client_rollback on the session. */
  function ReleaseTableLock(v: ThdView): (r: ThdView)
    ensures !(r.lockedTablesMode && r.holdsTableLock)
    ensures v.lockedTablesMode && v.holdsTableLock ==> OptionTableLock !in r.optionBits
    ensures r.conflictState == v.conflictState && r.execMode == v.execMode
  {
    if v.lockedTablesMode && v.holdsTableLock then
      v.(lockedTablesMode := false, holdsTableLock := false, optionBits := v.optionBits - {OptionTableLock})
    else v
  }

  /**
   * The session after wsrep_client_rollback: ABORTED, table locks and the
   * global read lock released, binlog table maps cleared.
   */
  function RolledBack(v: ThdView): (r: ThdView)
    ensures r.conflictState == Aborted && !r.globalReadLock && r.binlogTableMaps == 0
    ensures !(r.lockedTablesMode && r.holdsTableLock)
    ensures r.execMode == v.execMode && r.queryState == v.queryState && r.db == v.db
  {
    ReleaseTableLock(v).(conflictState := Aborted, globalReadLock := false, binlogTableMaps := 0)
  }

  /** Rolling back a rolled-back session changes nothing more. */
  lemma RolledBackIdempotent(v: ThdView)
    ensures RolledBack(RolledBack(v)) == RolledBack(v)
  {
  }

  /*
   * ---------------------------------------------------------------------
   * BF mode: wsrep_prepare_bf_thd / wsrep_return_from_bf_mode
   * ---------------------------------------------------------------------
   */

  /** The fields wsrep_prepare_bf_thd saves. */
  function ShadowOf(v: ThdView): (s: WsrepThdShadow)
    ensures s.execMode == v.execMode && s.vio == v.vio && s.db == v.db
  {
    WsrepThdShadow(v.optionBits, v.serverStatus, v.execMode, v.vio, v.varTxIsolation, v.db, v.userTime, v.rowCountFunc)
  }

  /**
   * The session in BF mode: general logging off, binary logging exactly when
   * log_slave_updates is set, an applier's exec mode, no connection, READ
   * COMMITTED isolation, no current database, relay group and SQL-thread
   * info allocated.
   */
  function BfMode(v: ThdView, optLogSlaveUpdates: bool): (r: ThdView)
    ensures r.execMode == ReplRecv && r.vio == None && r.db == None
    ensures OptionLogOff in r.optionBits
    ensures OptionBinLog in r.optionBits <==> optLogSlaveUpdates
    ensures r.varTxIsolation == ReadCommitted && r.txIsolation == ReadCommitted
    ensures r.hasRgi && r.hasRplSqlInfo
    ensures r.conflictState == v.conflictState && r.serverStatus == v.serverStatus
  {
    var withLogOff := v.optionBits + {OptionLogOff};
    var bits := if optLogSlaveUpdates then withLogOff + {OptionBinLog} else withLogOff - {OptionBinLog};
    v.(optionBits := bits, hasRgi := true, hasRplSqlInfo := true, execMode := ReplRecv, vio := None,
       varTxIsolation := ReadCommitted, txIsolation := ReadCommitted, db := None)
  }

  /** Entering BF mode touches no option bit other than the two logging bits. */
  lemma BfModeKeepsOtherOptions(v: ThdView, optLogSlaveUpdates: bool, b: OptionBit)
    requires b != OptionLogOff && b != OptionBinLog
    ensures b in BfMode(v, optLogSlaveUpdates).optionBits <==> b in v.optionBits
  {
  }

  /** The session after wsrep_return_from_bf_mode with the given shadow. */
  function FromBfMode(v: ThdView, s: WsrepThdShadow): (r: ThdView)
    ensures ShadowOf(r) == s
    ensures !r.hasRgi && !r.hasRplSqlInfo
    ensures r.conflictState == v.conflictState && r.txIsolation == v.txIsolation
  {
    v.(optionBits := s.options, serverStatus := s.serverStatus, execMode := s.execMode, vio := s.vio,
       varTxIsolation := s.txIsolation, userTime := s.userTime, db := s.db,
       hasRplSqlInfo := false, hasRgi := false, rowCountFunc := s.rowCountFunc)
  }

  /**
   * Entering BF mode and returning from it gives the session back, except
   * that tx_isolation stays READ COMMITTED (only variables.tx_isolation is
   * restored) and the relay group is gone. Whatever is done to the saved
   * fields in between is undone as well.
   */
  lemma {:induction false} BfModeRoundTrip(v: ThdView, optLogSlaveUpdates: bool, inBf: ThdView)
    requires inBf.conflictState == v.conflictState && inBf.txIsolation == ReadCommitted
    requires inBf.(optionBits := v.optionBits, serverStatus := v.serverStatus, execMode := v.execMode, vio := v.vio,
                   varTxIsolation := v.varTxIsolation, txIsolation := v.txIsolation, db := v.db,
                   userTime := v.userTime, rowCountFunc := v.rowCountFunc, hasRgi := v.hasRgi,
                   hasRplSqlInfo := v.hasRplSqlInfo) == v
    ensures FromBfMode(inBf, ShadowOf(v)) == v.(txIsolation := ReadCommitted, hasRgi := false, hasRplSqlInfo := false)
  {
    var r := FromBfMode(inBf, ShadowOf(v));
    assert r.autoIncOffset == v.autoIncOffset && r.lockedTablesMode == v.lockedTablesMode;
  }

  /** The plain round trip: BF mode entered and left at once. */
  lemma BfModeRoundTripDirect(v: ThdView, optLogSlaveUpdates: bool)
    ensures FromBfMode(BfMode(v, optLogSlaveUpdates), ShadowOf(v))
            == v.(txIsolation := ReadCommitted, hasRgi := false, hasRplSqlInfo := false)
  {
    BfModeRoundTrip(v, optLogSlaveUpdates, BfMode(v, optLogSlaveUpdates));
  }

  /*
   * ---------------------------------------------------------------------
   * Global wsrep state
   * ---------------------------------------------------------------------
   */

  /** How wsrep_replay_transaction ends. */
  datatype ReplayOutcome = NotReplayed | Replayed | ReplayAborted | ServerAborted

  /** A THD after the rollbacker handled it. */
  function Drained(v: ThdView): (r: ThdView)
    ensures r.conflictState == Aborted
    ensures r.execMode == v.execMode && r.queryState == v.queryState
  {
    if v.conflictState == Aborted then v else RolledBack(v)
  }

  /** The conflict states the rollbacker assigns to a THD found in state s. */
  function DrainTrail(s: ConflictState): (t: seq<ConflictState>)
    ensures t == [] <==> s == Aborted
  {
    if s == Aborted then [] else [Aborting, Aborting, Aborted]
  }

  predicate NoDuplicates(q: seq<Thd>) {
    forall i, j | 0 <= i < j < |q| :: q[i] != q[j]
  }

  /** Putting a THD that is not queued in front of a queue without duplicates keeps it without duplicates. */
  lemma NoDuplicatesCons(t: Thd, q: seq<Thd>)
    requires NoDuplicates(q) && t !in q
    ensures NoDuplicates([t] + q)
  {
    forall a, b | 0 <= a < b < |[t] + q| ensures ([t] + q)[a] != ([t] + q)[b] {
      if a > 0 {
        assert ([t] + q)[a] == q[a - 1];
      }
      assert ([t] + q)[b] == q[b - 1];
    }
  }

  /** A suffix of a queue without duplicates has none either. */
  lemma NoDuplicatesSuffix(q: seq<Thd>, i: nat)
    requires NoDuplicates(q) && i <= |q|
    ensures NoDuplicates(q[i..])
  {
    forall a, b | 0 <= a < b < |q[i..]| ensures q[i..][a] != q[i..][b] {
      assert q[i..][a] == q[i + a] && q[i..][b] == q[i + b];
    }
  }

  function SessionsOf(q: seq<Thd>): (s: seq<ThdView>)
    reads set t | t in q
    ensures |s| == |q| && forall i | 0 <= i < |q| :: s[i] == q[i].session
  {
    if q == [] then [] else [q[0].session] + SessionsOf(q[1..])
  }

  ghost function TrailsOf(q: seq<Thd>): (s: seq<seq<ConflictState>>)
    reads set t | t in q
    ensures |s| == |q| && forall i | 0 <= i < |q| :: s[i] == q[i].trail
  {
    if q == [] then [] else [q[0].trail] + TrailsOf(q[1..])
  }

  /** The number of sessions not yet ABORTED. */
  function CountNotAborted(s: seq<ThdView>): (n: nat)
    ensures n <= |s|
    ensures (forall i | 0 <= i < |s| :: s[i].conflictState == Aborted) ==> n == 0
  {
    if s == [] then 0 else (if s[0].conflictState == Aborted then 0 else 1) + CountNotAborted(s[1..])
  }

  /**
   * The process-wide wsrep state: the BF abort counter, the queue of THDs
   * waiting for the rollbacker, the number of transactions being replayed,
   * and the settings wsrep_prepare_bf_thd reads.
   */
  class WsrepContext {
    var bfAbortsCounter: int
    /** wsrep_aborting_thd; the head is the next entry the rollbacker takes. */
    var abortingQueue: seq<Thd>
    var replaying: int
    const optLogSlaveUpdates: bool

    predicate Valid()
      reads this
    {
      NoDuplicates(abortingQueue)
    }

    constructor(optLogSlaveUpdates: bool)
      ensures Valid() && abortingQueue == [] && bfAbortsCounter == 0 && replaying == 0
      ensures this.optLogSlaveUpdates == optLogSlaveUpdates
    {
      bfAbortsCounter, abortingQueue, replaying := 0, [], 0;
      this.optLogSlaveUpdates := optLogSlaveUpdates;
    }

    /**
     * wsrep_client_rollback: the BF abort counter goes up by one; the
     * session passes through ABORTING to ABORTED while its transaction is
     * rolled back and its locks and table maps are released.
     */
    method ClientRollback(thd: Thd)
      modifies this, thd
      ensures bfAbortsCounter == old(bfAbortsCounter) + 1
      ensures abortingQueue == old(abortingQueue) && replaying == old(replaying)
      ensures thd.session == RolledBack(old(thd.session))
      ensures thd.trail == old(thd.trail) + [Aborting, Aborted]
    {
      bfAbortsCounter := bfAbortsCounter + 1;
      thd.SetConflictState(Aborting);
      thd.ReleaseTableLocks();
      thd.session := thd.session.(globalReadLock := false, binlogTableMaps := 0);
      thd.SetConflictState(Aborted);
    }

    /**
     * wsrep_kill for a victim looked up by id (null when not found). The
     * victim's conflict state and the aborting queue follow KillDecision;
     * nothing else about the victim changes.
     */
    method Kill(victim: Thd?, waitLock: bool, preCommit: ProviderStatus) returns (rc: int, action: Option<KillAction>)
      requires Valid()
      modifies this, victim
      ensures Valid() && bfAbortsCounter == old(bfAbortsCounter) && replaying == old(replaying)
      ensures victim == null ==> rc == 0 && action == None && abortingQueue == old(abortingQueue)
      ensures victim != null ==>
                && action == Some(KillDecision(old(victim.session), old(victim in abortingQueue), waitLock, preCommit))
                && rc == action.value.rc
                && victim.session == old(victim.session).(conflictState := action.value.newState)
                && victim.trail == old(victim.trail) + KillTrail(old(victim.session), action.value)
                && abortingQueue == (if action.value.enqueue then [victim] + old(abortingQueue) else old(abortingQueue))
    {
      if victim == null {
        return 0, None;
      }
      var inQueue := victim in abortingQueue;
      var a := KillDecision(victim.session, inQueue, waitLock, preCommit);
      assert a.enqueue <==> && victim.session.queryState != QueryExiting && victim.session.conflictState == NoConflict
                            && a.newState == Aborting && !inQueue;
      if victim.session.queryState != QueryExiting && victim.session.conflictState == NoConflict {
        victim.SetConflictState(MustAbort);
        if a.newState == Aborting {
          victim.SetConflictState(Aborting);
          if !inQueue {
            NoDuplicatesCons(victim, abortingQueue);
            abortingQueue := [victim] + abortingQueue;
          }
        }
      }
      return a.rc, Some(a);
    }

    /**
     * wsrep_prepare_bf_thd: the saved fields are returned and the session
     * enters BF mode.
     */
    method PrepareBfThd(thd: Thd) returns (shadow: WsrepThdShadow)
      modifies thd
      ensures shadow == ShadowOf(old(thd.session))
      ensures thd.session == BfMode(old(thd.session), optLogSlaveUpdates)
      ensures thd.trail == old(thd.trail)
    {
      var v := thd.session;
      shadow := WsrepThdShadow(v.optionBits, v.serverStatus, v.execMode, v.vio,
                               v.varTxIsolation, v.db, v.userTime, v.rowCountFunc);
      var bits := v.optionBits + {OptionLogOff};
      if optLogSlaveUpdates {
        bits := bits + {OptionBinLog};
      } else {
        bits := bits - {OptionBinLog};
      }
      thd.session := v.(optionBits := bits, hasRgi := true, hasRplSqlInfo := true,
                        execMode := ReplRecv, vio := None,
                        varTxIsolation := ReadCommitted, txIsolation := ReadCommitted, db := None);
    }

    /** wsrep_return_from_bf_mode: the saved fields come back; the relay group is freed. */
    method ReturnFromBfMode(thd: Thd, shadow: WsrepThdShadow)
      modifies thd
      ensures thd.session == FromBfMode(old(thd.session), shadow)
      ensures thd.trail == old(thd.trail)
    {
      thd.session := thd.session.(optionBits := shadow.options, serverStatus := shadow.serverStatus,
                                  execMode := shadow.execMode, vio := shadow.vio,
                                  varTxIsolation := shadow.txIsolation, userTime := shadow.userTime,
                                  db := shadow.db, hasRplSqlInfo := false, hasRgi := false,
                                  rowCountFunc := shadow.rowCountFunc);
    }

    /**
     * wsrep_replay_transaction. Only a local session in MUST_REPLAY is
     * replayed: it goes to REPLAYING, releases its table locks, runs the
     * replay in BF mode (inside a transaction), and ends in NO_CONFLICT when
     * the provider replayed it or ABORTED when the transaction failed; any
     * other provider status aborts the server. The replaying counter drops
     * by one after a replay.
     */
    method ReplayTransaction(thd: Thd, replayRc: ProviderStatus) returns (outcome: ReplayOutcome)
      modifies this, thd
      ensures bfAbortsCounter == old(bfAbortsCounter) && abortingQueue == old(abortingQueue)
      ensures outcome == NotReplayed <==> old(thd.session.conflictState) != MustReplay || old(thd.session.execMode) == ReplRecv
      ensures outcome == NotReplayed ==> thd.session == old(thd.session) && replaying == old(replaying)
      ensures outcome != NotReplayed ==>
                && outcome == (match replayRc
                                 case WsrepOk => Replayed
                                 case WsrepTrxFail => ReplayAborted
                                 case _ => ServerAborted)
                && |thd.trail| > |old(thd.trail)|
                && thd.trail[..|old(thd.trail)|] == old(thd.trail)
                && thd.trail[|old(thd.trail)|] == Replaying
      ensures outcome in {Replayed, ReplayAborted} ==>
                && replaying == old(replaying) - 1
                && thd.session == FromBfMode(ReleaseTableLock(old(thd.session)), ShadowOf(ReleaseTableLock(old(thd.session))))
                                     .(conflictState := if outcome == Replayed then NoConflict else Aborted,
                                       txIsolation := ReadCommitted)
                && thd.trail == old(thd.trail) + [Replaying, thd.session.conflictState]
    {
      if thd.session.conflictState != MustReplay || thd.session.execMode == ReplRecv {
        return NotReplayed;
      }
      thd.SetConflictState(Replaying);
      thd.ReleaseTableLocks();
      ghost var before := thd.session;
      var shadow := PrepareBfThd(thd);
      thd.session := thd.session.(optionBits := thd.session.optionBits + {OptionBegin},
                                  serverStatus := thd.session.serverStatus + {StatusInTrans});
      ReturnFromBfMode(thd, shadow);
      match replayRc {
        case WsrepOk =>
          thd.SetConflictState(NoConflict);
          outcome := Replayed;
        case WsrepTrxFail =>
          thd.SetConflictState(Aborted);
          outcome := ReplayAborted;
        case _ =>
          return ServerAborted;
      }
      replaying := replaying - 1;
    }

    /**
     * The rollbacker takes the head of the queue off it; the THD is skipped when
     * already ABORTED, otherwise set to ABORTING and rolled back.
     */
    method RollbackOne() returns (aborting: Thd)
      requires Valid() && abortingQueue != []
      modifies this, abortingQueue[0]
      ensures Valid() && aborting == old(abortingQueue[0]) && abortingQueue == old(abortingQueue[1..])
      ensures replaying == old(replaying)
      ensures aborting.session == Drained(old(aborting.session))
      ensures aborting.trail == old(aborting.trail) + DrainTrail(old(aborting.session.conflictState))
      ensures bfAbortsCounter == old(bfAbortsCounter) + (if old(aborting.session.conflictState) == Aborted then 0 else 1)
    {
      aborting := abortingQueue[0];
      abortingQueue := abortingQueue[1..];
      if aborting.session.conflictState == Aborted {
        return;
      }
      aborting.SetConflictState(Aborting);
      ClientRollback(aborting);
    }

    /** RollbackOne when the queue is the suffix of q from position i: the rest of q is untouched. */
    method RollbackAt(ghost q: seq<Thd>, ghost i: nat, ghost sessions: seq<ThdView>, ghost trails: seq<seq<ConflictState>>)
      requires NoDuplicates(q) && i < |q| && abortingQueue == q[i..]
      requires |sessions| == |q| == |trails| && q[i].session == sessions[i] && q[i].trail == trails[i]
      modifies this, q[i]
      ensures abortingQueue == q[i + 1..] && replaying == old(replaying)
      ensures q[i].session == Drained(sessions[i])
      ensures q[i].trail == trails[i] + DrainTrail(sessions[i].conflictState)
      ensures bfAbortsCounter + CountNotAborted(sessions[i + 1..]) == old(bfAbortsCounter) + CountNotAborted(sessions[i..])
      ensures forall j | 0 <= j < |q| && j != i :: q[j].session == old(q[j].session) && q[j].trail == old(q[j].trail)
    {
      assert sessions[i..][1..] == sessions[i + 1..];
      NoDuplicatesSuffix(q, i);
      assert q[i..][1..] == q[i + 1..];
      var aborting := RollbackOne();
      assert forall j | 0 <= j < |q| && j != i :: q[j] != q[i];
    }

    /**
     * One drain of wsrep_rollback_process: every queued THD is taken off the
     * queue, head first, and handled by RollbackOne. Afterwards the queue is
     * empty, every THD that was queued is ABORTED, and the counter has gone
     * up once per THD that was not already ABORTED.
     */
    method RollbackProcess()
      requires Valid()
      modifies this, set t | t in abortingQueue
      ensures Valid() && abortingQueue == [] && replaying == old(replaying)
      ensures bfAbortsCounter == old(bfAbortsCounter) + CountNotAborted(old(SessionsOf(abortingQueue)))
      ensures forall j | 0 <= j < |old(abortingQueue)| ::
                && old(abortingQueue)[j].session == Drained(old(SessionsOf(abortingQueue))[j])
                && old(abortingQueue)[j].trail
                     == old(TrailsOf(abortingQueue))[j] + DrainTrail(old(SessionsOf(abortingQueue))[j].conflictState)
    {
      var q := abortingQueue;
      ghost var sessions, trails := SessionsOf(q), TrailsOf(q);
      var i := 0;
      while abortingQueue != []
        invariant 0 <= i <= |q| && abortingQueue == q[i..] && NoDuplicates(q)
        invariant replaying == old(replaying)
        invariant bfAbortsCounter + CountNotAborted(sessions[i..]) == old(bfAbortsCounter) + CountNotAborted(sessions)
        invariant forall j | 0 <= j < i ::
                    q[j].session == Drained(sessions[j]) && q[j].trail == trails[j] + DrainTrail(sessions[j].conflictState)
        invariant forall j | i <= j < |q| :: q[j].session == sessions[j] && q[j].trail == trails[j]
        decreases |q| - i
      {
        RollbackAt(q, i, sessions, trails);
        i := i + 1;
      }
    }
  }
}
